=== FILE: README.md ===
# SellPoint sales ledger in Dafny

This project models the server side of SellPoint, a point-of-sale system:

- the sales ledger, which creates a sale with its lines, takes the sold quantities off stock, stamps a ticket number, reads sales back and reverses them;
- the product ledger;
- the sales reports;
- the small directory repositories: customers, employees, categories, suppliers and session tokens;
- the relational schema those repositories write to.

It also models the checkout cart of the point-of-sale screen and the sale request the cart becomes.

The store is one immutable value `Esquema.Db`:

- every table with an identity column is a map from the id to the rest of the row;
- the sale lines (`DetalleVenta`) are a sequence of rows in insertion order;
- tokens are a map keyed by the token string.

The schema's keys, unique indexes and foreign keys form the invariant `Esquema.Valida`.

Every repository call runs in one database transaction. It is therefore a pure function from the store to either `Ok(Paso(db', value))`, the committed store and the call's result, or `Err(falla)`, with nothing written.

Wherever the source depends on something it cannot compute itself, the model takes it as a parameter:

- the clock is `ahora`, in whole seconds;
- the calendar year the ticket quotes is `anio`;
- the day `d` starts at second `d * 86400`;
- password hashing and checking are function parameters;
- the order in which the store returns the rows of a table is a sequence of ids, `ids`. The lines of one sale are read in insertion order, one of the orders the store may use; because the query sets no order, the properties that compare a read with a creation compare its lines as a multiset.

Money is an exact `real` and the tax rate is `0.16`.

Modules:

- `Wrappers`: `Option` and `Result`.
- `Texto`: decimal rendering, ASCII upper-casing, substring search and SQL `LIKE`.
- `Esquema`: the tables and the invariant.
- `Mensajes`: request and response shapes.
- `Productos`, `Ventas`, `Clientes`, `Empleados`, `Categorias`, `Proveedores` and `Tokens`: one module per repository.
- `PropiedadesVentas`: properties that relate several sale operations.
- `Reportes`: the reports.
- `Cobro`: the checkout cart.

Source paths below are relative to the repository root.

## Behaviour worth knowing

- **Unknown customer.** The repository never looks up the customer of a new sale. However, `Ventas.clienteId` is declared as a foreign key to `Clientes` (server/src/main/kotlin/org/joan/project/db/Entidades.kt:51), and the schema set-up creates that constraint. So the header insert fails for a non-null customer id that is not stored, and the whole sale rolls back. `Ventas.CrearVenta` returns `Err(ClaveForanea)` in that case. A customer missing at read time still yields a null `cliente` (`Ventas.ClienteDeVenta`).
- **Null password of an employee.** `EmpleadoRequest.contraseña` is nullable, and neither `crearEmpleado` nor `actualizarEmpleado` checks it before hashing. The hashing library concatenates the password into a string, so a null password is hashed as the text `null` (`Empleados.TextoClave`).
- **Empty item list.** `crearVenta` validates neither an empty item list nor non-positive quantities. The model accepts both (`PropiedadesVentas.VentaSinLineas`).
- **Duplicate products in one request.** A second line for the same product violates the primary key `(ventaId, productoId)` of `DetalleVenta`, and the whole sale fails with `ClaveDuplicada`.
- **Image path of a product.** `ProductoRequest` in server/src/main/kotlin/org/joan/project/db/entidades/Request.kt:37-44 declares no `imagenUrl` field, yet ProductoRepository.kt:33 and :63 read `productoRequest.imagenUrl`. Likewise `ProductoResponse` in server/src/main/kotlin/org/joan/project/db/entidades/Response.kt:14-22 declares no `imagenUrl`, yet ProductoRepository.kt:121 fills one. The model follows the repository: `Mensajes.ProductoRequest` and `Mensajes.ProductoResponse` both carry an optional `imagenUrl`.

## Model

| member | source | states |
|---|---|---|
| Texto.NatATextoInverso | server/src/main/kotlin/org/joan/project/db/repositories/VentaRepository.kt:49 | the decimal rendering used in the ticket template reads back to the number it renders |
| Texto.NatATextoInyectivo | server/src/main/kotlin/org/joan/project/db/repositories/VentaRepository.kt:49 | two numbers with the same decimal rendering are equal |
| Texto.Mayusculas | server/src/main/kotlin/org/joan/project/db/repositories/VentaRepository.kt:147 | upper-casing keeps the length, turns each of `a`..`z` into its capital (code point minus 32), leaves no lower-case letter and keeps every other character |
| Texto.MayusculasIdempotente | server/src/main/kotlin/org/joan/project/db/repositories/VentaRepository.kt:147 | upper-casing an already upper-case string changes nothing, so upper-casing twice is upper-casing once |
| Texto.LikeTodo | server/src/main/kotlin/org/joan/project/db/repositories/ProductoRepository.kt:100 | the pattern `%` matches every name |
| Texto.LikePrefijo | server/src/main/kotlin/org/joan/project/db/repositories/ProductoRepository.kt:100 | for a term with no special character, `term%` matches exactly the names that start with the term |
| Texto.LikeComodinInicial | server/src/main/kotlin/org/joan/project/db/repositories/ProductoRepository.kt:100 | a leading `%` matches exactly when the rest of the pattern matches some suffix of the name |
| Texto.BuscarEsContiene | server/src/main/kotlin/org/joan/project/db/repositories/ProductoRepository.kt:100 | for a term with no special character, `name LIKE %term%` holds exactly when the term occurs in the name |
| Productos.GetById | server/src/main/kotlin/org/joan/project/db/repositories/ProductoRepository.kt:18-23 | a product is found exactly when the join with category and supplier finds it (in a valid store: exactly when it exists), with every stored field |
| Productos.CambioSimpleValido | server/src/main/kotlin/org/joan/project/db/Entidades.kt:37-47 | changing only the stock or the price of one product keeps every schema constraint |
| Productos.SumarStock | server/src/main/kotlin/org/joan/project/db/repositories/ProductoRepository.kt:71-77 | true iff the product exists; that product's stock grows by the quantity; nothing else in the store changes; the invariant is kept |
| Productos.RestarStock | server/src/main/kotlin/org/joan/project/db/repositories/ProductoRepository.kt:80-86 | true iff the product exists; its stock drops by the quantity with no floor; nothing else changes |
| Productos.RestarLuegoSumar | server/src/main/kotlin/org/joan/project/db/repositories/ProductoRepository.kt:71-86 | taking a quantity out and putting it back gives the original store |
| Productos.ActualizarStock | server/src/main/kotlin/org/joan/project/db/repositories/ProductoRepository.kt:91-95 | true iff the product exists; only its stock is overwritten |
| Productos.ActualizarPrecio | server/src/main/kotlin/org/joan/project/db/repositories/ProductoRepository.kt:104-108 | true iff the product exists; only its price is overwritten |
| Productos.SumarEsActualizar | server/src/main/kotlin/org/joan/project/db/repositories/ProductoRepository.kt:71-95 | a relative stock change equals overwriting the stock with old stock plus the quantity |
| Productos.Aplicar | server/src/main/kotlin/org/joan/project/db/repositories/ProductoRepository.kt:56-64 | name, price, stock, category and supplier come from the request; a null barcode or image path keeps the stored value |
| Productos.Update | server/src/main/kotlin/org/joan/project/db/repositories/ProductoRepository.kt:44-68 | fails, writing nothing, exactly when another product holds the requested barcode or the new category or supplier does not exist; otherwise true iff the id existed, with only that row rewritten and the invariant kept |
| Productos.UpdateTalCual | server/src/main/kotlin/org/joan/project/db/repositories/ProductoRepository.kt:46-53 | as written, the duplicate check also fires on a null barcode when another product has none; with a barcode it behaves like `Update` |
| Productos.UpdateSinCodigoRechazado | server/src/main/kotlin/org/joan/project/db/repositories/ProductoRepository.kt:46-53 | in a valid store with two products without barcode, editing one without a barcode is refused as written and accepted by `Update` |
| Productos.Delete | server/src/main/kotlin/org/joan/project/db/repositories/ProductoRepository.kt:110-112 | true iff the product existed, after which `getById` is null and every other lookup is unchanged; refused while a sale line references it |
| Productos.BuscarProductosPorNombre | server/src/main/kotlin/org/joan/project/db/repositories/ProductoRepository.kt:98-102 | every result is a joined product whose name matches `%term%`, and every listed product that matches is in the result |
| Productos.BuscarDevuelveLosQueContienen | server/src/main/kotlin/org/joan/project/db/repositories/ProductoRepository.kt:98-102 | over all products and a term with no special character, a product is returned iff its name contains the term |
| Clientes.GetById | server/src/main/kotlin/org/joan/project/db/repositories/ClienteRepository.kt:15-19 | found iff the id is stored; the response carries that row's name and phone; null for an unknown id |
| Clientes.Create | server/src/main/kotlin/org/joan/project/db/repositories/ClienteRepository.kt:21-31 | a fresh id, under which `getById` returns the given name and phone; every other customer is unchanged |
| Clientes.Update | server/src/main/kotlin/org/joan/project/db/repositories/ClienteRepository.kt:33-38 | true iff the id existed; both fields are overwritten, a null phone included; others untouched |
| Clientes.Delete | server/src/main/kotlin/org/joan/project/db/repositories/ClienteRepository.kt:40-42 | true iff the id existed, after which `getById` is null; refused while a sale references the customer |
| Empleados.GetById | server/src/main/kotlin/org/joan/project/db/repositories/EmpleadoRepository.kt:33-43 | found iff the id is stored; the response carries that row's name, username and role, never the password |
| Empleados.Autenticar | server/src/main/kotlin/org/joan/project/db/repositories/EmpleadoRepository.kt:14-31 | returns an employee iff one holds the username and the password check passes against its hash; the result is that employee |
| Empleados.CrearEmpleadoTalCual | server/src/main/kotlin/org/joan/project/db/repositories/EmpleadoRepository.kt:56-75 | as written, every call fails: with a taken username it reports the clash, otherwise the insert finds no transaction in context |
| Empleados.CrearEmpleado | server/src/main/kotlin/org/joan/project/db/repositories/EmpleadoRepository.kt:56-75 | succeeds iff the username is free; the new employee gets a fresh id and the hash of the password, a null password hashed as the text `null`; every other employee is unchanged and usernames stay unique |
| Empleados.AltaEnTiendaVacia | server/src/main/kotlin/org/joan/project/db/repositories/EmpleadoRepository.kt:61-67 | in the empty store the first registration fails as written and succeeds with the insert inside the transaction |
| Empleados.TextoClave | server/src/main/kotlin/org/joan/project/db/repositories/EmpleadoRepository.kt:61 | the text handed to the hash call: the password itself, or the four letters `null` for a null password |
| Empleados.ActualizarEmpleadoTalCual | server/src/main/kotlin/org/joan/project/db/repositories/EmpleadoRepository.kt:78-98 | as written: fails iff a different employee holds the username; otherwise true iff the id existed, and name, username, role and the hash of the password (of `null` for a null password) overwrite that row only |
| Empleados.ActualizarEmpleado | server/src/main/kotlin/org/joan/project/db/repositories/EmpleadoRepository.kt:78-98 | corrected: the same failure and result; with a password the row is overwritten as written, without one the stored hash is kept and only name, username and role change |
| Empleados.ActualizarConservandoUsuario | server/src/main/kotlin/org/joan/project/db/repositories/EmpleadoRepository.kt:80-86 | keeping one's own username is never a clash |
| Empleados.ActualizarConClaveCoincide | server/src/main/kotlin/org/joan/project/db/repositories/EmpleadoRepository.kt:78-98 | with a password given, the as-written and the corrected update give the same answer and the same store |
| Empleados.ActualizarSinClaveTalCual | server/src/main/kotlin/org/joan/project/db/repositories/EmpleadoRepository.kt:88-94 | an employee edited without a password: as written the stored hash becomes the hash of `null` and the password `null` then logs in; corrected, the store is unchanged and `null` does not log in |
| Empleados.EliminarEmpleado | server/src/main/kotlin/org/joan/project/db/repositories/EmpleadoRepository.kt:102-104 | true iff the id existed, after which `getById` is null; refused while a sale or token references the employee |
| Categorias.CantidadProductos | server/src/main/kotlin/org/joan/project/db/repositories/CategoriaRepository.kt:16 | the count is zero iff no product references the category |
| Categorias.SinProductos | server/src/main/kotlin/org/joan/project/db/repositories/CategoriaRepository.kt:50-51 | the set of referencing products is empty iff no product names the category |
| Categorias.GetById | server/src/main/kotlin/org/joan/project/db/repositories/CategoriaRepository.kt:21-30 | found iff stored, with its name and the number of products referencing it |
| Categorias.GetAll | server/src/main/kotlin/org/joan/project/db/repositories/CategoriaRepository.kt:11-19 | one entry per listed category, each equal to its `getById` |
| Categorias.CrearCategoria | server/src/main/kotlin/org/joan/project/db/repositories/CategoriaRepository.kt:32-40 | refused iff the name is taken; otherwise a fresh id whose response, count 0, is what `getById` then returns |
| Categorias.ActualizarCategoria | server/src/main/kotlin/org/joan/project/db/repositories/CategoriaRepository.kt:42-46 | true iff the category exists; only its name changes; refused when another category has the new name |
| Categorias.EliminarCategoria | server/src/main/kotlin/org/joan/project/db/repositories/CategoriaRepository.kt:49-54 | with referencing products, false and nothing deleted; otherwise deleted and true iff it existed |
| Proveedores.GetAll | server/src/main/kotlin/org/joan/project/db/repositories/ProveedorRepository.kt:11-22 | every result is an active listed supplier as `getById` returns it, and every active listed supplier is in it |
| Proveedores.GetById | server/src/main/kotlin/org/joan/project/db/repositories/ProveedorRepository.kt:24-36 | found iff the supplier exists and is active; the response carries the row's name, contact name, e-mail, phone and address, with the defaults 0 supplied products and active |
| Proveedores.GetByIdDistingue | server/src/main/kotlin/org/joan/project/db/repositories/ProveedorRepository.kt:24-36 | two ids with the same found supplier are the same id |
| Proveedores.CrearProveedor | server/src/main/kotlin/org/joan/project/db/repositories/ProveedorRepository.kt:38-56 | a fresh id holding an active row, which `getById` finds at once |
| Proveedores.ActualizarProveedor | server/src/main/kotlin/org/joan/project/db/repositories/ProveedorRepository.kt:58-67 | true iff the id exists; contact fields are overwritten whether or not the supplier is active; the active flag of every supplier is unchanged |
| Proveedores.DesactivarProveedor | server/src/main/kotlin/org/joan/project/db/repositories/ProveedorRepository.kt:69-73 | true iff the id exists, already inactive or not; only the flag of that row is cleared; the row stays; `getById` is then null |
| Proveedores.EliminarProveedor | server/src/main/kotlin/org/joan/project/db/repositories/ProveedorRepository.kt:75 | true iff the supplier exists; the row stays and only its `activo` flag clears; `getById` then returns null for it and every other lookup is unchanged |
| Proveedores.EliminarIdempotente | server/src/main/kotlin/org/joan/project/db/repositories/ProveedorRepository.kt:69-75 | deleting twice gives the same answer and store as deleting once |
| Tokens.GuardarToken | server/src/main/kotlin/org/joan/project/db/repositories/TokenRepository.kt:13-20 | refused iff the token is stored or the employee is unknown; otherwise stored with `creadoEn = ahora`, valid now iff its expiry is not before now, and the validity of every other token is unchanged |
| Tokens.ValidarToken | server/src/main/kotlin/org/joan/project/db/repositories/TokenRepository.kt:22-27 | true only for a stored token, and for a stored token exactly when `ahora` is not after its expiry (`greaterEq`, so the expiry second itself is still valid) |
| Tokens.ValidoHastaExpirar | server/src/main/kotlin/org/joan/project/db/repositories/TokenRepository.kt:22-27 | a stored token is valid at its expiry, invalid one second later, and once invalid never valid again at a later time |
| Tokens.EliminarToken | server/src/main/kotlin/org/joan/project/db/repositories/TokenRepository.kt:29-31 | the token is invalid at every time afterwards; every other token's validity is unchanged; one row or none is deleted |
| Tokens.LimpiarTokensExpirados | server/src/main/kotlin/org/joan/project/db/repositories/TokenRepository.kt:33-37 | exactly the tokens whose expiry is before now are removed and counted; the rest are kept as they were |
| Tokens.LimpiarConservaValidez | server/src/main/kotlin/org/joan/project/db/repositories/TokenRepository.kt:22-37 | the sweep at `ahora` changes no token's validity at `ahora` or later |
| Tokens.LimpiarIdempotente | server/src/main/kotlin/org/joan/project/db/repositories/TokenRepository.kt:33-37 | a second sweep at the same time deletes nothing and changes nothing |
| Ventas.TicketInverso | server/src/main/kotlin/org/joan/project/db/repositories/VentaRepository.kt:49 | the ticket `T-<id>-<year>` reads back to its sale id and year |
| Ventas.TicketInyectivo | server/src/main/kotlin/org/joan/project/db/repositories/VentaRepository.kt:49 | different sales or years never share a ticket number |
| Ventas.PrimerFaltante | server/src/main/kotlin/org/joan/project/db/repositories/VentaRepository.kt:85-87 | the first line whose product is not found, with every earlier product found |
| Ventas.CalcularTotales | server/src/main/kotlin/org/joan/project/db/repositories/VentaRepository.kt:81-98 | fails iff some product is not found, naming the first; otherwise the tax is the rate times the subtotal |
| Ventas.ProcesarItem | server/src/main/kotlin/org/joan/project/db/repositories/VentaRepository.kt:100-138 | succeeds iff the product is found, the sale exists and has no line for that product; it then appends exactly the line row, lowers that product's stock by the quantity and answers the line's response |
| Ventas.LineasIndice | server/src/main/kotlin/org/joan/project/db/repositories/VentaRepository.kt:44-46 | stored row `i` and response item `i` come from request line `i` |
| Ventas.CatalogoBasta | server/src/main/kotlin/org/joan/project/db/repositories/VentaRepository.kt:101-106 | line rows and responses depend only on the catalogue, not on stock |
| Ventas.CondicionesResto | server/src/main/kotlin/org/joan/project/db/repositories/VentaRepository.kt:44-46 | after the first line, the success condition of the rest equals the success condition of all lines |
| Ventas.ComponerPaso | server/src/main/kotlin/org/joan/project/db/repositories/VentaRepository.kt:44-46 | the first line followed by the rest writes the same rows, stock and responses as all lines at once |
| Ventas.ProcesarItems | server/src/main/kotlin/org/joan/project/db/repositories/VentaRepository.kt:44-46 | succeeds iff every product is found and no product repeats or clashes; then appends the rows in request order, lowers each product's stock by its total quantity and keeps the invariant |
| Ventas.ClienteDeVenta | server/src/main/kotlin/org/joan/project/db/repositories/VentaRepository.kt:56-58 | a customer summary iff the id is given and stored, with that customer's name |
| Ventas.SinLineasDeVentaNueva | server/src/main/kotlin/org/joan/project/db/Entidades.kt:64 | no stored line belongs to the next sale id |
| Ventas.CrearVenta | server/src/main/kotlin/org/joan/project/db/repositories/VentaRepository.kt:17-79 | unknown employee, unknown product (the first), unknown customer and repeated product each fail with nothing written; success exactly otherwise; the sale is stored `COMPLETADA` with ticket `T-<id>-<year>`, tax = rate × subtotal, total = subtotal + tax − discount; stock lowered per product; items in request order; the unknown-customer failure comes from the foreign key on `Ventas.clienteId` (Entidades.kt:51), not from a lookup in the repository |
| Ventas.ConstruirVentaResponse | server/src/main/kotlin/org/joan/project/db/repositories/VentaRepository.kt:167-212 | fails iff the employee is gone; otherwise it carries the stored id, date, amounts, status, payment method and ticket, the customer summary (null for a missing customer) and the employee's id and name |
| Ventas.ObtenerVentaPorId | server/src/main/kotlin/org/joan/project/db/repositories/VentaRepository.kt:161-165 | null iff the id is unknown; a found sale is exactly the assembled response, and the read fails exactly when assembling fails; never fails in a valid store |
| Ventas.Seleccion | server/src/main/kotlin/org/joan/project/db/repositories/VentaRepository.kt:145-153 | a sale is selected iff its date lies in the closed range and, when a status is asked, its status equals the upper-cased request |
| Ventas.ObtenerVentasPorFecha | server/src/main/kotlin/org/joan/project/db/repositories/VentaRepository.kt:140-158 | one response per selected sale in store order; never fails in a valid store |
| Ventas.Construir | server/src/main/kotlin/org/joan/project/db/repositories/VentaRepository.kt:155-157 | succeeds iff every sale assembles, giving each assembled sale in order |
| Ventas.FiltroEstadoMayusculas | server/src/main/kotlin/org/joan/project/db/repositories/VentaRepository.kt:147 | the status filter gives the same answer however the caller cased it |
| Ventas.SeleccionMayusculas | server/src/main/kotlin/org/joan/project/db/repositories/VentaRepository.kt:145-153 | the selection for a status equals the selection for its upper-cased form |
| Ventas.ReponerStock | server/src/main/kotlin/org/joan/project/db/repositories/VentaRepository.kt:228-233 | the loop gives back to each product the quantity of every line of the sale |
| Ventas.AnularVenta | server/src/main/kotlin/org/joan/project/db/repositories/VentaRepository.kt:215-238 | null and no change for an unknown id; an already reversed sale is returned with the store unchanged; otherwise the status becomes `ANULADA` and every line's quantity goes back to stock; the result is the sale as then stored |
| PropiedadesVentas.SumasConcat | server/src/main/kotlin/org/joan/project/db/repositories/VentaRepository.kt:173-187 | the sale's subtotal, tax, quantities and read-back items split over consecutive runs of lines |
| PropiedadesVentas.SumasSinVenta | server/src/main/kotlin/org/joan/project/db/repositories/VentaRepository.kt:173-187 | lines of other sales contribute nothing to a sale's sums or items |
| PropiedadesVentas.SumasLineas | server/src/main/kotlin/org/joan/project/db/repositories/VentaRepository.kt:81-106 | the rows a sale inserts sum to the subtotal and tax priced up front, carry the requested quantities and read back as the response items |
| PropiedadesVentas.CrearVentaStock | server/src/main/kotlin/org/joan/project/db/repositories/VentaRepository.kt:125 | creating a sale lowers every product's stock by exactly the quantity its lines ask, with no floor, and changes no other product field |
| PropiedadesVentas.CrearVentaSumas | server/src/main/kotlin/org/joan/project/db/repositories/VentaRepository.kt:24-25 | the stored subtotal and tax are the sums over the stored lines; tax = rate × subtotal; total = subtotal + tax − discount; the response carries the same amounts |
| PropiedadesVentas.SinLineasPrevias | server/src/main/kotlin/org/joan/project/db/Entidades.kt:64 | in a valid store no line references the next sale id |
| PropiedadesVentas.CrearVentaLeida | server/src/main/kotlin/org/joan/project/db/repositories/VentaRepository.kt:66-78 | reading the new sale back finds it, with every field of the response `crearVenta` returned and the same items up to order |
| PropiedadesVentas.DescuentoDeLineaNoCuenta | server/src/main/kotlin/org/joan/project/db/repositories/VentaRepository.kt:89-94 | the line discounts do not change the subtotal or tax |
| PropiedadesVentas.VentaSinLineas | server/src/main/kotlin/org/joan/project/db/repositories/VentaRepository.kt:17-79 | an empty item list is accepted, with no items, total equal to minus the discount and stock untouched |
| PropiedadesVentas.AnularIdempotente | server/src/main/kotlin/org/joan/project/db/repositories/VentaRepository.kt:216-221 | a second reversal returns the same answer and changes nothing |
| PropiedadesVentas.ReponerDescontado | server/src/main/kotlin/org/joan/project/db/repositories/VentaRepository.kt:228-233 | giving back what the lines record undoes taking what the request asked |
| PropiedadesVentas.CantidadesDeVentaNueva | server/src/main/kotlin/org/joan/project/db/repositories/VentaRepository.kt:109-112 | the new sale's stored lines record exactly the requested quantity per product |
| PropiedadesVentas.CrearLuegoAnular | server/src/main/kotlin/org/joan/project/db/repositories/VentaRepository.kt:224-236 | reversing a newly created sale succeeds, marks it `ANULADA` and restores every product exactly |
| PropiedadesVentas.EjemploVentaYAnulacion | server/src/main/kotlin/org/joan/project/db/repositories/VentaRepository.kt:17-79 | a two-line sale comes to 40 + 6.40 = 46.40 and leaves stocks 3 and 2; reversal restores 5 and 3; a second reversal is the same |
| PropiedadesVentas.EjemploAceptado | server/src/main/kotlin/org/joan/project/db/repositories/VentaRepository.kt:81-98 | the example store is valid and the example request prices to 40 and 6.40 and is accepted |
| Reportes.SeleccionRango | server/src/main/kotlin/org/joan/project/db/repositories/ReporteRepository.kt:21-25 | a sale is selected iff start of first day ≤ date ≤ start of the day after the last, whatever its status |
| Reportes.Simples | server/src/main/kotlin/org/joan/project/db/repositories/ReporteRepository.kt:26-33 | one summary per sale, in order |
| Reportes.Agrupar | server/src/main/kotlin/org/joan/project/db/repositories/ReporteRepository.kt:37-39 | the keys are exactly the payment methods present, each mapped to the sum of its sales' totals |
| Reportes.SumaMetodoAusente | server/src/main/kotlin/org/joan/project/db/repositories/ReporteRepository.kt:37-39 | an absent payment method sums to zero |
| Reportes.IndicadorUnico | server/src/main/kotlin/org/joan/project/db/repositories/ReporteRepository.kt:37-39 | over distinct keys, a sale's total is counted once if its method is listed and never otherwise |
| Reportes.PorMetodosTotal | server/src/main/kotlin/org/joan/project/db/repositories/ReporteRepository.kt:37-43 | summing the per-method sums over distinct keys covering every method gives the grand total |
| Reportes.ValoresPorMetodos | server/src/main/kotlin/org/joan/project/db/repositories/ReporteRepository.kt:37-39 | the grouped map's values at some keys sum to those keys' per-method sums |
| Reportes.MetodosSumanTotal | server/src/main/kotlin/org/joan/project/db/repositories/ReporteRepository.kt:37-43 | the values of the grouped map add up to the total of all sales |
| Reportes.Filas | server/src/main/kotlin/org/joan/project/db/repositories/ReporteRepository.kt:56-75 | exactly the lines whose product and sale exist and whose sale lies in the range |
| Reportes.ProductosEn | server/src/main/kotlin/org/joan/project/db/repositories/ReporteRepository.kt:78 | each product that occurs among the lines, once |
| Reportes.Grupos | server/src/main/kotlin/org/joan/project/db/repositories/ReporteRepository.kt:81-88 | one summary per product, with its summed quantity and subtotal |
| Reportes.Insertar | server/src/main/kotlin/org/joan/project/db/repositories/ReporteRepository.kt:79 | inserting into a descending list keeps it descending and adds exactly that entry |
| Reportes.Ordenar | server/src/main/kotlin/org/joan/project/db/repositories/ReporteRepository.kt:79 | a descending permutation of the groups |
| Reportes.OrdenarDistintos | server/src/main/kotlin/org/joan/project/db/repositories/ReporteRepository.kt:78-79 | sorting keeps the products distinct |
| Reportes.Ranking | server/src/main/kotlin/org/joan/project/db/repositories/ReporteRepository.kt:77-88 | every product that occurs appears exactly once, in descending quantity, with its summed quantity and subtotal |
| Reportes.Primeros | server/src/main/kotlin/org/joan/project/db/repositories/ReporteRepository.kt:80 | the first `min(limite, n)` entries; an entry cut off means the limit was reached and sold no more than any kept |
| Reportes.ProductosMasVendidos | server/src/main/kotlin/org/joan/project/db/repositories/ReporteRepository.kt:51-89 | at most `limite` entries, one per product, descending by quantity, each the sum of its product's lines in range |
| Reportes.MasVendidosCompleto | server/src/main/kotlin/org/joan/project/db/repositories/ReporteRepository.kt:77-80 | a product sold in range but left out means the list is full and every listed product sold at least as much |
| Reportes.GenerarReportePorRango | server/src/main/kotlin/org/joan/project/db/repositories/ReporteRepository.kt:20-49 | lists exactly the sales in range; total = sum of their totals; count = their number; per-method totals as grouped; best sellers over the same range with limit 5 |
| Reportes.GenerarReporteDiario | server/src/main/kotlin/org/joan/project/db/repositories/ReporteRepository.kt:15-18 | the day report lists exactly the sales from the start of the day to the start of the next, both included |
| Reportes.MedianocheEnDosDias | server/src/main/kotlin/org/joan/project/db/repositories/ReporteRepository.kt:21-25 | a sale stamped exactly at midnight appears in the reports of both days |
| Reportes.ObtenerTotalesPorMetodoPago | server/src/main/kotlin/org/joan/project/db/repositories/ReporteRepository.kt:96-101 | keys are the methods of all sales, whatever date or status; each maps to the sum of its totals |
| Reportes.TotalesPorMetodoSumanTodo | server/src/main/kotlin/org/joan/project/db/repositories/ReporteRepository.kt:96-101 | the per-method totals add up to the total of all sales |
| Reportes.ReporteMetodosSumanTotal | server/src/main/kotlin/org/joan/project/db/repositories/ReporteRepository.kt:37-43 | the report's per-method totals add up to its `totalVentas` |
| Cobro.PrimeraCon | composeApp/src/commonMain/kotlin/org/joan/project/pantallas/PantallaCobrar.kt:273 | the index of the first line holding the product, or -1 when none does |
| Cobro.IndiceDe | composeApp/src/commonMain/kotlin/org/joan/project/pantallas/PantallaCobrar.kt:115 | the index of the first line equal to the given line |
| Cobro.TotalConcat | composeApp/src/commonMain/kotlin/org/joan/project/pantallas/PantallaCobrar.kt:54 | the cart total splits over consecutive runs of lines |
| Cobro.TotalCambiar | composeApp/src/commonMain/kotlin/org/joan/project/pantallas/PantallaCobrar.kt:117 | replacing a line trades its subtotal and quantity for the new line's |
| Cobro.TotalQuitar | composeApp/src/commonMain/kotlin/org/joan/project/pantallas/PantallaCobrar.kt:119 | removing a line takes away its subtotal and quantity |
| Cobro.ValidoQuitar | composeApp/src/commonMain/kotlin/org/joan/project/pantallas/PantallaCobrar.kt:119 | removing a line keeps product ids unique and quantities at least 1 |
| Cobro.Tocar | composeApp/src/commonMain/kotlin/org/joan/project/pantallas/PantallaCobrar.kt:272-279 | keeps ids unique and quantities ≥ 1; the tapped product's quantity rises by one; an existing line grows in place (priced at its own snapshot), otherwise a line with one unit is appended |
| Cobro.Restar | composeApp/src/commonMain/kotlin/org/joan/project/pantallas/PantallaCobrar.kt:114-120 | keeps the cart valid; one unit of that product less and its price off the total; the line goes away exactly when it had one unit |
| Cobro.Sumar | composeApp/src/commonMain/kotlin/org/joan/project/pantallas/PantallaCobrar.kt:124-127 | only that product's quantity rises by one and the total by its price |
| Cobro.Vaciar | composeApp/src/commonMain/kotlin/org/joan/project/pantallas/PantallaCobrar.kt:168 | the empty cart, total 0 |
| Cobro.UnicaLinea | composeApp/src/commonMain/kotlin/org/joan/project/pantallas/PantallaCobrar.kt:115 | in a valid cart a line is the only line of its product |
| Cobro.SumarLuegoRestar | composeApp/src/commonMain/kotlin/org/joan/project/pantallas/PantallaCobrar.kt:114-127 | plus then minus on the same line gives the cart back |
| Cobro.TocarLuegoRestar | composeApp/src/commonMain/kotlin/org/joan/project/pantallas/PantallaCobrar.kt:272-279 | tapping a product then minus on its line gives the cart back |
| Cobro.Filtrar | composeApp/src/commonMain/kotlin/org/joan/project/pantallas/PantallaCobrar.kt:50-52 | all products with no category selected, otherwise exactly those whose category name matches |
| Cobro.Items | composeApp/src/commonMain/kotlin/org/joan/project/pantallas/PantallaCobrar.kt:184-192 | one request line per cart line, in order |
| Cobro.ConstruirVentaRequest | composeApp/src/commonMain/kotlin/org/joan/project/pantallas/PantallaCobrar.kt:177-192 | a request iff token, user and a non-empty cart exist: no customer, the user as employee, discount 0, each line with the cart's product and quantity and no special price, discount or promotion |
| Cobro.VentaExitosa | composeApp/src/commonMain/kotlin/org/joan/project/pantallas/PantallaCobrar.kt:197-199 | after success the cart is empty and the category filter cleared |
| Cobro.CantidadesDelCarrito | composeApp/src/commonMain/kotlin/org/joan/project/pantallas/PantallaCobrar.kt:184-192 | the request asks of each product what the cart holds |
| Cobro.SubtotalEsTotal | shared/src/commonMain/kotlin/org/joan/project/modelos/Internal.kt:30-35 | with the server's prices equal to the screen's, the server's subtotal is the cart total and the tax is the rate times it |
| Cobro.CarritoAceptado | composeApp/src/commonMain/kotlin/org/joan/project/pantallas/PantallaCobrar.kt:177-199 | a valid cart charged to a stored employee, at current prices, is accepted; the sale subtotal is the cart total and each product's stock falls by what the cart held |

## Left out

- Money rounding: amounts are exact reals. The source computes with `Double` and stores decimals with two places, so neither the binary floating point nor the rounding to cents is modelled.
- Integer width: `Int` quantities, stock and ids are unbounded integers. 32-bit overflow of stock or of summed quantities is not modelled.
- Concurrency, isolation levels, connection handling and the hourly token sweep are not modelled. Each call is one atomic step.
- Identity sequences are not advanced by a call that fails. The store may consume an id on a rolled-back insert.
- The foreign key of `DetalleVenta.promocionId` to `Promociones`: that table is not modelled, so any promotion id is accepted.
- `ProductoRepository.create` and `getAll`, `EmpleadoRepository.getAll`, `ClienteRepository.getAll`, `ReporteRepository.generarReporteHoy` (it only reads the clock) and the sorted category chips of the checkout screen are not modelled. They are plain reads or presentation.
- Password hashing and checking (BCrypt) are function parameters, not algorithms.
- HTTP routing, JWT handling, PDF generation, the other screens and the client services are not modelled.
- Row order: the order in which the store returns the rows of a table is the parameter `ids`. The lines of a sale are read in insertion order, although the query at server/src/main/kotlin/org/joan/project/db/repositories/VentaRepository.kt:172-174 sets none; the store may return them in another order, for example by the primary key `(ventaId, productoId)`. Ties between equal sellers in the best-sellers list may come out in either order.
- Texto.Mayusculas: upper-cases ASCII letters only; `String.uppercase` also maps other alphabets.
- Reportes.ProductosMasVendidos: takes `limite` as a natural number. A negative `LIMIT` is not modelled, and the report always passes 5.
- Ventas.ConstruirVentaResponse: the contract names the header, customer and employee fields, not the joined items, whose order the store does not fix; `PropiedadesVentas.CrearVentaLeida` states the items of a new sale up to order.
- PropiedadesVentas.CrearVentaLeida: promises the items of the read-back only as a multiset, because the read sets no order while `crearVenta` answers in request order. The equality of the amounts also rests on exact money: the source answers `crearVenta` with unrounded `Double` amounts, while the read-back comes from `decimal(12, 2)` columns, so the two can differ by rounding.
- Column widths: the `varchar` limits of the schema are not modelled. Examples are `telefono` (20), `codigoBarras` (50), `estado` and `metodoPago` (20), `numeroTicket` (50), `imagenUrl` (500), `token` (255), and `nombre`, `usuario`, `rol` and the supplier contact fields (255) (server/src/main/kotlin/org/joan/project/db/Entidades.kt:12-107). PostgreSQL refuses a longer value, which the model accepts as any other string.
- Ventas.CrearVenta: succeeds for a `metodoPago` longer than 20 characters. PostgreSQL would refuse the header insert, and the whole sale would roll back, because column widths are not modelled.
- Clientes.Create: accepts values longer than their columns allow, because column widths are not modelled.
- Clientes.Update: accepts values longer than their columns allow, because column widths are not modelled.
- Empleados.ActualizarEmpleado: accepts values longer than their columns allow, because column widths are not modelled.
- Empleados.CrearEmpleado: accepts values longer than their columns allow, because column widths are not modelled.
- Categorias.CrearCategoria: accepts values longer than their columns allow, because column widths are not modelled.
- Categorias.ActualizarCategoria: accepts values longer than their columns allow, because column widths are not modelled.
- Proveedores.CrearProveedor: accepts values longer than their columns allow, because column widths are not modelled.
- Proveedores.ActualizarProveedor: accepts values longer than their columns allow, because column widths are not modelled.
- Productos.Update: accepts values longer than their columns allow, because column widths are not modelled.
- Tokens.GuardarToken: accepts values longer than their columns allow, because column widths are not modelled.
- Fixed two-decimal precision of prices and amounts (`decimal(10, 2)`, `decimal(12, 2)`) is not modelled, for the same reason as money rounding.

## Findings

| source | as written | input that shows it | evidently intended | confidence | as-written member | corrected member |
|---|---|---|---|---|---|---|
| server/src/main/kotlin/org/joan/project/db/repositories/ProductoRepository.kt:46-53 | the duplicate-barcode query compares with `eq` even when the request's barcode is null, which selects every other product whose barcode is null | two products without barcode; update product 1 with no barcode: refused with "barcode already in use" | only a barcode that is actually requested can clash | not executed | Productos.UpdateTalCual | Productos.Update |
| server/src/main/kotlin/org/joan/project/db/repositories/EmpleadoRepository.kt:56-75 | `crearEmpleado` is not wrapped in `dbQuery`, so its insert runs with no transaction in context and throws | any new employee with a free username and a password, e.g. the first employee of an empty store | the insert runs inside the transaction, like every other write | not executed | Empleados.CrearEmpleadoTalCual | Empleados.CrearEmpleado |
| server/src/main/kotlin/org/joan/project/db/repositories/EmpleadoRepository.kt:88-94 | `actualizarEmpleado` hashes `request.contraseña` even when it is null; the hashing library concatenates it into a string, so the stored hash becomes the hash of the text `null` | an edit of employee 1 that sends no password: its stored hash is replaced, and the password `null` logs in | the request's password is nullable so that an edit can leave the password as it is (server/src/main/kotlin/org/joan/project/db/entidades/Request.kt:32); a null password keeps the stored hash | not executed | Empleados.ActualizarEmpleadoTalCual | Empleados.ActualizarEmpleado |

=== FILE: categorias.dfy ===
/** Product categories (`CategoriaRepository.kt`). */
module Categorias {
  import opened Wrappers
  import opened Esquema
  import opened Mensajes

  /** The ids of the products filed under category `id`. */
  function ProductosDe(db: Db, id: int): set<int> {
    set p | p in db.productos && db.productos[p].categoriaId == id
  }

  /** `cantidadProductos`: how many products reference the category. */
  function CantidadProductos(db: Db, id: int): (n: nat)
    ensures n == 0 <==> forall p :: p in db.productos ==> db.productos[p].categoriaId != id
  {
    SinProductos(db, id);
    |ProductosDe(db, id)|
  }

  lemma SinProductos(db: Db, id: int)
    ensures ProductosDe(db, id) == {} <==> forall p :: p in db.productos ==> db.productos[p].categoriaId != id
  {
    if exists p :: p in db.productos && db.productos[p].categoriaId == id {
      var p :| p in db.productos && db.productos[p].categoriaId == id;
      assert p in ProductosDe(db, id);
    } else {
      forall x | x in ProductosDe(db, id) ensures false {}
    }
  }

  function Respuesta(db: Db, id: int): CategoriaResponse
    requires id in db.categorias
  {
    CategoriaResponse(id, db.categorias[id].nombre, CantidadProductos(db, id))
  }

  /** `getById`: the category with its product count, or null. */
  function GetById(db: Db, id: int): (r: Option<CategoriaResponse>)
    ensures r.Some? <==> id in db.categorias
    ensures r.Some? ==> r.value.id == id && r.value.nombre == db.categorias[id].nombre
                        && r.value.cantidadProductos == |ProductosDe(db, id)|
  {
    if id in db.categorias then Some(Respuesta(db, id)) else None
  }

  /** `getAll`: every category, in the order the store lists `ids`, each with
      its product count. */
  function GetAll(db: Db, ids: seq<int>): (r: seq<CategoriaResponse>)
    requires forall i :: 0 <= i < |ids| ==> ids[i] in db.categorias
    ensures |r| == |ids|
    ensures forall i :: 0 <= i < |ids| ==> Some(r[i]) == GetById(db, ids[i])
  {
    if ids == [] then [] else [Respuesta(db, ids[0])] + GetAll(db, ids[1..])
  }

  predicate NombreEnUso(db: Db, nombre: string, excluir: Option<int>) {
    exists k :: k in db.categorias && db.categorias[k].nombre == nombre && excluir != Some(k)
  }

  /** `crearCategoria`: inserts under the next id; the unique index on the name
      refuses a duplicate. The response carries the default count 0, which is
      also the real count of a fresh category. */
  function CrearCategoria(db: Db, nombre: string): (r: Salida<CategoriaResponse>)
    requires Valida(db)
    ensures r.Err? <==> NombreEnUso(db, nombre, None)
    ensures r.Err? ==> r.error == ClaveDuplicada
    ensures r.Ok? ==> r.value.valor.id !in db.categorias
                      && r.value.valor == CategoriaResponse(r.value.valor.id, nombre, 0)
                      && GetById(r.value.db, r.value.valor.id) == Some(r.value.valor)
                      && Valida(r.value.db)
  {
    if NombreEnUso(db, nombre, None) then Err(ClaveDuplicada)
    else
      var id := db.secuencias.categoria;
      var db1 := db.(categorias := db.categorias[id := Categoria(nombre)],
                     secuencias := db.secuencias.(categoria := id + 1));
      assert forall p :: p in db1.productos ==> db1.productos[p].categoriaId != id;
      assert CantidadProductos(db1, id) == 0;
      assert NombresCategoriaUnicos(db1.categorias);
      assert ForaneasProductos(db1);
      Ok(Paso(db1, CategoriaResponse(id, nombre, 0)))
  }

  /** `actualizarCategoria`: renames only the target; true iff it exists. The
      unique index refuses a name another category already has. */
  function ActualizarCategoria(db: Db, id: int, nuevoNombre: string): (r: Salida<bool>)
    ensures r.Err? <==> id in db.categorias && NombreEnUso(db, nuevoNombre, Some(id))
    ensures r.Ok? ==> (r.value.valor <==> id in db.categorias)
    ensures r.Ok? ==> r.value.db == db.(categorias := r.value.db.categorias)
    ensures r.Ok? ==> r.value.db.categorias ==
                      (if id in db.categorias then db.categorias[id := Categoria(nuevoNombre)] else db.categorias)
    ensures r.Ok? && Valida(db) ==> Valida(r.value.db)
  {
    if id !in db.categorias then Ok(Paso(db, false))
    else if NombreEnUso(db, nuevoNombre, Some(id)) then Err(ClaveDuplicada)
    else
      var db1 := db.(categorias := db.categorias[id := Categoria(nuevoNombre)]);
      assert NombresCategoriaUnicos(db.categorias) ==> NombresCategoriaUnicos(db1.categorias);
      Ok(Paso(db1, true))
  }

  /** `eliminarCategoria`: refuses (false, nothing deleted) while any product
      references the category; otherwise deletes it, true iff it existed. */
  function EliminarCategoria(db: Db, id: int): (r: Paso<bool>)
    ensures CantidadProductos(db, id) > 0 ==> r == Paso(db, false)
    ensures CantidadProductos(db, id) == 0 ==>
              (r.valor <==> id in db.categorias) && r.db == db.(categorias := db.categorias - {id})
    ensures GetById(r.db, id).None? <==> CantidadProductos(db, id) == 0 || id !in db.categorias
    ensures Valida(db) ==> Valida(r.db)
  {
    if CantidadProductos(db, id) > 0 then Paso(db, false)
    else Paso(db.(categorias := db.categorias - {id}), id in db.categorias)
  }
}

=== FILE: clientes.dfy ===
/** Customer directory (`ClienteRepository.kt`). */
module Clientes {
  import opened Wrappers
  import opened Esquema
  import opened Mensajes

  function Respuesta(id: int, c: Cliente): ClienteResponse {
    ClienteResponse(id, c.nombre, c.telefono)
  }

  /** `getById`: the customer row, or null for an unknown id. */
  function GetById(db: Db, id: int): (r: Option<ClienteResponse>)
    ensures r.Some? <==> id in db.clientes
    ensures r.Some? ==> r.value.id == id && r.value.nombre == db.clientes[id].nombre
                        && r.value.telefono == db.clientes[id].telefono
  {
    if id in db.clientes then Some(Respuesta(id, db.clientes[id])) else None
  }

  /** Some sale references the customer (`Ventas.clienteId` is a foreign key). */
  predicate TieneVentas(db: Db, id: int) {
    exists v :: v in db.ventas && db.ventas[v].clienteId == Some(id)
  }

  /** `create`: inserts the row under the next id of the sequence and reads it
      back. */
  function Create(db: Db, req: ClienteRequest): (r: Paso<ClienteResponse>)
    requires Valida(db)
    ensures r.valor.id !in db.clientes
    ensures GetById(r.db, r.valor.id) == Some(ClienteResponse(r.valor.id, req.nombre, req.telefono))
    ensures r.valor == ClienteResponse(r.valor.id, req.nombre, req.telefono)
    ensures forall k :: k != r.valor.id ==> GetById(r.db, k) == GetById(db, k)
    ensures Valida(r.db)
  {
    var id := db.secuencias.cliente;
    var db1 := db.(clientes := db.clientes[id := Cliente(req.nombre, req.telefono)],
                   secuencias := db.secuencias.(cliente := id + 1));
    assert ClavesBajo(db1.clientes.Keys, db1.secuencias.cliente);
    assert ForaneasVentas(db1);
    Paso(db1, Respuesta(id, db1.clientes[id]))
  }

  /** `update`: overwrites both fields, a null phone included; true iff the id
      existed. */
  function Update(db: Db, id: int, req: ClienteRequest): (r: Paso<bool>)
    ensures r.valor <==> id in db.clientes
    ensures GetById(r.db, id) == if id in db.clientes then Some(ClienteResponse(id, req.nombre, req.telefono)) else None
    ensures forall k :: k != id ==> GetById(r.db, k) == GetById(db, k)
    ensures Valida(db) ==> Valida(r.db)
  {
    if id in db.clientes then
      Paso(db.(clientes := db.clientes[id := Cliente(req.nombre, req.telefono)]), true)
    else
      Paso(db, false)
  }

  /** `delete`: true iff the id existed; the store refuses to delete a customer
      some sale still references. */
  function Delete(db: Db, id: int): (r: Salida<bool>)
    ensures r.Err? <==> id in db.clientes && TieneVentas(db, id)
    ensures r.Err? ==> r.error == ClaveForanea
    ensures r.Ok? ==> (r.value.valor <==> id in db.clientes)
    ensures r.Ok? ==> GetById(r.value.db, id).None?
    ensures r.Ok? ==> forall k :: k != id ==> GetById(r.value.db, k) == GetById(db, k)
    ensures r.Ok? && Valida(db) ==> Valida(r.value.db)
  {
    if id !in db.clientes then Ok(Paso(db, false))
    else if TieneVentas(db, id) then Err(ClaveForanea)
    else Ok(Paso(db.(clientes := db.clientes - {id}), true))
  }
}

=== FILE: cobro.dfy ===
/** The checkout cart of the point-of-sale screen (`PantallaCobrar.kt`): tapping
    a product, the minus and plus buttons of a line, emptying the cart, the
    running total, the category filter of the product grid, and turning the
    cart into a sale request. The cart is a list of lines, each holding the
    product as it was loaded and a quantity. */
module Cobro {
  import opened Wrappers
  import opened Esquema
  import opened Mensajes
  import Ventas
  import Productos

  /** `LineaVenta`: a product snapshot and how many of it. */
  datatype LineaVenta = LineaVenta(producto: ProductoResponse, cantidad: int)

  /** What the screen keeps between events. */
  datatype Pantalla = Pantalla(carrito: seq<LineaVenta>, categoria: Option<string>, metodoPago: string)

  function Subtotal(l: LineaVenta): real {
    l.cantidad as real * l.producto.precio
  }

  /** The cart total: the line subtotals added up. */
  function Total(c: seq<LineaVenta>): real {
    if c == [] then 0.0 else Subtotal(c[0]) + Total(c[1..])
  }

  /** How many of product `id` the cart holds. */
  function CantidadEn(c: seq<LineaVenta>, id: int): int {
    if c == [] then 0 else (if c[0].producto.id == id then c[0].cantidad else 0) + CantidadEn(c[1..], id)
  }

  /** No two lines hold the same product. */
  predicate IdsUnicos(c: seq<LineaVenta>) {
    forall i, j :: 0 <= i < j < |c| ==> c[i].producto.id != c[j].producto.id
  }

  /** The shape every cart the screen builds keeps: one line per product, each
      with at least one unit. */
  predicate CarritoValido(c: seq<LineaVenta>) {
    IdsUnicos(c) && forall i :: 0 <= i < |c| ==> c[i].cantidad >= 1
  }

  // ---------------------------------------------------------------------------
  // Searching the cart
  // ---------------------------------------------------------------------------

  /** `indexOfFirst { it.producto.id == id }`: -1 when no line holds it. */
  function PrimeraCon(c: seq<LineaVenta>, id: int): (k: int)
    ensures -1 <= k < |c|
    ensures k >= 0 ==> c[k].producto.id == id
    ensures forall j :: 0 <= j < |c| && (k < 0 || j < k) ==> c[j].producto.id != id
  {
    if c == [] then -1
    else if c[0].producto.id == id then 0
    else
      var k := PrimeraCon(c[1..], id);
      assert forall j :: 1 <= j < |c| ==> c[1..][j - 1] == c[j];
      if k < 0 then -1 else k + 1
  }

  /** `indexOf(linea)`: the first line equal to `l`. */
  function IndiceDe(c: seq<LineaVenta>, l: LineaVenta): (k: nat)
    requires l in c
    ensures k < |c| && c[k] == l
    ensures forall j :: 0 <= j < k ==> c[j] != l
  {
    if c[0] == l then 0
    else
      assert forall j :: 1 <= j < |c| ==> c[1..][j - 1] == c[j];
      1 + IndiceDe(c[1..], l)
  }

  // ---------------------------------------------------------------------------
  // Totals and quantities under the three edits
  // ---------------------------------------------------------------------------

  lemma {:induction false} TotalConcat(a: seq<LineaVenta>, b: seq<LineaVenta>)
    ensures Total(a + b) == Total(a) + Total(b)
  {
    if a == [] {
      assert a + b == b;
    } else {
      assert (a + b)[1..] == a[1..] + b;
      TotalConcat(a[1..], b);
    }
  }

  lemma {:induction false} CantidadConcat(a: seq<LineaVenta>, b: seq<LineaVenta>, id: int)
    ensures CantidadEn(a + b, id) == CantidadEn(a, id) + CantidadEn(b, id)
  {
    if a == [] {
      assert a + b == b;
    } else {
      assert (a + b)[1..] == a[1..] + b;
      CantidadConcat(a[1..], b, id);
    }
  }

  /** Line `i` between the lines before it and the lines after it. */
  lemma Partir(c: seq<LineaVenta>, i: nat, l: LineaVenta)
    requires i < |c|
    ensures c == c[..i] + ([c[i]] + c[i + 1..])
    ensures c[i := l] == c[..i] + ([l] + c[i + 1..])
    ensures Total([l] + c[i + 1..]) == Subtotal(l) + Total(c[i + 1..])
  {
    assert ([l] + c[i + 1..])[1..] == c[i + 1..];
  }

  lemma CantidadCons(l: LineaVenta, b: seq<LineaVenta>, id: int)
    ensures CantidadEn([l] + b, id) == (if l.producto.id == id then l.cantidad else 0) + CantidadEn(b, id)
  {
    assert ([l] + b)[1..] == b;
  }

  /** Replacing line `i` trades its subtotal and quantity for the new line's. */
  lemma TotalCambiar(c: seq<LineaVenta>, i: nat, l: LineaVenta)
    requires i < |c|
    ensures Total(c[i := l]) == Total(c) - Subtotal(c[i]) + Subtotal(l)
    ensures forall id :: CantidadEn(c[i := l], id) == CantidadEn(c, id)
                           - (if c[i].producto.id == id then c[i].cantidad else 0)
                           + (if l.producto.id == id then l.cantidad else 0)
  {
    Partir(c, i, l);
    Partir(c, i, c[i]);
    TotalConcat(c[..i], [c[i]] + c[i + 1..]);
    TotalConcat(c[..i], [l] + c[i + 1..]);
    forall id ensures CantidadEn(c[i := l], id) == CantidadEn(c, id)
                      - (if c[i].producto.id == id then c[i].cantidad else 0)
                      + (if l.producto.id == id then l.cantidad else 0)
    {
      CantidadConcat(c[..i], [c[i]] + c[i + 1..], id);
      CantidadConcat(c[..i], [l] + c[i + 1..], id);
      CantidadCons(c[i], c[i + 1..], id);
      CantidadCons(l, c[i + 1..], id);
    }
  }

  /** Removing line `i` takes away its subtotal and quantity. */
  lemma TotalQuitar(c: seq<LineaVenta>, i: nat)
    requires i < |c|
    ensures Total(c[..i] + c[i + 1..]) == Total(c) - Subtotal(c[i])
    ensures forall id :: CantidadEn(c[..i] + c[i + 1..], id)
                           == CantidadEn(c, id) - (if c[i].producto.id == id then c[i].cantidad else 0)
  {
    Partir(c, i, c[i]);
    TotalConcat(c[..i], [c[i]] + c[i + 1..]);
    TotalConcat(c[..i], c[i + 1..]);
    forall id ensures CantidadEn(c[..i] + c[i + 1..], id)
                      == CantidadEn(c, id) - (if c[i].producto.id == id then c[i].cantidad else 0)
    {
      CantidadConcat(c[..i], [c[i]] + c[i + 1..], id);
      CantidadConcat(c[..i], c[i + 1..], id);
      CantidadCons(c[i], c[i + 1..], id);
    }
  }

  lemma ValidoQuitar(c: seq<LineaVenta>, i: nat)
    requires i < |c|
    ensures CarritoValido(c) ==> CarritoValido(c[..i] + c[i + 1..])
  {
    var r := c[..i] + c[i + 1..];
    if !CarritoValido(c) { return; }
    forall a, b | 0 <= a < b < |r| ensures r[a].producto.id != r[b].producto.id {
      var a' := if a < i then a else a + 1;
      var b' := if b < i then b else b + 1;
      assert r[a] == c[a'] && r[b] == c[b'];
    }
    forall a | 0 <= a < |r| ensures r[a].cantidad >= 1 {
      assert r[a] == c[if a < i then a else a + 1];
    }
  }

  // ---------------------------------------------------------------------------
  // Cart events
  // ---------------------------------------------------------------------------

  lemma Anadir(c: seq<LineaVenta>, l: LineaVenta)
    ensures forall id :: CantidadEn(c + [l], id) == CantidadEn(c, id) + (if l.producto.id == id then l.cantidad else 0)
  {
    forall id ensures CantidadEn(c + [l], id) == CantidadEn(c, id) + (if l.producto.id == id then l.cantidad else 0) {
      CantidadConcat(c, [l], id);
      assert [l][1..] == [];
    }
  }

  /** Tapping product `p` in the grid: the line already holding it gains one
      unit (the line keeps the product snapshot it was created with), or a new
      line with one unit is appended. */
  function Tocar(c: seq<LineaVenta>, p: ProductoResponse): (r: seq<LineaVenta>)
    ensures CarritoValido(c) ==> CarritoValido(r)
    ensures forall id :: CantidadEn(r, id) == CantidadEn(c, id) + (if id == p.id then 1 else 0)
    ensures PrimeraCon(c, p.id) >= 0 ==>
              |r| == |c| && Total(r) == Total(c) + c[PrimeraCon(c, p.id)].producto.precio
    ensures PrimeraCon(c, p.id) < 0 ==> r == c + [LineaVenta(p, 1)] && Total(r) == Total(c) + p.precio
  {
    var k := PrimeraCon(c, p.id);
    if k >= 0 then
      var anterior := c[k];
      TotalCambiar(c, k, anterior.(cantidad := anterior.cantidad + 1));
      c[k := anterior.(cantidad := anterior.cantidad + 1)]
    else
      TotalConcat(c, [LineaVenta(p, 1)]);
      Anadir(c, LineaVenta(p, 1));
      c + [LineaVenta(p, 1)]
  }

  /** The minus button of line `l`: a line with more than one unit loses one,
      a line with one unit goes away. */
  function Restar(c: seq<LineaVenta>, l: LineaVenta): (r: seq<LineaVenta>)
    requires l in c
    ensures CarritoValido(c) ==> CarritoValido(r)
    ensures CarritoValido(c) ==>
              && Total(r) == Total(c) - l.producto.precio
              && forall id :: CantidadEn(r, id) == CantidadEn(c, id) - (if id == l.producto.id then 1 else 0)
    ensures |r| == (if l.cantidad > 1 then |c| else |c| - 1)
  {
    var k := IndiceDe(c, l);
    if l.cantidad > 1 then
      TotalCambiar(c, k, l.(cantidad := l.cantidad - 1));
      c[k := l.(cantidad := l.cantidad - 1)]
    else
      TotalQuitar(c, k);
      ValidoQuitar(c, k);
      assert CarritoValido(c) ==> l.cantidad == 1 && Subtotal(l) == l.producto.precio;
      c[..k] + c[k + 1..]
  }

  /** The plus button of line `l`: that line gains one unit. */
  function Sumar(c: seq<LineaVenta>, l: LineaVenta): (r: seq<LineaVenta>)
    requires l in c
    ensures CarritoValido(c) ==> CarritoValido(r)
    ensures |r| == |c| && Total(r) == Total(c) + l.producto.precio
    ensures forall id :: CantidadEn(r, id) == CantidadEn(c, id) + (if id == l.producto.id then 1 else 0)
  {
    var k := IndiceDe(c, l);
    TotalCambiar(c, k, l.(cantidad := l.cantidad + 1));
    c[k := l.(cantidad := l.cantidad + 1)]
  }

  /** "Vaciar carrito". */
  function Vaciar(c: seq<LineaVenta>): (r: seq<LineaVenta>)
    ensures CarritoValido(r) && Total(r) == 0.0
    ensures forall id :: CantidadEn(r, id) == 0
  {
    []
  }

  /** In a valid cart, the line equal to `l` is the only line of its product. */
  lemma UnicaLinea(c: seq<LineaVenta>, l: LineaVenta, k: nat)
    requires CarritoValido(c) && k < |c| && c[k].producto.id == l.producto.id
    ensures forall j :: 0 <= j < |c| && j != k ==> c[j] != l
  {
  }

  /** Plus then minus on the same line gives the cart back. */
  lemma SumarLuegoRestar(c: seq<LineaVenta>, l: LineaVenta)
    requires CarritoValido(c) && l in c
    ensures var s := Sumar(c, l);
            var l1 := l.(cantidad := l.cantidad + 1);
            l1 in s && Restar(s, l1) == c
  {
    var k := IndiceDe(c, l);
    var s := Sumar(c, l);
    var l1 := l.(cantidad := l.cantidad + 1);
    assert s[k] == l1;
    UnicaLinea(s, l1, k);
    assert IndiceDe(s, l1) == k;
  }

  /** Tapping a product, then minus on its line, gives the cart back. */
  lemma TocarLuegoRestar(c: seq<LineaVenta>, p: ProductoResponse)
    requires CarritoValido(c)
    ensures var t := Tocar(c, p);
            var k := PrimeraCon(t, p.id);
            0 <= k < |t| && Restar(t, t[k]) == c
  {
    if PrimeraCon(c, p.id) >= 0 {
      TocarPresente(c, p);
    } else {
      TocarAusente(c, p);
    }
  }

  lemma TocarPresente(c: seq<LineaVenta>, p: ProductoResponse)
    requires CarritoValido(c) && PrimeraCon(c, p.id) >= 0
    ensures var t := Tocar(c, p);
            var k := PrimeraCon(t, p.id);
            0 <= k < |t| && Restar(t, t[k]) == c
  {
    var k0 := PrimeraCon(c, p.id);
    var l := c[k0];
    var l1 := l.(cantidad := l.cantidad + 1);
    TocarEsSumar(c, p);
    PrimeraTrasCambio(c, k0, l1, p.id);
    SumarLuegoRestar(c, l);
  }

  /** With the product present, tapping it is the plus button of its line. */
  lemma TocarEsSumar(c: seq<LineaVenta>, p: ProductoResponse)
    requires CarritoValido(c) && PrimeraCon(c, p.id) >= 0
    ensures var k0 := PrimeraCon(c, p.id);
            c[k0] in c && Tocar(c, p) == Sumar(c, c[k0]) == c[k0 := c[k0].(cantidad := c[k0].cantidad + 1)]
  {
    var k0 := PrimeraCon(c, p.id);
    UnicaLinea(c, c[k0], k0);
    assert IndiceDe(c, c[k0]) == k0;
  }

  /** Changing the quantity of the first line of a product keeps it first. */
  lemma PrimeraTrasCambio(c: seq<LineaVenta>, k: int, l: LineaVenta, id: int)
    requires k == PrimeraCon(c, id) && k >= 0 && l.producto.id == id
    ensures PrimeraCon(c[k := l], id) == k
  {
    var t := c[k := l];
    var k1 := PrimeraCon(t, id);
    assert t[k].producto.id == id;
    assert 0 <= k1 <= k;
    assert forall j :: 0 <= j < k ==> t[j] == c[j] && t[j].producto.id != id;
  }

  lemma TocarAusente(c: seq<LineaVenta>, p: ProductoResponse)
    requires CarritoValido(c) && PrimeraCon(c, p.id) < 0
    ensures var t := Tocar(c, p);
            var k := PrimeraCon(t, p.id);
            0 <= k < |t| && Restar(t, t[k]) == c
  {
    var t := Tocar(c, p);
    var n := |c|;
    assert t == c + [LineaVenta(p, 1)];
    assert forall j :: 0 <= j < n ==> t[j] == c[j] && c[j].producto.id != p.id;
    assert t[n].producto.id == p.id;
    var k := PrimeraCon(t, p.id);
    assert k >= 0;
    assert k == n;
    UnicaLinea(t, t[n], n);
    assert IndiceDe(t, t[n]) == n;
    assert t[..n] + t[n + 1..] == c;
  }

  // ---------------------------------------------------------------------------
  // Product grid
  // ---------------------------------------------------------------------------

  /** The products the grid shows: all of them with no category selected,
      otherwise those whose category name is the selected one, in the loaded
      order. */
  function Filtrar(ps: seq<ProductoResponse>, categoria: Option<string>): (r: seq<ProductoResponse>)
    ensures categoria.None? ==> r == ps
    ensures forall p :: p in r <==> p in ps && (categoria.None? || p.categoria.nombre == categoria.value)
    ensures |r| <= |ps|
  {
    if ps == [] then []
    else
      var resto := Filtrar(ps[1..], categoria);
      assert ps == [ps[0]] + ps[1..];
      if categoria.None? || ps[0].categoria.nombre == categoria.value then [ps[0]] + resto else resto
  }

  // ---------------------------------------------------------------------------
  // Checking out
  // ---------------------------------------------------------------------------

  /** The request line of a cart line: its product and quantity, no special
      price, no discount, no promotion. */
  function Item(l: LineaVenta): ItemVentaRequest {
    ItemVentaRequest(l.producto.id, l.cantidad, None, 0.0, None)
  }

  function Items(c: seq<LineaVenta>): (r: seq<ItemVentaRequest>)
    ensures |r| == |c|
    ensures forall i :: 0 <= i < |c| ==> r[i] == Item(c[i])
  {
    if c == [] then []
    else
      assert forall i :: 1 <= i < |c| ==> c[1..][i - 1] == c[i];
      [Item(c[0])] + Items(c[1..])
  }

  /** The "Cobrar" button: with a token, a signed-in user and a non-empty
      cart, a request for a walk-in customer, charged to that user, with the
      chosen payment method, no sale discount and one line per cart line;
      otherwise nothing is sent. */
  function ConstruirVentaRequest(e: Pantalla, usuario: Option<EmpleadoResponse>, token: Option<string>): (r: Option<VentaRequest>)
    ensures r.Some? <==> token.Some? && usuario.Some? && e.carrito != []
    ensures r.Some? ==>
              && r.value.clienteId.None? && r.value.empleadoId == usuario.value.id
              && r.value.metodoPago == e.metodoPago && r.value.descuento == 0.0
              && |r.value.items| == |e.carrito|
              && forall i :: 0 <= i < |e.carrito| ==>
                   r.value.items[i].productoId == e.carrito[i].producto.id
                   && r.value.items[i].cantidad == e.carrito[i].cantidad
                   && r.value.items[i].precioEspecial.None? && r.value.items[i].descuento == 0.0
                   && r.value.items[i].promocionId.None?
  {
    if token.Some? && usuario.Some? && e.carrito != [] then
      Some(VentaRequest(None, usuario.value.id, Items(e.carrito), e.metodoPago, 0.0))
    else None
  }

  /** After the server accepted the sale: the cart is emptied and the category
      filter cleared; the payment method stays. */
  function VentaExitosa(e: Pantalla): (r: Pantalla)
    ensures r.carrito == [] && Total(r.carrito) == 0.0 && r.categoria.None? && r.metodoPago == e.metodoPago
  {
    e.(carrito := [], categoria := None)
  }

  // ---------------------------------------------------------------------------
  // The cart against the server
  // ---------------------------------------------------------------------------

  /** The quantity a request asks of each product is what the cart holds. */
  lemma {:induction false} CantidadesDelCarrito(c: seq<LineaVenta>, id: int)
    ensures Ventas.CantidadDe(Items(c), id) == CantidadEn(c, id)
  {
    if c != [] {
      assert Items(c)[1..] == Items(c[1..]);
      CantidadesDelCarrito(c[1..], id);
    }
  }

  /** Every cart product is on the server at the price the screen shows. */
  predicate PreciosAlDia(db: Db, c: seq<LineaVenta>) {
    forall i :: 0 <= i < |c| ==>
      Productos.Visible(db, c[i].producto.id) && db.productos[c[i].producto.id].precio == c[i].producto.precio
  }

  /** With prices up to date, the server's subtotal is the cart total. */
  lemma {:induction false} SubtotalEsTotal(db: Db, c: seq<LineaVenta>)
    requires PreciosAlDia(db, c)
    ensures Ventas.CalcularTotales(db, Items(c)) == Ok((Total(c), Esquema.TASA_IVA * Total(c)))
  {
    if c != [] {
      assert Items(c)[1..] == Items(c[1..]);
      assert PreciosAlDia(db, c[1..]) by {
        forall i | 0 <= i < |c[1..]| ensures Productos.Visible(db, c[1..][i].producto.id) {
          assert c[1..][i] == c[i + 1];
        }
      }
      SubtotalEsTotal(db, c[1..]);
      assert Productos.Visible(db, c[0].producto.id);
      assert Ventas.SubtotalItem(db, Items(c)[0]) == Subtotal(c[0]);
    }
  }

  /** A request built from a valid cart, charged to a stored employee, over
      products the server still has at the prices shown, is accepted: the sale
      subtotal is the cart total and each product's stock goes down by what
      the cart held. */
  lemma CarritoAceptado(db: Db, e: Pantalla, usuario: Option<EmpleadoResponse>, token: Option<string>, ahora: int, anio: nat)
    requires Valida(db) && CarritoValido(e.carrito) && PreciosAlDia(db, e.carrito)
    requires ConstruirVentaRequest(e, usuario, token).Some?
    requires usuario.value.id in db.empleados
    ensures var req := ConstruirVentaRequest(e, usuario, token).value;
            var r := Ventas.CrearVenta(db, req, ahora, anio);
            && r.Ok?
            && r.value.valor.subtotal == Total(e.carrito)
            && forall id :: id in db.productos ==>
                 r.value.db.productos[id].stock == db.productos[id].stock - CantidadEn(e.carrito, id)
  {
    var req := ConstruirVentaRequest(e, usuario, token).value;
    var items := Items(e.carrito);
    assert req.items == items;
    SubtotalEsTotal(db, e.carrito);
    assert Ventas.TodosVisibles(db, items);
    assert Ventas.ProductosDistintos(items);
    forall id | id in db.productos
      ensures Ventas.CantidadDe(items, id) == CantidadEn(e.carrito, id)
    {
      CantidadesDelCarrito(e.carrito, id);
    }
  }
}

=== FILE: empleados.dfy ===
/** Employee directory (`EmpleadoRepository.kt`). Password hashing and checking
    are foreign calls: they are passed in as functions, `hashpw` turning a clear
    password into the stored hash and `coincide` telling whether a clear password
    matches a stored hash. */
module Empleados {
  import opened Wrappers
  import opened Esquema
  import opened Mensajes

  function Respuesta(id: int, e: Empleado): EmpleadoResponse {
    EmpleadoResponse(id, e.nombre, e.usuario, e.rol)
  }

  /** `getById`: the employee, or null for an unknown id. */
  function GetById(db: Db, id: int): (r: Option<EmpleadoResponse>)
    ensures r.Some? <==> id in db.empleados
    ensures r.Some? ==> r.value.id == id && r.value.nombre == db.empleados[id].nombre
                        && r.value.usuario == db.empleados[id].usuario && r.value.rol == db.empleados[id].rol
  {
    if id in db.empleados then Some(Respuesta(id, db.empleados[id])) else None
  }

  /** Some employee other than `excluir` holds `usuario`. */
  predicate UsuarioEnUsoPorOtro(db: Db, usuario: string, excluir: Option<int>) {
    exists k :: k in db.empleados && db.empleados[k].usuario == usuario && excluir != Some(k)
  }

  /** `autenticar`: looks the username up (at most one row, by the unique
      index) and returns the employee only if the password check passes. */
  function Autenticar(db: Db, usuario: string, contrasena: string, coincide: (string, string) -> bool): (r: Option<EmpleadoResponse>)
    requires UsuariosUnicos(db.empleados)
    ensures r.Some? <==> exists k :: k in db.empleados && db.empleados[k].usuario == usuario
                                     && coincide(contrasena, db.empleados[k].contrasena)
    ensures r.Some? ==> r.value.usuario == usuario && GetById(db, r.value.id) == r
  {
    if UsuarioEnUsoPorOtro(db, usuario, None) then
      var k :| k in db.empleados && db.empleados[k].usuario == usuario;
      if coincide(contrasena, db.empleados[k].contrasena) then Some(Respuesta(k, db.empleados[k])) else None
    else
      None
  }

  /** The text the hash call receives for a password that may be null: the
      hashing library appends a terminator to it by string concatenation, so
      a null password is hashed as the four letters `null`. */
  function TextoClave(c: Option<string>): (t: string)
    ensures c.Some? ==> t == c.value
    ensures c.None? ==> t == "null"
  {
    if c.Some? then c.value else "null"
  }

  /** `crearEmpleado` as written: after the username check and the hash, the
      insert runs outside any `dbQuery`, with no transaction in context, and
      throws. */
  function CrearEmpleadoTalCual(db: Db, req: EmpleadoRequest, hashpw: string -> string): (r: Salida<EmpleadoResponse>)
    ensures r.Err?
    ensures r.error == UsuarioEnUso <==> UsuarioEnUsoPorOtro(db, req.usuario, None)
    ensures r.error != UsuarioEnUso ==> r.error == SinTransaccion
  {
    if UsuarioEnUsoPorOtro(db, req.usuario, None) then Err(UsuarioEnUso)
    else Err(SinTransaccion)
  }

  /** `crearEmpleado` with the insert inside the transaction: rejects a taken
      username, hashes the password (a null one as the text `null`) and
      inserts under the next id. */
  function CrearEmpleado(db: Db, req: EmpleadoRequest, hashpw: string -> string): (r: Salida<EmpleadoResponse>)
    requires Valida(db)
    ensures r.Ok? <==> !UsuarioEnUsoPorOtro(db, req.usuario, None)
    ensures r.Err? ==> r.error == UsuarioEnUso
    ensures r.Ok? ==> r.value.valor.id !in db.empleados
                      && r.value.valor == EmpleadoResponse(r.value.valor.id, req.nombre, req.usuario, req.rol)
                      && GetById(r.value.db, r.value.valor.id) == Some(r.value.valor)
                      && r.value.db.empleados[r.value.valor.id].contrasena == hashpw(TextoClave(req.contrasena))
                      && (forall k :: k != r.value.valor.id ==> GetById(r.value.db, k) == GetById(db, k))
                      && Valida(r.value.db)
  {
    if UsuarioEnUsoPorOtro(db, req.usuario, None) then Err(UsuarioEnUso)
    else
      var id := db.secuencias.empleado;
      var e := Empleado(req.nombre, req.usuario, hashpw(TextoClave(req.contrasena)), req.rol);
      var db1 := db.(empleados := db.empleados[id := e], secuencias := db.secuencias.(empleado := id + 1));
      assert UsuariosUnicos(db1.empleados);
      assert ForaneasVentas(db1) && ForaneasTokens(db1);
      Ok(Paso(db1, Respuesta(id, e)))
  }

  /** In the empty store, registering the first employee fails as written and
      succeeds once the insert runs inside the transaction. */
  lemma AltaEnTiendaVacia(hashpw: string -> string)
    ensures var req := EmpleadoRequest("Ana", "ana", Some("clave"), "ADMIN");
            && Valida(DbVacia())
            && CrearEmpleadoTalCual(DbVacia(), req, hashpw) == Err(SinTransaccion)
            && CrearEmpleado(DbVacia(), req, hashpw).Ok?
  {
    var req := EmpleadoRequest("Ana", "ana", Some("clave"), "ADMIN");
    assert !UsuarioEnUsoPorOtro(DbVacia(), req.usuario, None);
  }

  /** The stored hash after an update: a new password is hashed, an absent
      one keeps the stored hash. */
  function ClaveActualizada(anterior: string, c: Option<string>, hashpw: string -> string): (h: string)
    ensures c.Some? ==> h == hashpw(c.value)
    ensures c.None? ==> h == anterior
  {
    if c.Some? then hashpw(c.value) else anterior
  }

  /** `actualizarEmpleado` as written: refuses a username held by a different
      employee, then hashes the password, a null one as the text `null`, and
      overwrites name, username, hash and role of that id only. */
  function ActualizarEmpleadoTalCual(db: Db, id: int, req: EmpleadoRequest, hashpw: string -> string): (r: Salida<bool>)
    ensures r.Err? <==> UsuarioEnUsoPorOtro(db, req.usuario, Some(id))
    ensures r.Err? ==> r.error == UsuarioEnUso
    ensures r.Ok? ==> (r.value.valor <==> id in db.empleados)
    ensures r.Ok? && id in db.empleados ==>
              r.value.db.empleados == db.empleados[id := Empleado(req.nombre, req.usuario, hashpw(TextoClave(req.contrasena)), req.rol)]
    ensures r.Ok? ==> r.value.db == db.(empleados := r.value.db.empleados)
    ensures r.Ok? && id !in db.empleados ==> r.value.db == db
    ensures r.Ok? && Valida(db) ==> Valida(r.value.db)
  {
    if UsuarioEnUsoPorOtro(db, req.usuario, Some(id)) then Err(UsuarioEnUso)
    else if id !in db.empleados then Ok(Paso(db, false))
    else
      var db1 := db.(empleados := db.empleados[id := Empleado(req.nombre, req.usuario, hashpw(TextoClave(req.contrasena)), req.rol)]);
      assert UsuariosUnicos(db.empleados) ==> UsuariosUnicos(db1.empleados);
      Ok(Paso(db1, true))
  }

  /** `actualizarEmpleado` as the request's nullable password intends: the
      same checks and overwrites, except that a null password keeps the
      stored hash. */
  function ActualizarEmpleado(db: Db, id: int, req: EmpleadoRequest, hashpw: string -> string): (r: Salida<bool>)
    ensures r.Err? <==> UsuarioEnUsoPorOtro(db, req.usuario, Some(id))
    ensures r.Err? ==> r.error == UsuarioEnUso
    ensures r.Ok? ==> (r.value.valor <==> id in db.empleados)
    ensures r.Ok? && id in db.empleados && req.contrasena.Some? ==>
              r.value.db.empleados == db.empleados[id := Empleado(req.nombre, req.usuario, hashpw(req.contrasena.value), req.rol)]
    ensures r.Ok? && id in db.empleados && req.contrasena.None? ==>
              r.value.db.empleados == db.empleados[id := db.empleados[id].(nombre := req.nombre, usuario := req.usuario, rol := req.rol)]
    ensures r.Ok? ==> r.value.db == db.(empleados := r.value.db.empleados)
    ensures r.Ok? && id !in db.empleados ==> r.value.db == db
    ensures r.Ok? && Valida(db) ==> Valida(r.value.db)
  {
    if UsuarioEnUsoPorOtro(db, req.usuario, Some(id)) then Err(UsuarioEnUso)
    else if id !in db.empleados then Ok(Paso(db, false))
    else
      var e := Empleado(req.nombre, req.usuario, ClaveActualizada(db.empleados[id].contrasena, req.contrasena, hashpw), req.rol);
      var db1 := db.(empleados := db.empleados[id := e]);
      assert UsuariosUnicos(db.empleados) ==> UsuariosUnicos(db1.empleados);
      Ok(Paso(db1, true))
  }

  /** With a password given, the as-written and the corrected update agree. */
  lemma ActualizarConClaveCoincide(db: Db, id: int, req: EmpleadoRequest, hashpw: string -> string)
    requires req.contrasena.Some?
    ensures ActualizarEmpleadoTalCual(db, id, req, hashpw) == ActualizarEmpleado(db, id, req, hashpw)
  {
  }

  /** An employee with stored hash `h0`, edited without a password: as written
      the stored hash becomes the hash of `null` and that text now logs in;
      corrected, the stored hash stays `h0`. */
  lemma ActualizarSinClaveTalCual()
    ensures var hashpw := (s: string) => "$2a$" + s;
            var coincide := (c: string, h: string) => h == hashpw(c);
            var db := DbVacia().(empleados := map[1 := Empleado("Ana", "ana", "h0", "ADMIN")]);
            var req := EmpleadoRequest("Ana", "ana", None, "ADMIN");
            var escrito := ActualizarEmpleadoTalCual(db, 1, req, hashpw);
            var corregido := ActualizarEmpleado(db, 1, req, hashpw);
            && escrito.Ok? && escrito.value.db.empleados[1].contrasena == "$2a$null"
            && Autenticar(escrito.value.db, "ana", "null", coincide).Some?
            && corregido.Ok? && corregido.value.db == db
            && Autenticar(corregido.value.db, "ana", "null", coincide).None?
  {
    var hashpw := (s: string) => "$2a$" + s;
    var coincide := (c: string, h: string) => h == hashpw(c);
    var db := DbVacia().(empleados := map[1 := Empleado("Ana", "ana", "h0", "ADMIN")]);
    var req := EmpleadoRequest("Ana", "ana", None, "ADMIN");
    assert !UsuarioEnUsoPorOtro(db, "ana", Some(1));
    assert hashpw(TextoClave(None)) == "$2a$null" by {
      assert TextoClave(None) == "null";
      assert "$2a$" + "null" == "$2a$null";
    }
    var escrito := ActualizarEmpleadoTalCual(db, 1, req, hashpw);
    assert escrito.value.db.empleados == map[1 := Empleado("Ana", "ana", "$2a$null", "ADMIN")];
    assert UsuarioEnUsoPorOtro(escrito.value.db, "ana", None);
    assert UsuarioEnUsoPorOtro(db, "ana", None);
    assert hashpw("null") != "h0" by { assert |hashpw("null")| != |"h0"|; }
  }

  /** Keeping one's own username is never a clash. */
  lemma ActualizarConservandoUsuario(db: Db, id: int, req: EmpleadoRequest, hashpw: string -> string)
    requires UsuariosUnicos(db.empleados)
    requires id in db.empleados && req.usuario == db.empleados[id].usuario
    ensures ActualizarEmpleado(db, id, req, hashpw) != Err(UsuarioEnUso)
  {
  }

  /** Some sale or token still references the employee. */
  predicate Referenciado(db: Db, id: int) {
    (exists v :: v in db.ventas && db.ventas[v].empleadoId == id)
    || (exists t :: t in db.tokens && db.tokens[t].empleadoId == id)
  }

  /** `eliminarEmpleado`: true iff the id existed; the store refuses to delete
      an employee that a sale or a token references. */
  function EliminarEmpleado(db: Db, id: int): (r: Salida<bool>)
    ensures r.Err? <==> id in db.empleados && Referenciado(db, id)
    ensures r.Err? ==> r.error == ClaveForanea
    ensures r.Ok? ==> (r.value.valor <==> id in db.empleados)
    ensures r.Ok? ==> GetById(r.value.db, id).None?
    ensures r.Ok? ==> forall k :: k != id ==> GetById(r.value.db, k) == GetById(db, k)
    ensures r.Ok? && Valida(db) ==> Valida(r.value.db)
  {
    if id !in db.empleados then Ok(Paso(db, false))
    else if Referenciado(db, id) then Err(ClaveForanea)
    else Ok(Paso(db.(empleados := db.empleados - {id}), true))
  }
}

=== FILE: esquema.dfy ===
/** The relational schema of SellPoint (`Entidades.kt`): one record type per
    table, the whole store as one immutable value, the errors the store and the
    repositories raise, and the key, uniqueness and foreign-key constraints the
    schema declares, stated as the invariant `Valida`.

    Tables with an identity column are maps from that id to the rest of the row,
    so the primary key is structural. `DetalleVenta` has a composite key and no
    identity, so it is kept as the sequence of its rows in insertion order with
    its key stated as an invariant. `Tokens` is keyed by its unique token
    string. */
module Esquema {
  import opened Wrappers

  /** Tax rate applied to every sale line. */
  const TASA_IVA: real := 0.16

  /** Values of `Ventas.estado`. */
  const ESTADO_PENDIENTE: string := "PENDIENTE"
  const ESTADO_COMPLETADA: string := "COMPLETADA"
  const ESTADO_ANULADA: string := "ANULADA"

  /** Column default of `Ventas.metodoPago`. */
  const METODO_PAGO_POR_DEFECTO: string := "EFECTIVO"

  /** Timestamps are whole seconds; day `d` starts at second `d * SEGUNDOS_POR_DIA`. */
  const SEGUNDOS_POR_DIA: int := 86400

  datatype Cliente = Cliente(nombre: string, telefono: Option<string>)

  /** `contrasena` holds the stored password hash. */
  datatype Empleado = Empleado(nombre: string, usuario: string, contrasena: string, rol: string)

  datatype Categoria = Categoria(nombre: string)

  datatype Proveedor = Proveedor(
    nombre: string,
    contactoNombre: string,
    contactoEmail: string,
    contactoTelefono: string,
    direccion: string,
    activo: bool)

  datatype Producto = Producto(
    nombre: string,
    precio: real,
    stock: int,
    categoriaId: int,
    proveedorId: int,
    codigoBarras: Option<string>,
    imagenUrl: Option<string>,
    activo: bool)

  /** A sale header: the employee is mandatory, the customer optional, and the
      ticket number stays empty until it is assigned after the insert. */
  datatype Venta = Venta(
    clienteId: Option<int>,
    empleadoId: int,
    fecha: int,
    subtotal: real,
    iva: real,
    total: real,
    estado: string,
    metodoPago: string,
    descuento: real,
    numeroTicket: Option<string>)

  /** One row of `DetalleVenta`, keyed by `(ventaId, productoId)`. */
  datatype Detalle = Detalle(
    ventaId: int,
    productoId: int,
    cantidad: int,
    precioUnitario: real,
    subtotal: real,
    iva: real,
    descuento: real,
    promocionId: Option<int>)

  datatype Token = Token(empleadoId: int, creadoEn: int, expiracion: int)

  /** Next value of each identity sequence. */
  datatype Secuencias = Secuencias(cliente: nat, empleado: nat, categoria: nat, proveedor: nat, venta: nat)

  datatype Db = Db(
    clientes: map<int, Cliente>,
    empleados: map<int, Empleado>,
    categorias: map<int, Categoria>,
    proveedores: map<int, Proveedor>,
    productos: map<int, Producto>,
    ventas: map<int, Venta>,
    detalles: seq<Detalle>,
    tokens: map<string, Token>,
    secuencias: Secuencias)

  /** What a repository call throws. A call that throws commits nothing: every
      operation runs inside one `dbQuery` transaction. */
  datatype Falla =
    | EmpleadoNoEncontrado
    | ProductoNoEncontrado(productoId: int)
    | ClaveForanea
    | ClaveDuplicada
    | CodigoBarrasEnUso
    | UsuarioEnUso
    | SinTransaccion

  /** The committed state after a call, with the call's return value. */
  datatype Paso<+T> = Paso(db: Db, valor: T)

  type Salida<T> = Result<Paso<T>, Falla>

  /** The empty store, every sequence at 1. */
  function DbVacia(): Db {
    Db(map[], map[], map[], map[], map[], map[], [], map[], Secuencias(1, 1, 1, 1, 1))
  }

  /** A `Ventas` row inserted with only its mandatory columns: the column
      defaults give `PENDIENTE`, `EFECTIVO`, zero amounts and no ticket. */
  function FilaVentaPorDefecto(empleadoId: int, fecha: int): Venta {
    Venta(None, empleadoId, fecha, 0.0, 0.0, 0.0, ESTADO_PENDIENTE, METODO_PAGO_POR_DEFECTO, 0.0, None)
  }

  // ---------------------------------------------------------------------------
  // Constraints
  // ---------------------------------------------------------------------------

  /** Every id was handed out by a sequence that starts at 1. */
  ghost predicate ClavesBajo(claves: set<int>, siguiente: nat) {
    siguiente >= 1 && forall k :: k in claves ==> 1 <= k < siguiente
  }

  /** `Empleados.usuario` has a unique index. */
  ghost predicate UsuariosUnicos(m: map<int, Empleado>) {
    forall a, b :: a in m && b in m && m[a].usuario == m[b].usuario ==> a == b
  }

  /** `Categorias.nombre` has a unique index. */
  ghost predicate NombresCategoriaUnicos(m: map<int, Categoria>) {
    forall a, b :: a in m && b in m && m[a].nombre == m[b].nombre ==> a == b
  }

  /** `Productos.codigoBarras` is nullable with a unique index: only products
      that have a barcode must differ. */
  ghost predicate CodigosBarrasUnicos(m: map<int, Producto>) {
    forall a, b :: a in m && b in m && m[a].codigoBarras.Some? && m[a].codigoBarras == m[b].codigoBarras ==> a == b
  }

  ghost predicate ForaneasProductos(db: Db) {
    forall p :: p in db.productos ==>
      db.productos[p].categoriaId in db.categorias && db.productos[p].proveedorId in db.proveedores
  }

  /** A sale always references an employee; its customer is optional. */
  ghost predicate ForaneasVentas(db: Db) {
    forall v :: v in db.ventas ==>
      db.ventas[v].empleadoId in db.empleados
      && (db.ventas[v].clienteId.Some? ==> db.ventas[v].clienteId.value in db.clientes)
  }

  ghost predicate ForaneasDetalles(db: Db) {
    forall i :: 0 <= i < |db.detalles| ==>
      db.detalles[i].ventaId in db.ventas && db.detalles[i].productoId in db.productos
  }

  /** Primary key `(ventaId, productoId)`: one line per product per sale. */
  ghost predicate ClavePrimariaDetalles(ds: seq<Detalle>) {
    forall i, j :: 0 <= i < j < |ds| ==>
      ds[i].ventaId != ds[j].ventaId || ds[i].productoId != ds[j].productoId
  }

  ghost predicate ForaneasTokens(db: Db) {
    forall t :: t in db.tokens ==> db.tokens[t].empleadoId in db.empleados
  }

  /** Every constraint the schema declares. */
  ghost predicate Valida(db: Db) {
    && ClavesBajo(db.clientes.Keys, db.secuencias.cliente)
    && ClavesBajo(db.empleados.Keys, db.secuencias.empleado)
    && ClavesBajo(db.categorias.Keys, db.secuencias.categoria)
    && ClavesBajo(db.proveedores.Keys, db.secuencias.proveedor)
    && ClavesBajo(db.ventas.Keys, db.secuencias.venta)
    && UsuariosUnicos(db.empleados)
    && NombresCategoriaUnicos(db.categorias)
    && CodigosBarrasUnicos(db.productos)
    && ForaneasProductos(db)
    && ForaneasVentas(db)
    && ForaneasDetalles(db)
    && ClavePrimariaDetalles(db.detalles)
    && ForaneasTokens(db)
  }

  /** `ids` lists every key of a table exactly once: the rows a full select
      returns, in whatever order the store returns them. */
  ghost predicate Enumera(ids: seq<int>, claves: set<int>) {
    && (forall i, j :: 0 <= i < j < |ids| ==> ids[i] != ids[j])
    && (forall i :: 0 <= i < |ids| ==> ids[i] in claves)
    && (forall k :: k in claves ==> k in ids)
  }
}

=== FILE: mensajes.dfy ===
/** Request and response shapes the server exchanges with the client
    (`Request.kt`, `Response.kt`). Amounts that the source carries as `Double`
    are exact reals here; timestamps are whole seconds instead of ISO strings. */
module Mensajes {
  import opened Wrappers

  datatype ItemVentaRequest = ItemVentaRequest(
    productoId: int,
    cantidad: int,
    precioEspecial: Option<real>,
    descuento: real,
    promocionId: Option<int>)

  datatype VentaRequest = VentaRequest(
    clienteId: Option<int>,
    empleadoId: int,
    items: seq<ItemVentaRequest>,
    metodoPago: string,
    descuento: real)

  datatype ClienteSimple = ClienteSimple(id: int, nombre: string)

  datatype EmpleadoSimple = EmpleadoSimple(id: int, nombre: string)

  datatype ItemVentaResponse = ItemVentaResponse(
    productoId: int,
    codigoBarras: string,
    nombre: string,
    cantidad: int,
    precioUnitario: real,
    descuento: real,
    subtotal: real,
    promocionId: Option<int>)

  datatype VentaResponse = VentaResponse(
    id: int,
    cliente: Option<ClienteSimple>,
    empleado: EmpleadoSimple,
    fecha: int,
    subtotal: real,
    iva: real,
    total: real,
    estado: string,
    metodoPago: string,
    items: seq<ItemVentaResponse>,
    numeroTicket: Option<string>)

  datatype ProductoRequest = ProductoRequest(
    nombre: string,
    precio: real,
    stock: int,
    categoriaId: int,
    proveedorId: int,
    codigoBarras: Option<string>,
    imagenUrl: Option<string>)

  datatype CategoriaSimple = CategoriaSimple(id: int, nombre: string)

  datatype ProveedorSimple = ProveedorSimple(id: int, nombre: string)

  datatype ProductoResponse = ProductoResponse(
    id: int,
    nombre: string,
    precio: real,
    stock: int,
    codigoBarras: Option<string>,
    imagenUrl: Option<string>,
    categoria: CategoriaSimple,
    proveedor: ProveedorSimple)

  /** `contrasena` is the clear-text password; it may be null on update. */
  datatype EmpleadoRequest = EmpleadoRequest(nombre: string, usuario: string, contrasena: Option<string>, rol: string)

  datatype EmpleadoResponse = EmpleadoResponse(id: int, nombre: string, usuario: string, rol: string)

  datatype ClienteRequest = ClienteRequest(nombre: string, telefono: Option<string>)

  datatype ClienteResponse = ClienteResponse(id: int, nombre: string, telefono: Option<string>)

  datatype CategoriaResponse = CategoriaResponse(id: int, nombre: string, cantidadProductos: nat)

  datatype ProveedorRequest = ProveedorRequest(
    nombre: string,
    contactoNombre: string,
    contactoEmail: string,
    contactoTelefono: string,
    direccion: string)

  datatype ProveedorResponse = ProveedorResponse(
    id: int,
    nombre: string,
    contactoNombre: string,
    contactoEmail: string,
    contactoTelefono: string,
    direccion: string,
    productosSuministrados: int,
    activo: bool)

  datatype VentaSimple = VentaSimple(id: int, total: real, fecha: int, metodoPago: string)

  datatype ProductoVendido = ProductoVendido(productoId: int, nombre: string, cantidadVendida: int, totalVendido: real)

  datatype ReporteDiario = ReporteDiario(
    fecha: int,
    totalVentas: real,
    cantidadVentas: nat,
    ventas: seq<VentaSimple>,
    productosMasVendidos: seq<ProductoVendido>,
    metodoPagos: map<string, real>)
}

=== FILE: productos.dfy ===
/** Product ledger (`ProductoRepository.kt`): lookups through the join with
    category and supplier, relative and absolute stock changes, price changes,
    the guarded update, deletion and the name search. */
module Productos {
  import opened Wrappers
  import opened Esquema
  import opened Mensajes
  import opened Texto

  /** The inner join with `Categorias` and `Proveedores` finds the row. */
  predicate Visible(db: Db, id: int) {
    id in db.productos
    && db.productos[id].categoriaId in db.categorias
    && db.productos[id].proveedorId in db.proveedores
  }

  function Respuesta(db: Db, id: int): ProductoResponse
    requires Visible(db, id)
  {
    var p := db.productos[id];
    ProductoResponse(id, p.nombre, p.precio, p.stock, p.codigoBarras, p.imagenUrl,
                     CategoriaSimple(p.categoriaId, db.categorias[p.categoriaId].nombre),
                     ProveedorSimple(p.proveedorId, db.proveedores[p.proveedorId].nombre))
  }

  /** `getById`: the product with its category and supplier names, or null.
      In a valid store every product is visible. */
  function GetById(db: Db, id: int): (r: Option<ProductoResponse>)
    ensures r.Some? <==> Visible(db, id)
    ensures Valida(db) ==> (r.Some? <==> id in db.productos)
    ensures r.Some? ==>
              var p := db.productos[id];
              && r.value.id == id && r.value.nombre == p.nombre && r.value.precio == p.precio
              && r.value.stock == p.stock && r.value.codigoBarras == p.codigoBarras
              && r.value.imagenUrl == p.imagenUrl
              && r.value.categoria.id == p.categoriaId && r.value.proveedor.id == p.proveedorId
  {
    if Visible(db, id) then Some(Respuesta(db, id)) else None
  }

  // ---------------------------------------------------------------------------
  // Single-column updates
  // ---------------------------------------------------------------------------

  /** `db` with product `id` replaced by `p` (the id must exist). */
  function ConProducto(db: Db, id: int, p: Producto): Db
    requires id in db.productos
  {
    db.(productos := db.productos[id := p])
  }

  /** A change to product `id` only: every other table and every other product
      is as before, and no product appears or disappears. */
  ghost predicate SoloCambia(db: Db, db1: Db, id: int) {
    && db1 == db.(productos := db1.productos)
    && db1.productos.Keys == db.productos.Keys
    && (forall k :: k in db.productos && k != id ==> db1.productos[k] == db.productos[k])
  }

  /** A store change that keeps every constraint whenever only the stock or
      the price of one product moves. */
  lemma CambioSimpleValido(db: Db, id: int, p: Producto)
    requires id in db.productos
    requires p.categoriaId == db.productos[id].categoriaId
    requires p.proveedorId == db.productos[id].proveedorId
    requires p.codigoBarras == db.productos[id].codigoBarras
    ensures Valida(db) ==> Valida(ConProducto(db, id, p))
  {
    var db1 := ConProducto(db, id, p);
    if Valida(db) {
      assert CodigosBarrasUnicos(db1.productos) by {
        forall a, b | a in db1.productos && b in db1.productos && db1.productos[a].codigoBarras.Some?
                      && db1.productos[a].codigoBarras == db1.productos[b].codigoBarras
          ensures a == b
        {
          assert db1.productos[a].codigoBarras == db.productos[a].codigoBarras;
          assert db1.productos[b].codigoBarras == db.productos[b].codigoBarras;
        }
      }
    }
  }

  /** `sumarStock`: adds `cantidad` to the stock of that product only; true iff
      it exists. */
  function SumarStock(db: Db, id: int, cantidad: int): (r: Paso<bool>)
    ensures r.valor <==> id in db.productos
    ensures SoloCambia(db, r.db, id)
    ensures id !in db.productos ==> r.db == db
    ensures id in db.productos ==>
              r.db.productos[id] == db.productos[id].(stock := db.productos[id].stock + cantidad)
    ensures Valida(db) ==> Valida(r.db)
  {
    if id in db.productos then
      var p := db.productos[id];
      var q := p.(stock := p.stock + cantidad);
      CambioSimpleValido(db, id, q);
      Paso(ConProducto(db, id, q), true)
    else Paso(db, false)
  }

  /** `restarStock`: subtracts `cantidad` from the stock of that product only,
      with no floor; true iff it exists. */
  function RestarStock(db: Db, id: int, cantidad: int): (r: Paso<bool>)
    ensures r.valor <==> id in db.productos
    ensures SoloCambia(db, r.db, id)
    ensures id !in db.productos ==> r.db == db
    ensures id in db.productos ==>
              r.db.productos[id] == db.productos[id].(stock := db.productos[id].stock - cantidad)
    ensures Valida(db) ==> Valida(r.db)
  {
    if id in db.productos then
      var p := db.productos[id];
      var q := p.(stock := p.stock - cantidad);
      CambioSimpleValido(db, id, q);
      Paso(ConProducto(db, id, q), true)
    else Paso(db, false)
  }

  /** Taking `cantidad` out and putting it back leaves the store as it was. */
  lemma RestarLuegoSumar(db: Db, id: int, cantidad: int)
    ensures SumarStock(RestarStock(db, id, cantidad).db, id, cantidad).db == db
  {
    if id in db.productos {
      var db2 := SumarStock(RestarStock(db, id, cantidad).db, id, cantidad).db;
      assert db2.productos == db.productos;
    }
  }

  /** `actualizarStock`: overwrites the stock of that product only; true iff it
      exists. */
  function ActualizarStock(db: Db, id: int, nuevoStock: int): (r: Paso<bool>)
    ensures r.valor <==> id in db.productos
    ensures SoloCambia(db, r.db, id)
    ensures id !in db.productos ==> r.db == db
    ensures id in db.productos ==> r.db.productos[id] == db.productos[id].(stock := nuevoStock)
    ensures Valida(db) ==> Valida(r.db)
  {
    if id in db.productos then
      var q := db.productos[id].(stock := nuevoStock);
      CambioSimpleValido(db, id, q);
      Paso(ConProducto(db, id, q), true)
    else Paso(db, false)
  }

  /** `actualizarPrecio`: overwrites the price of that product only; true iff it
      exists. */
  function ActualizarPrecio(db: Db, id: int, nuevoPrecio: real): (r: Paso<bool>)
    ensures r.valor <==> id in db.productos
    ensures SoloCambia(db, r.db, id)
    ensures id !in db.productos ==> r.db == db
    ensures id in db.productos ==> r.db.productos[id] == db.productos[id].(precio := nuevoPrecio)
    ensures Valida(db) ==> Valida(r.db)
  {
    if id in db.productos then
      var q := db.productos[id].(precio := nuevoPrecio);
      CambioSimpleValido(db, id, q);
      Paso(ConProducto(db, id, q), true)
    else Paso(db, false)
  }

  /** Relative and absolute stock updates agree. */
  lemma SumarEsActualizar(db: Db, id: int, cantidad: int)
    requires id in db.productos
    ensures SumarStock(db, id, cantidad) == ActualizarStock(db, id, db.productos[id].stock + cantidad)
  {
  }

  // ---------------------------------------------------------------------------
  // update
  // ---------------------------------------------------------------------------

  /** The duplicate-barcode query of `update` as written: comparing the column
      with a null request value selects the rows whose barcode is null, so it
      also matches every other product that has no barcode. */
  predicate OtroConCodigoTalCual(db: Db, id: int, codigo: Option<string>) {
    exists k :: k in db.productos && k != id && db.productos[k].codigoBarras == codigo
  }

  /** The intended duplicate-barcode check: only a requested barcode can clash. */
  predicate OtroConCodigo(db: Db, id: int, codigo: Option<string>) {
    codigo.Some? && OtroConCodigoTalCual(db, id, codigo)
  }

  /** The row after `update`: name, price, stock, category and supplier are
      overwritten; a null barcode or image path keeps the stored value. */
  function Aplicar(p: Producto, req: ProductoRequest): (q: Producto)
    ensures q.nombre == req.nombre && q.precio == req.precio && q.stock == req.stock
    ensures q.categoriaId == req.categoriaId && q.proveedorId == req.proveedorId
    ensures q.codigoBarras == (if req.codigoBarras.Some? then req.codigoBarras else p.codigoBarras)
    ensures q.imagenUrl == (if req.imagenUrl.Some? then req.imagenUrl else p.imagenUrl)
    ensures q.activo == p.activo
  {
    Producto(req.nombre, req.precio, req.stock, req.categoriaId, req.proveedorId,
             if req.codigoBarras.Some? then req.codigoBarras else p.codigoBarras,
             if req.imagenUrl.Some? then req.imagenUrl else p.imagenUrl,
             p.activo)
  }

  /** The new category or supplier of an existing product does not exist. */
  predicate ForaneaRota(db: Db, id: int, req: ProductoRequest) {
    id in db.productos && (req.categoriaId !in db.categorias || req.proveedorId !in db.proveedores)
  }

  /** `update` with the barcode check limited to a requested barcode: throws
      when another product holds it; otherwise rewrites the row (the store
      refuses a missing category or supplier) and returns true iff the id
      existed. */
  function Update(db: Db, id: int, req: ProductoRequest): (r: Salida<bool>)
    ensures r.Err? <==> OtroConCodigo(db, id, req.codigoBarras) || ForaneaRota(db, id, req)
    ensures OtroConCodigo(db, id, req.codigoBarras) ==> r == Err(CodigoBarrasEnUso)
    ensures r.Ok? ==> (r.value.valor <==> id in db.productos)
    ensures r.Ok? ==> SoloCambia(db, r.value.db, id)
    ensures r.Ok? && id !in db.productos ==> r.value.db == db
    ensures r.Ok? && id in db.productos ==> r.value.db.productos[id] == Aplicar(db.productos[id], req)
    ensures r.Ok? && Valida(db) ==> Valida(r.value.db)
  {
    if OtroConCodigo(db, id, req.codigoBarras) then Err(CodigoBarrasEnUso)
    else if id !in db.productos then Ok(Paso(db, false))
    else if ForaneaRota(db, id, req) then Err(ClaveForanea)
    else
      var db1 := ConProducto(db, id, Aplicar(db.productos[id], req));
      assert CodigosBarrasUnicos(db.productos) ==> CodigosBarrasUnicos(db1.productos);
      Ok(Paso(db1, true))
  }

  /** `update` as written: the barcode check also fires for a null barcode
      whenever another product has none; otherwise it behaves as `Update`. */
  function UpdateTalCual(db: Db, id: int, req: ProductoRequest): (r: Salida<bool>)
    ensures OtroConCodigoTalCual(db, id, req.codigoBarras) ==> r == Err(CodigoBarrasEnUso)
    ensures !OtroConCodigoTalCual(db, id, req.codigoBarras) ==> r == Update(db, id, req)
    ensures req.codigoBarras.Some? ==> r == Update(db, id, req)
  {
    if OtroConCodigoTalCual(db, id, req.codigoBarras) then Err(CodigoBarrasEnUso)
    else Update(db, id, req)
  }

  /** Two products without barcode: editing the first one without sending a
      barcode is refused as written, and succeeds once the check looks only at
      requested barcodes. */
  lemma UpdateSinCodigoRechazado()
    ensures var db := DosProductosSinCodigo();
            var req := ProductoRequest("Pan", 1.5, 10, 1, 1, None, None);
            && Valida(db)
            && UpdateTalCual(db, 1, req) == Err(CodigoBarrasEnUso)
            && Update(db, 1, req).Ok? && Update(db, 1, req).value.valor
  {
    var db := DosProductosSinCodigo();
    var req := ProductoRequest("Pan", 1.5, 10, 1, 1, None, None);
    assert db.productos[2].codigoBarras == None;
    assert OtroConCodigoTalCual(db, 1, req.codigoBarras);
  }

  /** A store with one category, one supplier and two products without barcode. */
  function DosProductosSinCodigo(): Db {
    var p := Producto("Leche", 1.0, 5, 1, 1, None, None, true);
    DbVacia().(categorias := map[1 := Categoria("Lacteos")],
    proveedores := map[1 := Proveedor("Granja", "Ana", "ana@granja", "600", "Calle 1", true)],
    productos := map[1 := p, 2 := p.(nombre := "Yogur")],
    secuencias := Secuencias(1, 1, 2, 2, 1))
  }

  // ---------------------------------------------------------------------------
  // delete and search
  // ---------------------------------------------------------------------------

  /** Some sale line references the product. */
  predicate Referenciado(db: Db, id: int) {
    exists i :: 0 <= i < |db.detalles| && db.detalles[i].productoId == id
  }

  /** `delete`: true iff the product existed, after which `getById` is null;
      the store refuses to delete a product a sale line references. */
  function Delete(db: Db, id: int): (r: Salida<bool>)
    ensures r.Err? <==> id in db.productos && Referenciado(db, id)
    ensures r.Err? ==> r.error == ClaveForanea
    ensures r.Ok? ==> (r.value.valor <==> id in db.productos)
    ensures r.Ok? ==> GetById(r.value.db, id).None?
    ensures r.Ok? ==> r.value.db == db.(productos := db.productos - {id})
    ensures r.Ok? ==> forall k :: k != id ==> GetById(r.value.db, k) == GetById(db, k)
    ensures r.Ok? && Valida(db) ==> Valida(r.value.db)
  {
    if id !in db.productos then Ok(Paso(db, false))
    else if Referenciado(db, id) then Err(ClaveForanea)
    else Ok(Paso(db.(productos := db.productos - {id}), true))
  }

  /** The `LIKE` pattern `%term%` of the name search. */
  function PatronBusqueda(term: string): string {
    "%" + term + "%"
  }

  /** `buscarProductosPorNombre`: the joined products, in the order the store
      lists `ids`, whose name matches `%term%`. */
  function BuscarProductosPorNombre(db: Db, ids: seq<int>, term: string): (r: seq<ProductoResponse>)
    ensures forall x :: x in r ==> x.id in ids && GetById(db, x.id) == Some(x)
                                   && Like(x.nombre, PatronBusqueda(term))
    ensures forall i :: 0 <= i < |ids| && Visible(db, ids[i])
                        && Like(db.productos[ids[i]].nombre, PatronBusqueda(term))
                        ==> Respuesta(db, ids[i]) in r
  {
    if ids == [] then []
    else
      var resto := BuscarProductosPorNombre(db, ids[1..], term);
      assert forall i :: 1 <= i < |ids| ==> ids[i] == ids[1..][i - 1];
      if Visible(db, ids[0]) && Like(db.productos[ids[0]].nombre, PatronBusqueda(term))
      then [Respuesta(db, ids[0])] + resto
      else resto
  }

  /** With no wildcard or escape character in the term, and `ids` listing every
      product, the search returns exactly the products whose name contains the
      term. */
  lemma BuscarDevuelveLosQueContienen(db: Db, ids: seq<int>, term: string)
    requires Valida(db) && Enumera(ids, db.productos.Keys)
    requires SinComodines(term)
    ensures forall k :: k in db.productos ==>
                          ((exists x :: x in BuscarProductosPorNombre(db, ids, term) && x.id == k)
                           <==> Contiene(db.productos[k].nombre, term))
  {
    var r := BuscarProductosPorNombre(db, ids, term);
    forall k | k in db.productos
      ensures (exists x :: x in r && x.id == k) <==> Contiene(db.productos[k].nombre, term)
    {
      BuscarEsContiene(db.productos[k].nombre, term);
      if Contiene(db.productos[k].nombre, term) {
        var i :| 0 <= i < |ids| && ids[i] == k;
        assert Respuesta(db, ids[i]) in r;
      }
    }
  }
}

=== FILE: propiedades_ventas.dfy ===
/** What a created sale leaves in the store and what reversing it undoes:
    the rows written, the stock taken, the money sums over the stored lines,
    reading the sale back, and reversal restoring the product table. */
module PropiedadesVentas {
  import opened Wrappers
  import opened Esquema
  import opened Mensajes
  import opened Ventas

  // ---------------------------------------------------------------------------
  // Sums over concatenated lines
  // ---------------------------------------------------------------------------

  lemma {:induction false} SumasConcat(a: seq<Detalle>, b: seq<Detalle>, v: int)
    ensures SubtotalVenta(a + b, v) == SubtotalVenta(a, v) + SubtotalVenta(b, v)
    ensures IvaVenta(a + b, v) == IvaVenta(a, v) + IvaVenta(b, v)
    ensures forall p :: CantidadVendida(a + b, v, p) == CantidadVendida(a, v, p) + CantidadVendida(b, v, p)
    ensures forall db: Db :: ItemsDe(db, a + b, v) == ItemsDe(db, a, v) + ItemsDe(db, b, v)
  {
    if a != [] {
      assert (a + b)[1..] == a[1..] + b;
      SumasConcat(a[1..], b, v);
    } else {
      assert a + b == b;
    }
  }

  /** Lines of other sales add nothing to sale `v`. */
  lemma {:induction false} SumasSinVenta(db: Db, ds: seq<Detalle>, v: int)
    requires forall j :: 0 <= j < |ds| ==> ds[j].ventaId != v
    ensures SubtotalVenta(ds, v) == 0.0 && IvaVenta(ds, v) == 0.0
    ensures forall p :: CantidadVendida(ds, v, p) == 0
    ensures ItemsDe(db, ds, v) == []
  {
    if ds != [] {
      assert forall j :: 1 <= j < |ds| ==> ds[1..][j - 1] == ds[j];
      SumasSinVenta(db, ds[1..], v);
    }
  }

  /** The lines a request inserts add up to what `calcularTotales` computed,
      ask each product for its requested quantity, and read back as the
      response items (in any store with the same catalogue). */
  lemma {:induction false} SumasLineas(db: Db, otra: Db, v: int, items: seq<ItemVentaRequest>)
    requires TodosVisibles(db, items) && MismoCatalogo(db, otra)
    ensures SubtotalVenta(Lineas(db, v, items), v) == CalcularTotales(db, items).value.0
    ensures IvaVenta(Lineas(db, v, items), v) == CalcularTotales(db, items).value.1
    ensures forall p :: CantidadVendida(Lineas(db, v, items), v, p) == CantidadDe(items, p)
    ensures ItemsDe(otra, Lineas(db, v, items), v) == Respuestas(db, items)
  {
    if items != [] {
      LineasPaso(db, v, items);
      var l := Lineas(db, v, items);
      assert l[1..] == Lineas(db, v, items[1..]);
      assert TodosVisibles(db, items[1..]) by {
        forall i | 0 <= i < |items[1..]| ensures Productos.Visible(db, items[1..][i].productoId) {
          assert items[1..][i] == items[i + 1];
        }
      }
      SumasLineas(db, otra, v, items[1..]);
      var p0 := items[0].productoId;
      assert otra.productos[p0].(stock := 0) == db.productos[p0].(stock := 0);
      assert otra.productos[p0].nombre == db.productos[p0].nombre;
      assert otra.productos[p0].codigoBarras == db.productos[p0].codigoBarras;
      assert ItemDeDetalle(otra, l[0]) == ItemRespuesta(db, items[0]);
    }
  }

  // ---------------------------------------------------------------------------
  // crearVenta
  // ---------------------------------------------------------------------------

  /** Stock after a sale: each product lost exactly the quantity the lines ask
      of it, with no floor, and nothing else about any product changed. */
  lemma CrearVentaStock(db: Db, req: VentaRequest, ahora: int, anio: nat)
    requires Valida(db) && CrearVenta(db, req, ahora, anio).Ok?
    ensures var r := CrearVenta(db, req, ahora, anio).value;
            && r.db.productos.Keys == db.productos.Keys
            && forall p :: p in db.productos ==>
                 r.db.productos[p] == db.productos[p].(stock := db.productos[p].stock - CantidadDe(req.items, p))
  {
    var r := CrearVenta(db, req, ahora, anio).value;
    assert r.db.productos == Descontar(db.productos, req.items);
  }

  /** The header's subtotal and tax are the sums of the subtotals and taxes of
      the sale's stored lines; the tax is the rate times the subtotal, and the
      total is subtotal plus tax minus the sale discount. */
  lemma CrearVentaSumas(db: Db, req: VentaRequest, ahora: int, anio: nat)
    requires Valida(db) && CrearVenta(db, req, ahora, anio).Ok?
    ensures var r := CrearVenta(db, req, ahora, anio).value;
            var v := r.db.ventas[r.valor.id];
            && v.subtotal == SubtotalVenta(r.db.detalles, r.valor.id)
            && v.iva == IvaVenta(r.db.detalles, r.valor.id)
            && v.iva == TASA_IVA * v.subtotal
            && v.total == v.subtotal + v.iva - req.descuento
            && r.valor.subtotal == v.subtotal && r.valor.iva == v.iva && r.valor.total == v.total
  {
    var id := db.secuencias.venta;
    SumasConcat(db.detalles, Lineas(db, id, req.items), id);
    SinLineasPrevias(db);
    SumasSinVenta(db, db.detalles, id);
    SumasLineas(db, db, id, req.items);
  }

  /** No stored line belongs to the next sale id. */
  lemma SinLineasPrevias(db: Db)
    requires Valida(db)
    ensures forall j :: 0 <= j < |db.detalles| ==> db.detalles[j].ventaId != db.secuencias.venta
  {
    forall j | 0 <= j < |db.detalles| ensures db.detalles[j].ventaId != db.secuencias.venta {
      assert db.detalles[j].ventaId in db.ventas;
    }
  }

  /** Reading the new sale back gives the response `crearVenta` returned, up
      to the order of its items: the read sets no order on the lines. */
  lemma CrearVentaLeida(db: Db, req: VentaRequest, ahora: int, anio: nat)
    requires Valida(db) && CrearVenta(db, req, ahora, anio).Ok?
    ensures var r := CrearVenta(db, req, ahora, anio).value;
            var leida := ObtenerVentaPorId(r.db, r.valor.id);
            && leida.Ok? && leida.value.Some?
            && leida.value.value.(items := r.valor.items) == r.valor
            && multiset(leida.value.value.items) == multiset(r.valor.items)
  {
    var r := CrearVenta(db, req, ahora, anio).value;
    var id := db.secuencias.venta;
    SumasConcat(db.detalles, Lineas(db, id, req.items), id);
    SinLineasPrevias(db);
    SumasSinVenta(r.db, db.detalles, id);
    assert MismoCatalogo(db, r.db);
    SumasLineas(db, r.db, id, req.items);
    assert ItemsDe(r.db, r.db.detalles, id) == Respuestas(db, req.items);
  }

  /** A line's own discount reaches its stored row but no amount: requests that
      differ only in line discounts price identically. */
  lemma {:induction false} DescuentoDeLineaNoCuenta(db: Db, items: seq<ItemVentaRequest>, otros: seq<ItemVentaRequest>)
    requires |otros| == |items|
    requires forall i :: 0 <= i < |items| ==> otros[i] == items[i].(descuento := otros[i].descuento)
    ensures CalcularTotales(db, otros) == CalcularTotales(db, items)
  {
    if items != [] {
      assert otros[0] == items[0].(descuento := otros[0].descuento);
      assert forall i :: 1 <= i < |items| ==> items[1..][i - 1] == items[i] && otros[1..][i - 1] == otros[i];
      DescuentoDeLineaNoCuenta(db, items[1..], otros[1..]);
      assert otros[0].productoId == items[0].productoId;
      if Productos.Visible(db, items[0].productoId) {
        assert SubtotalItem(db, otros[0]) == SubtotalItem(db, items[0]);
      }
    }
  }

  /** A request without lines is accepted: the sale is recorded with zero
      amounts less the discount and no stock moves. */
  lemma VentaSinLineas(db: Db, req: VentaRequest, ahora: int, anio: nat)
    requires Valida(db) && req.items == [] && req.empleadoId in db.empleados && ClienteValido(db, req.clienteId)
    ensures CrearVenta(db, req, ahora, anio).Ok?
    ensures var r := CrearVenta(db, req, ahora, anio).value;
            r.valor.items == [] && r.valor.total == 0.0 - req.descuento && r.db.productos == db.productos
  {
    assert Descontar(db.productos, []) == db.productos;
  }

  // ---------------------------------------------------------------------------
  // anularVenta
  // ---------------------------------------------------------------------------

  /** Reversing twice is reversing once: the second call changes nothing and
      answers the same. */
  lemma AnularIdempotente(db: Db, id: int)
    requires AnularVenta(db, id).Ok?
    ensures var r := AnularVenta(db, id).value;
            AnularVenta(r.db, id) == Ok(r)
  {
  }

  /** Giving back what the lines of sale `v` hold, when they hold what was
      taken, restores the product table. */
  lemma ReponerDescontado(productos: map<int, Producto>, items: seq<ItemVentaRequest>, ds: seq<Detalle>, v: int)
    requires forall p :: CantidadVendida(ds, v, p) == CantidadDe(items, p)
    ensures Reponer(Descontar(productos, items), ds, v) == productos
  {
    var m := Reponer(Descontar(productos, items), ds, v);
    forall p | p in productos ensures m[p] == productos[p] {
      assert CantidadVendida(ds, v, p) == CantidadDe(items, p);
    }
  }

  /** The stored lines of a new sale hold, per product, the quantity the
      request asked for. */
  lemma CantidadesDeVentaNueva(db: Db, req: VentaRequest, ahora: int, anio: nat)
    requires Valida(db) && CrearVenta(db, req, ahora, anio).Ok?
    ensures var r := CrearVenta(db, req, ahora, anio).value;
            forall p :: CantidadVendida(r.db.detalles, r.valor.id, p) == CantidadDe(req.items, p)
  {
    var id := db.secuencias.venta;
    SumasConcat(db.detalles, Lineas(db, id, req.items), id);
    SinLineasPrevias(db);
    SumasSinVenta(db, db.detalles, id);
    SumasLineas(db, db, id, req.items);
  }

  /** Reversing a sale just created gives every product its stock back: the
      product table is exactly the one before the sale. */
  lemma CrearLuegoAnular(db: Db, req: VentaRequest, ahora: int, anio: nat)
    requires Valida(db) && CrearVenta(db, req, ahora, anio).Ok?
    ensures var r := CrearVenta(db, req, ahora, anio).value;
            var a := AnularVenta(r.db, r.valor.id);
            && a.Ok?
            && a.value.db.productos == db.productos
            && a.value.db.ventas[r.valor.id].estado == ESTADO_ANULADA
  {
    var r := CrearVenta(db, req, ahora, anio).value;
    var id := r.valor.id;
    CantidadesDeVentaNueva(db, req, ahora, anio);
    ReponerDescontado(db.productos, req.items, r.db.detalles, id);
    assert r.db.productos == Descontar(db.productos, req.items);
  }

  // ---------------------------------------------------------------------------
  // A worked sale
  // ---------------------------------------------------------------------------

  /** A store with employee 1, product 1 (price 10, stock 5) and product 2
      (price 20, stock 3), both filed under category 1 and supplier 1. */
  function TiendaEjemplo(): Db {
    var prov := Proveedor("Granja", "Luis", "luis@granja.mx", "555", "Centro", true);
    Db(map[], map[1 := Empleado("Ana", "ana", "h", "CAJERO")], map[1 := Categoria("Abarrotes")], map[1 := prov],
       map[1 := Producto("A", 10.0, 5, 1, 1, None, None, true), 2 := Producto("B", 20.0, 3, 1, 1, None, None, true)],
       map[], [], map[], Secuencias(1, 2, 2, 2, 1))
  }

  /** Two of product 1 and one of product 2, no discounts, no customer. */
  function PedidoEjemplo(): VentaRequest {
    VentaRequest(None, 1, [ItemVentaRequest(1, 2, None, 0.0, None), ItemVentaRequest(2, 1, None, 0.0, None)],
                 "EFECTIVO", 0.0)
  }

  /** The sale comes to 40 plus 6.40 tax, 46.40 in all, and leaves stocks 3
      and 2; reversing it brings them back to 5 and 3, and reversing it again
      changes nothing. */
  lemma EjemploVentaYAnulacion(ahora: int, anio: nat)
    ensures var r := CrearVenta(TiendaEjemplo(), PedidoEjemplo(), ahora, anio);
            && r.Ok?
            && r.value.valor.subtotal == 40.0 && r.value.valor.iva == 6.4 && r.value.valor.total == 46.4
            && r.value.db.productos[1].stock == 3 && r.value.db.productos[2].stock == 2
            && var a := AnularVenta(r.value.db, r.value.valor.id);
               && a.Ok?
               && a.value.db.productos[1].stock == 5 && a.value.db.productos[2].stock == 3
               && AnularVenta(a.value.db, r.value.valor.id) == a
  {
    var db := TiendaEjemplo();
    var req := PedidoEjemplo();
    EjemploAceptado(ahora, anio);
    var r := CrearVenta(db, req, ahora, anio);
    assert CantidadDe(req.items, 1) == 2 && CantidadDe(req.items, 2) == 1;
    CrearLuegoAnular(db, req, ahora, anio);
    AnularIdempotente(r.value.db, r.value.valor.id);
  }

  lemma EjemploAceptado(ahora: int, anio: nat)
    ensures Valida(TiendaEjemplo())
    ensures CalcularTotales(TiendaEjemplo(), PedidoEjemplo().items) == Ok((40.0, 6.4))
    ensures CrearVenta(TiendaEjemplo(), PedidoEjemplo(), ahora, anio).Ok?
  {
    var db := TiendaEjemplo();
    var req := PedidoEjemplo();
    assert Valida(db);
    assert Productos.Visible(db, 1) && Productos.Visible(db, 2);
    assert TodosVisibles(db, req.items);
    assert ProductosDistintos(req.items);
  }
}

=== FILE: proveedores.dfy ===
/** Suppliers (`ProveedorRepository.kt`). Deletion is soft: it clears the
    `activo` flag, and only active suppliers are listed or looked up. */
module Proveedores {
  import opened Wrappers
  import opened Esquema
  import opened Mensajes

  /** The response of a listed supplier: the source fills the count of supplied
      products and the flag with their defaults, 0 and true. */
  function Respuesta(id: int, p: Proveedor): ProveedorResponse {
    ProveedorResponse(id, p.nombre, p.contactoNombre, p.contactoEmail, p.contactoTelefono, p.direccion, 0, true)
  }

  predicate Activo(db: Db, id: int) {
    id in db.proveedores && db.proveedores[id].activo
  }

  /** `getAll`: the active suppliers, in the order the store lists `ids`. */
  function GetAll(db: Db, ids: seq<int>): (r: seq<ProveedorResponse>)
    requires forall i :: 0 <= i < |ids| ==> ids[i] in db.proveedores
    ensures forall x :: x in r ==> x.id in ids && GetById(db, x.id) == Some(x)
    ensures forall i :: 0 <= i < |ids| ==> (Activo(db, ids[i]) <==> Respuesta(ids[i], db.proveedores[ids[i]]) in r)
  {
    if ids == [] then []
    else
      var resto := GetAll(db, ids[1..]);
      assert forall i :: 1 <= i < |ids| ==> ids[i] == ids[1..][i - 1];
      if db.proveedores[ids[0]].activo then [Respuesta(ids[0], db.proveedores[ids[0]])] + resto else resto
  }

  /** `getById`: the supplier if it exists and is active, else null. */
  function GetById(db: Db, id: int): (r: Option<ProveedorResponse>)
    ensures r.Some? <==> Activo(db, id)
    ensures r.Some? ==> r.value.id == id && r.value.nombre == db.proveedores[id].nombre
                        && r.value.contactoNombre == db.proveedores[id].contactoNombre
                        && r.value.contactoEmail == db.proveedores[id].contactoEmail
                        && r.value.contactoTelefono == db.proveedores[id].contactoTelefono
                        && r.value.direccion == db.proveedores[id].direccion
    ensures r.Some? ==> r.value.productosSuministrados == 0 && r.value.activo
  {
    if Activo(db, id) then Some(Respuesta(id, db.proveedores[id])) else None
  }

  /** Two different ids never share a response. */
  lemma GetByIdDistingue(db: Db, a: int, b: int)
    requires GetById(db, a).Some? && GetById(db, a) == GetById(db, b)
    ensures a == b
  {
  }

  function Fila(req: ProveedorRequest, activo: bool): Proveedor {
    Proveedor(req.nombre, req.contactoNombre, req.contactoEmail, req.contactoTelefono, req.direccion, activo)
  }

  /** `crearProveedor`: inserts an active supplier under the next id, so it is
      immediately visible. */
  function CrearProveedor(db: Db, req: ProveedorRequest): (r: Paso<ProveedorResponse>)
    requires Valida(db)
    ensures r.valor.id !in db.proveedores
    ensures r.db.proveedores == db.proveedores[r.valor.id := Fila(req, true)]
    ensures GetById(r.db, r.valor.id) == Some(r.valor)
    ensures r.valor.nombre == req.nombre && r.valor.contactoEmail == req.contactoEmail
    ensures Valida(r.db)
  {
    var id := db.secuencias.proveedor;
    var db1 := db.(proveedores := db.proveedores[id := Fila(req, true)],
                   secuencias := db.secuencias.(proveedor := id + 1));
    assert ForaneasProductos(db1);
    Paso(db1, Respuesta(id, Fila(req, true)))
  }

  /** `actualizarProveedor`: overwrites the contact fields whether or not the
      supplier is active, never the flag; true iff the id exists. */
  function ActualizarProveedor(db: Db, id: int, req: ProveedorRequest): (r: Paso<bool>)
    ensures r.valor <==> id in db.proveedores
    ensures r.db == db.(proveedores := r.db.proveedores)
    ensures r.db.proveedores == if id in db.proveedores
                                then db.proveedores[id := Fila(req, db.proveedores[id].activo)]
                                else db.proveedores
    ensures forall k :: Activo(r.db, k) <==> Activo(db, k)
    ensures Valida(db) ==> Valida(r.db)
  {
    if id in db.proveedores then
      Paso(db.(proveedores := db.proveedores[id := Fila(req, db.proveedores[id].activo)]), true)
    else Paso(db, false)
  }

  /** `desactivarProveedor`: clears the flag and keeps the row; true iff the id
      exists, already inactive or not. */
  function DesactivarProveedor(db: Db, id: int): (r: Paso<bool>)
    ensures r.valor <==> id in db.proveedores
    ensures r.db == db.(proveedores := r.db.proveedores)
    ensures r.db.proveedores.Keys == db.proveedores.Keys
    ensures id in db.proveedores ==> r.db.proveedores[id] == db.proveedores[id].(activo := false)
    ensures forall k :: k in db.proveedores && k != id ==> r.db.proveedores[k] == db.proveedores[k]
    ensures GetById(r.db, id).None?
    ensures Valida(db) ==> Valida(r.db)
  {
    if id in db.proveedores then
      Paso(db.(proveedores := db.proveedores[id := db.proveedores[id].(activo := false)]), true)
    else Paso(db, false)
  }

  /** `eliminarProveedor` is the soft delete: the row stays, only its flag
      clears, and the supplier is no longer found. */
  function EliminarProveedor(db: Db, id: int): (r: Paso<bool>)
    ensures r.valor <==> id in db.proveedores
    ensures r.db == db.(proveedores := r.db.proveedores)
    ensures r.db.proveedores.Keys == db.proveedores.Keys
    ensures id in db.proveedores ==> r.db.proveedores[id] == db.proveedores[id].(activo := false)
    ensures forall k :: k in db.proveedores && k != id ==> r.db.proveedores[k] == db.proveedores[k]
    ensures GetById(r.db, id).None?
    ensures forall k :: k != id ==> GetById(r.db, k) == GetById(db, k)
    ensures Valida(db) ==> Valida(r.db)
  {
    DesactivarProveedor(db, id)
  }

  /** Deleting twice gives the same answer and the same store as deleting once. */
  lemma EliminarIdempotente(db: Db, id: int)
    ensures var r := EliminarProveedor(db, id);
            EliminarProveedor(r.db, id) == r
  {
    var r := EliminarProveedor(db, id);
    if id in db.proveedores {
      assert r.db.proveedores[id := r.db.proveedores[id].(activo := false)] == r.db.proveedores;
    }
  }
}

=== FILE: reportes.dfy ===
/** Sales reports (`ReporteRepository.kt`): the range report and the daily
    report built on it, the best-selling products and the totals per payment
    method. Every report is a pure aggregation over one snapshot of the store.

    A report reads the sales in the order the store returns them; that order
    is the parameter `ids`, which lists sale ids. Days are whole numbers, and
    day `d` starts at second `InicioDia(d)`. */
module Reportes {
  import opened Wrappers
  import opened Esquema
  import opened Mensajes
  import Ventas

  /** Number of best-selling products a range report lists. */
  const LIMITE_REPORTE: nat := 5

  function InicioDia(d: int): int {
    d * SEGUNDOS_POR_DIA
  }

  /** The range filter: from the start of the first day to the start of the
      day after the last, both ends included, whatever the status. */
  predicate EnRango(v: Venta, inicio: int, fin: int) {
    InicioDia(inicio) <= v.fecha <= InicioDia(fin + 1)
  }

  /** The ids among `ids` (in that order) whose sale lies in the range. */
  function SeleccionRango(db: Db, ids: seq<int>, inicio: int, fin: int): (r: seq<int>)
    requires forall i :: 0 <= i < |ids| ==> ids[i] in db.ventas
    ensures forall i :: 0 <= i < |r| ==> r[i] in db.ventas
    ensures forall x :: x in r <==> x in ids && EnRango(db.ventas[x], inicio, fin)
  {
    Ventas.Seleccion(db, ids, InicioDia(inicio), InicioDia(fin + 1), None)
  }

  function Simple(db: Db, id: int): VentaSimple
    requires id in db.ventas
  {
    var v := db.ventas[id];
    VentaSimple(id, v.total, v.fecha, v.metodoPago)
  }

  function Simples(db: Db, ids: seq<int>): (r: seq<VentaSimple>)
    requires forall i :: 0 <= i < |ids| ==> ids[i] in db.ventas
    ensures |r| == |ids|
    ensures forall i :: 0 <= i < |ids| ==> r[i] == Simple(db, ids[i])
  {
    if ids == [] then []
    else
      assert forall i :: 1 <= i < |ids| ==> ids[1..][i - 1] == ids[i];
      [Simple(db, ids[0])] + Simples(db, ids[1..])
  }

  // ---------------------------------------------------------------------------
  // Sums and grouping by payment method
  // ---------------------------------------------------------------------------

  function SumaTotales(vs: seq<VentaSimple>): real {
    if vs == [] then 0.0 else vs[0].total + SumaTotales(vs[1..])
  }

  /** Sum of the totals of the sales paid with `m`. */
  function SumaMetodo(vs: seq<VentaSimple>, m: string): real {
    if vs == [] then 0.0 else (if vs[0].metodoPago == m then vs[0].total else 0.0) + SumaMetodo(vs[1..], m)
  }

  /** The payment methods that occur. */
  function Metodos(vs: seq<VentaSimple>): set<string> {
    set i | 0 <= i < |vs| :: vs[i].metodoPago
  }

  lemma MetodosPaso(vs: seq<VentaSimple>)
    requires vs != []
    ensures Metodos(vs) == {vs[0].metodoPago} + Metodos(vs[1..])
  {
    forall m | m in Metodos(vs) ensures m in {vs[0].metodoPago} + Metodos(vs[1..]) {
      var i :| 0 <= i < |vs| && vs[i].metodoPago == m;
      if i > 0 { assert vs[1..][i - 1] == vs[i]; }
    }
    forall m | m in Metodos(vs[1..]) ensures m in Metodos(vs) {
      var i :| 0 <= i < |vs[1..]| && vs[1..][i].metodoPago == m;
      assert vs[i + 1] == vs[1..][i];
    }
  }

  /** `groupBy { metodoPago }.mapValues { sumOf { total } }`: one entry per
      payment method that occurs, holding the sum of that method's totals. */
  function Agrupar(vs: seq<VentaSimple>): (m: map<string, real>)
    ensures m.Keys == Metodos(vs)
    ensures forall k :: k in m ==> m[k] == SumaMetodo(vs, k)
  {
    if vs == [] then map[]
    else
      MetodosPaso(vs);
      SumaMetodoAusente(vs[1..], vs[0].metodoPago);
      var resto := Agrupar(vs[1..]);
      var k := vs[0].metodoPago;
      resto[k := vs[0].total + (if k in resto then resto[k] else 0.0)]
  }

  /** A method that does not occur sums to nothing. */
  lemma {:induction false} SumaMetodoAusente(vs: seq<VentaSimple>, m: string)
    ensures m !in Metodos(vs) ==> SumaMetodo(vs, m) == 0.0
  {
    if vs != [] && m !in Metodos(vs) {
      MetodosPaso(vs);
      SumaMetodoAusente(vs[1..], m);
    }
  }

  /** `ks` lists every element of `claves` exactly once. */
  ghost predicate ListaDe(ks: seq<string>, claves: set<string>) {
    && (forall i, j :: 0 <= i < j < |ks| ==> ks[i] != ks[j])
    && (forall i :: 0 <= i < |ks| ==> ks[i] in claves)
    && (forall k :: k in claves ==> k in ks)
  }

  /** The values of `m` at the keys `ks`, added up. */
  function SumaValores(m: map<string, real>, ks: seq<string>): real
    requires forall i :: 0 <= i < |ks| ==> ks[i] in m
  {
    if ks == [] then 0.0
    else
      assert forall i :: 1 <= i < |ks| ==> ks[1..][i - 1] == ks[i];
      m[ks[0]] + SumaValores(m, ks[1..])
  }

  /** Sum over the methods `ks` of each method's total. */
  function SumaPorMetodos(ks: seq<string>, vs: seq<VentaSimple>): real {
    if ks == [] then 0.0 else SumaMetodo(vs, ks[0]) + SumaPorMetodos(ks[1..], vs)
  }

  /** `t` counted once for every occurrence of `m` in `ks`. */
  function Indicador(ks: seq<string>, m: string, t: real): real {
    if ks == [] then 0.0 else (if ks[0] == m then t else 0.0) + Indicador(ks[1..], m, t)
  }

  lemma {:induction false} PorMetodosVacio(ks: seq<string>)
    ensures SumaPorMetodos(ks, []) == 0.0
  {
    if ks != [] { PorMetodosVacio(ks[1..]); }
  }

  lemma {:induction false} PorMetodosPaso(ks: seq<string>, vs: seq<VentaSimple>)
    requires vs != []
    ensures SumaPorMetodos(ks, vs) == Indicador(ks, vs[0].metodoPago, vs[0].total) + SumaPorMetodos(ks, vs[1..])
  {
    if ks != [] { PorMetodosPaso(ks[1..], vs); }
  }

  lemma {:induction false} IndicadorUnico(ks: seq<string>, m: string, t: real)
    requires forall i, j :: 0 <= i < j < |ks| ==> ks[i] != ks[j]
    ensures Indicador(ks, m, t) == (if m in ks then t else 0.0)
  {
    if ks != [] {
      assert forall i, j :: 0 <= i < j < |ks[1..]| ==> ks[1..][i] == ks[i + 1] && ks[1..][j] == ks[j + 1];
      IndicadorUnico(ks[1..], m, t);
      if ks[0] == m {
        assert m !in ks[1..] by {
          forall j | 0 <= j < |ks[1..]| ensures ks[1..][j] != m { assert ks[1..][j] == ks[j + 1]; }
        }
      } else {
        assert m in ks <==> m in ks[1..] by {
          if m in ks {
            var j :| 0 <= j < |ks| && ks[j] == m;
            assert ks[1..][j - 1] == ks[j];
          }
        }
      }
    }
  }

  /** Adding up the per-method totals over distinct methods that cover every
      sale gives the total of all sales: each sale is counted exactly once. */
  lemma {:induction false} PorMetodosTotal(ks: seq<string>, vs: seq<VentaSimple>)
    requires forall i, j :: 0 <= i < j < |ks| ==> ks[i] != ks[j]
    requires forall i :: 0 <= i < |vs| ==> vs[i].metodoPago in ks
    ensures SumaPorMetodos(ks, vs) == SumaTotales(vs)
  {
    if vs == [] {
      PorMetodosVacio(ks);
    } else {
      assert forall i :: 1 <= i < |vs| ==> vs[1..][i - 1] == vs[i];
      PorMetodosTotal(ks, vs[1..]);
      PorMetodosPaso(ks, vs);
      IndicadorUnico(ks, vs[0].metodoPago, vs[0].total);
    }
  }

  lemma {:induction false} ValoresPorMetodos(vs: seq<VentaSimple>, ks: seq<string>)
    requires forall i :: 0 <= i < |ks| ==> ks[i] in Agrupar(vs)
    ensures SumaValores(Agrupar(vs), ks) == SumaPorMetodos(ks, vs)
  {
    if ks != [] {
      assert forall i :: 1 <= i < |ks| ==> ks[1..][i - 1] == ks[i];
      ValoresPorMetodos(vs, ks[1..]);
    }
  }

  /** The per-method totals partition the sales: over the methods listed once
      each, they add up to the sum of all totals. */
  lemma MetodosSumanTotal(vs: seq<VentaSimple>, ks: seq<string>)
    requires ListaDe(ks, Agrupar(vs).Keys)
    ensures SumaValores(Agrupar(vs), ks) == SumaTotales(vs)
  {
    ValoresPorMetodos(vs, ks);
    assert forall i :: 0 <= i < |vs| ==> vs[i].metodoPago in Metodos(vs);
    PorMetodosTotal(ks, vs);
  }

  // ---------------------------------------------------------------------------
  // Best-selling products
  // ---------------------------------------------------------------------------

  /** A line survives the joins with its product and its sale and, when a
      range is given, its sale lies in it. */
  predicate Cuenta(db: Db, d: Detalle, rango: Option<(int, int)>) {
    && d.productoId in db.productos
    && d.ventaId in db.ventas
    && (rango.None? || EnRango(db.ventas[d.ventaId], rango.value.0, rango.value.1))
  }

  /** The joined and filtered lines, in stored order. */
  function Filas(db: Db, ds: seq<Detalle>, rango: Option<(int, int)>): (r: seq<Detalle>)
    ensures forall i :: 0 <= i < |r| ==> Cuenta(db, r[i], rango)
    ensures forall d :: d in r <==> d in ds && Cuenta(db, d, rango)
  {
    if ds == [] then []
    else if Cuenta(db, ds[0], rango) then [ds[0]] + Filas(db, ds[1..], rango)
    else Filas(db, ds[1..], rango)
  }

  function CantidadProducto(fs: seq<Detalle>, p: int): int {
    if fs == [] then 0 else (if fs[0].productoId == p then fs[0].cantidad else 0) + CantidadProducto(fs[1..], p)
  }

  function SubtotalProducto(fs: seq<Detalle>, p: int): real {
    if fs == [] then 0.0 else (if fs[0].productoId == p then fs[0].subtotal else 0.0) + SubtotalProducto(fs[1..], p)
  }

  predicate IdsDistintos(ps: seq<int>) {
    forall i, j :: 0 <= i < j < |ps| ==> ps[i] != ps[j]
  }

  /** The products that occur among the lines, once each, in order of first
      appearance. */
  function ProductosEn(fs: seq<Detalle>): (r: seq<int>)
    ensures IdsDistintos(r)
    ensures forall p :: p in r <==> exists j :: 0 <= j < |fs| && fs[j].productoId == p
  {
    if fs == [] then []
    else
      var ini := fs[..|fs| - 1];
      var r := ProductosEn(ini);
      assert forall j :: 0 <= j < |ini| ==> ini[j] == fs[j];
      if fs[|fs| - 1].productoId in r then r else r + [fs[|fs| - 1].productoId]
  }

  /** One group of `GROUP BY Productos.id, Productos.nombre`. */
  function Resumen(db: Db, fs: seq<Detalle>, p: int): ProductoVendido
    requires p in db.productos
  {
    ProductoVendido(p, db.productos[p].nombre, CantidadProducto(fs, p), SubtotalProducto(fs, p))
  }

  function Grupos(db: Db, fs: seq<Detalle>, ps: seq<int>): (r: seq<ProductoVendido>)
    requires forall i :: 0 <= i < |ps| ==> ps[i] in db.productos
    ensures |r| == |ps|
    ensures forall i :: 0 <= i < |ps| ==> r[i] == Resumen(db, fs, ps[i])
  {
    if ps == [] then []
    else
      assert forall i :: 1 <= i < |ps| ==> ps[1..][i - 1] == ps[i];
      [Resumen(db, fs, ps[0])] + Grupos(db, fs, ps[1..])
  }

  predicate Descendente(s: seq<ProductoVendido>) {
    forall i, j :: 0 <= i < j < |s| ==> s[i].cantidadVendida >= s[j].cantidadVendida
  }

  predicate ProductosDistintos(s: seq<ProductoVendido>) {
    forall i, j :: 0 <= i < j < |s| ==> s[i].productoId != s[j].productoId
  }

  /** An entry that sold at least as much as every other can go first. */
  lemma DelanteDescendente(x: ProductoVendido, s: seq<ProductoVendido>)
    requires Descendente(s) && forall y :: y in s ==> y.cantidadVendida <= x.cantidadVendida
    ensures Descendente([x] + s)
  {
    forall i, j | 0 <= i < j < |[x] + s| ensures ([x] + s)[i].cantidadVendida >= ([x] + s)[j].cantidadVendida {
      assert ([x] + s)[j] == s[j - 1];
      if i > 0 { assert ([x] + s)[i] == s[i - 1]; }
    }
  }

  lemma DelanteDistintos(x: ProductoVendido, s: seq<ProductoVendido>)
    ensures ProductosDistintos(s) && (forall y :: y in s ==> y.productoId != x.productoId) ==> ProductosDistintos([x] + s)
  {
    if ProductosDistintos(s) && (forall y :: y in s ==> y.productoId != x.productoId) {
      forall i, j | 0 <= i < j < |[x] + s| ensures ([x] + s)[i].productoId != ([x] + s)[j].productoId {
        assert ([x] + s)[j] == s[j - 1];
        if i > 0 { assert ([x] + s)[i] == s[i - 1]; }
      }
    }
  }

  /** Sequences with the same elements counted with multiplicity have the same
      elements. */
  lemma MismosElementos(a: seq<ProductoVendido>, b: seq<ProductoVendido>)
    requires multiset(a) == multiset(b)
    ensures forall y :: y in a <==> y in b
  {
    forall y ensures y in a <==> y in b {
      assert y in a <==> y in multiset(a);
      assert y in b <==> y in multiset(b);
    }
  }

  /** Inserts `x` after every entry that sold at least as much. */
  function Insertar(x: ProductoVendido, s: seq<ProductoVendido>): (r: seq<ProductoVendido>)
    requires Descendente(s)
    ensures Descendente(r)
    ensures multiset(r) == multiset(s) + multiset{x}
    ensures |r| == |s| + 1
  {
    if s == [] || x.cantidadVendida > s[0].cantidadVendida then
      DelanteDescendente(x, s);
      [x] + s
    else
      assert s == [s[0]] + s[1..];
      var resto := Insertar(x, s[1..]);
      MismosElementos(resto, s[1..] + [x]);
      DelanteDescendente(s[0], resto);
      [s[0]] + resto
  }

  /** Inserting a product not yet listed keeps the products distinct. */
  lemma {:induction false} InsertarDistintos(x: ProductoVendido, s: seq<ProductoVendido>)
    requires Descendente(s) && ProductosDistintos(s)
    requires forall y :: y in s ==> y.productoId != x.productoId
    ensures ProductosDistintos(Insertar(x, s))
  {
    if s == [] || x.cantidadVendida > s[0].cantidadVendida {
      DelanteDistintos(x, s);
    } else {
      assert s == [s[0]] + s[1..];
      var resto := Insertar(x, s[1..]);
      InsertarDistintos(x, s[1..]);
      MismosElementos(resto, s[1..] + [x]);
      DelanteDistintos(s[0], resto);
    }
  }

  /** `ORDER BY SUM(cantidad) DESC`: a permutation in descending order of
      quantity sold. */
  function Ordenar(s: seq<ProductoVendido>): (r: seq<ProductoVendido>)
    ensures Descendente(r)
    ensures multiset(r) == multiset(s)
    ensures |r| == |s|
  {
    if s == [] then []
    else
      assert s == [s[0]] + s[1..];
      Insertar(s[0], Ordenar(s[1..]))
  }

  /** Sorting keeps distinct products distinct. */
  lemma {:induction false} OrdenarDistintos(s: seq<ProductoVendido>)
    requires ProductosDistintos(s)
    ensures ProductosDistintos(Ordenar(s))
  {
    if s != [] {
      assert s == [s[0]] + s[1..];
      OrdenarDistintos(s[1..]);
      MismosElementos(Ordenar(s[1..]), s[1..]);
      InsertarDistintos(s[0], Ordenar(s[1..]));
    }
  }

  /** Every product of the lines once, with its sums, best seller first. */
  function Ranking(db: Db, fs: seq<Detalle>): (r: seq<ProductoVendido>)
    requires forall j :: 0 <= j < |fs| ==> fs[j].productoId in db.productos
    ensures |r| == |ProductosEn(fs)|
    ensures Descendente(r) && ProductosDistintos(r)
    ensures forall i :: 0 <= i < |r| ==> r[i].productoId in ProductosEn(fs) && r[i].productoId in db.productos
                                         && r[i] == Resumen(db, fs, r[i].productoId)
    ensures forall p :: p in ProductosEn(fs) ==> exists j :: 0 <= j < |r| && r[j].productoId == p
  {
    var ps := ProductosEn(fs);
    assert forall i :: 0 <= i < |ps| ==> ps[i] in db.productos by {
      forall i | 0 <= i < |ps| ensures ps[i] in db.productos {
        assert ps[i] in ps;
        var j :| 0 <= j < |fs| && fs[j].productoId == ps[i];
      }
    }
    var gs := Grupos(db, fs, ps);
    assert ProductosDistintos(gs) by {
      forall i, j | 0 <= i < j < |gs| ensures gs[i].productoId != gs[j].productoId {
        assert gs[i].productoId == ps[i] && gs[j].productoId == ps[j];
      }
    }
    var r := Ordenar(gs);
    MismosElementos(r, gs);
    OrdenarDistintos(gs);
    forall i | 0 <= i < |r|
      ensures r[i].productoId in ps && r[i].productoId in db.productos && r[i] == Resumen(db, fs, r[i].productoId)
    {
      assert r[i] in gs;
    }
    forall p | p in ps ensures exists j :: 0 <= j < |r| && r[j].productoId == p {
      var k :| 0 <= k < |ps| && ps[k] == p;
      assert gs[k] in r;
    }
    r
  }

  function Min(a: nat, b: nat): nat {
    if a <= b then a else b
  }

  /** No entry of `r` is about product `p`. */
  predicate SinProducto(r: seq<ProductoVendido>, p: int) {
    forall i :: 0 <= i < |r| ==> r[i].productoId != p
  }

  /** Every entry of `r` sold at least `c` units. */
  predicate TodosAlMenos(r: seq<ProductoVendido>, c: int) {
    forall i :: 0 <= i < |r| ==> r[i].cantidadVendida >= c
  }

  /** An entry whose product differs from every product of the first `m`
      entries lies past them. */
  lemma FueraDelPrefijo(orden: seq<ProductoVendido>, m: nat, j: int)
    requires m <= |orden| && 0 <= j < |orden|
    requires forall i :: 0 <= i < m ==> orden[i].productoId != orden[j].productoId
    ensures j >= m
  {
    var pj := orden[j].productoId;
  }

  /** `LIMIT limite` over a ranking: its first entries, and whatever is cut
      off sold no more than anything kept. */
  function Primeros(orden: seq<ProductoVendido>, limite: nat): (r: seq<ProductoVendido>)
    requires Descendente(orden) && ProductosDistintos(orden)
    ensures |r| == Min(limite, |orden|)
    ensures Descendente(r) && ProductosDistintos(r)
    ensures forall i :: 0 <= i < |r| ==> r[i] == orden[i]
    ensures forall j :: 0 <= j < |orden| && SinProducto(r, orden[j].productoId) ==>
              |r| == limite && TodosAlMenos(r, orden[j].cantidadVendida)
  {
    var r := orden[..Min(limite, |orden|)];
    forall j | 0 <= j < |orden| && SinProducto(r, orden[j].productoId)
      ensures |r| == limite && TodosAlMenos(r, orden[j].cantidadVendida)
    {
      forall i | 0 <= i < |r| ensures orden[i].productoId != orden[j].productoId {
        assert r[i] == orden[i];
      }
      FueraDelPrefijo(orden, |r|, j);
      assert |r| < |orden|;
      assert |r| == limite;
      forall i | 0 <= i < |r| ensures r[i].cantidadVendida >= orden[j].cantidadVendida {
        assert r[i] == orden[i];
      }
    }
    r
  }

  /** `productosMasVendidos(limite, fechaInicio, fechaFin)` over the lines
      `ds`: the joined lines (of sales in range, if a range is given) grouped
      per product with their quantities and subtotals added up, ordered by
      quantity sold descending, the first `limite` of them. Among products
      that sold equally the order is the store's, and no order is promised. */
  function ProductosMasVendidos(db: Db, ds: seq<Detalle>, limite: nat, rango: Option<(int, int)>): (r: seq<ProductoVendido>)
    ensures var fs := Filas(db, ds, rango);
            && |r| == Min(limite, |ProductosEn(fs)|)
            && Descendente(r)
            && ProductosDistintos(r)
            && (forall i :: 0 <= i < |r| ==> r[i].productoId in ProductosEn(fs)
                                             && r[i].productoId in db.productos
                                             && r[i] == Resumen(db, fs, r[i].productoId))
  {
    Primeros(Ranking(db, Filas(db, ds, rango)), limite)
  }

  /** Nothing left off the list sold more than anything on it, and something
      is left off only when the list is full. */
  lemma MasVendidosCompleto(db: Db, ds: seq<Detalle>, limite: nat, rango: Option<(int, int)>, p: int)
    requires p in ProductosEn(Filas(db, ds, rango))
    requires var r := ProductosMasVendidos(db, ds, limite, rango);
             forall i :: 0 <= i < |r| ==> r[i].productoId != p
    ensures var r := ProductosMasVendidos(db, ds, limite, rango);
            && |r| == limite
            && forall i :: 0 <= i < |r| ==> r[i].cantidadVendida >= CantidadProducto(Filas(db, ds, rango), p)
  {
    var fs := Filas(db, ds, rango);
    var orden := Ranking(db, fs);
    var j :| 0 <= j < |orden| && orden[j].productoId == p;
    assert orden[j] == Resumen(db, fs, p);
  }

  // ---------------------------------------------------------------------------
  // Reports
  // ---------------------------------------------------------------------------

  /** The report lists sale `x`. */
  predicate Incluye(r: ReporteDiario, x: int) {
    exists i :: 0 <= i < |r.ventas| && r.ventas[i].id == x
  }

  /** `generarReportePorRango(inicio, fin)`: the sales in range in the order
      the store lists them (whatever their status), their total, their count,
      the best sellers over the same range, and the totals per payment
      method. */
  function GenerarReportePorRango(db: Db, ids: seq<int>, inicio: int, fin: int): (r: ReporteDiario)
    requires forall i :: 0 <= i < |ids| ==> ids[i] in db.ventas
    ensures r.fecha == inicio
    ensures r.cantidadVentas == |r.ventas|
    ensures forall i :: 0 <= i < |r.ventas| ==> r.ventas[i].id in db.ventas && r.ventas[i] == Simple(db, r.ventas[i].id)
    ensures forall x :: Incluye(r, x) <==>
                        x in ids && EnRango(db.ventas[x], inicio, fin)
    ensures r.totalVentas == SumaTotales(r.ventas)
    ensures r.metodoPagos.Keys == Metodos(r.ventas)
    ensures forall k :: k in r.metodoPagos ==> r.metodoPagos[k] == SumaMetodo(r.ventas, k)
    ensures r.productosMasVendidos == ProductosMasVendidos(db, db.detalles, LIMITE_REPORTE, Some((inicio, fin)))
  {
    var sel := SeleccionRango(db, ids, inicio, fin);
    var vs := Simples(db, sel);
    assert forall x :: (exists i :: 0 <= i < |vs| && vs[i].id == x) <==> x in sel by {
      forall x | x in sel ensures exists i :: 0 <= i < |vs| && vs[i].id == x {
        var i :| 0 <= i < |sel| && sel[i] == x;
        assert vs[i].id == x;
      }
    }
    ReporteDiario(inicio, SumaTotales(vs), |vs|, vs,
                  ProductosMasVendidos(db, db.detalles, LIMITE_REPORTE, Some((inicio, fin))), Agrupar(vs))
  }

  /** `generarReporteDiario(fecha)`: the sales from the start of the day up to
      and including the start of the next one. */
  function GenerarReporteDiario(db: Db, ids: seq<int>, fecha: int): (r: ReporteDiario)
    requires forall i :: 0 <= i < |ids| ==> ids[i] in db.ventas
    ensures r.fecha == fecha
    ensures forall x :: Incluye(r, x) <==>
                        x in ids && InicioDia(fecha) <= db.ventas[x].fecha <= InicioDia(fecha + 1)
    ensures r.totalVentas == SumaTotales(r.ventas) && r.cantidadVentas == |r.ventas|
  {
    GenerarReportePorRango(db, ids, fecha, fecha)
  }

  /** Both ends of the range count, so a sale stamped exactly at midnight
      appears in the report of the day that ends there and of the day that
      starts there. */
  lemma MedianocheEnDosDias(db: Db, ids: seq<int>, x: int, d: int)
    requires forall i :: 0 <= i < |ids| ==> ids[i] in db.ventas
    requires x in ids && db.ventas[x].fecha == InicioDia(d + 1)
    ensures Incluye(GenerarReporteDiario(db, ids, d), x)
    ensures Incluye(GenerarReporteDiario(db, ids, d + 1), x)
  {
    assert InicioDia(d) <= InicioDia(d + 1) <= InicioDia(d + 2);
    var hoy := GenerarReporteDiario(db, ids, d);
    var manana := GenerarReporteDiario(db, ids, d + 1);
    assert Incluye(hoy, x) <==> x in ids && InicioDia(d) <= db.ventas[x].fecha <= InicioDia(d + 1);
    assert Incluye(manana, x) <==> x in ids && InicioDia(d + 1) <= db.ventas[x].fecha <= InicioDia(d + 1 + 1);
  }

  /** `obtenerTotalesPorMetodoPago`: every sale the store lists, whatever its
      date or status, grouped by payment method with its totals added up. */
  function ObtenerTotalesPorMetodoPago(db: Db, ids: seq<int>): (r: map<string, real>)
    requires forall i :: 0 <= i < |ids| ==> ids[i] in db.ventas
    ensures forall m :: m in r <==> exists i :: 0 <= i < |ids| && db.ventas[ids[i]].metodoPago == m
    ensures forall m :: m in r ==> r[m] == SumaMetodo(Simples(db, ids), m)
  {
    var vs := Simples(db, ids);
    assert forall i :: 0 <= i < |ids| ==> vs[i].metodoPago == db.ventas[ids[i]].metodoPago;
    Agrupar(vs)
  }

  /** The totals per method over all sales add up to the total of all sales. */
  lemma TotalesPorMetodoSumanTodo(db: Db, ids: seq<int>, ks: seq<string>)
    requires forall i :: 0 <= i < |ids| ==> ids[i] in db.ventas
    requires ListaDe(ks, ObtenerTotalesPorMetodoPago(db, ids).Keys)
    ensures SumaValores(ObtenerTotalesPorMetodoPago(db, ids), ks) == SumaTotales(Simples(db, ids))
  {
    MetodosSumanTotal(Simples(db, ids), ks);
  }

  /** The per-method totals of a range report add up to its total. */
  lemma ReporteMetodosSumanTotal(db: Db, ids: seq<int>, inicio: int, fin: int, r: ReporteDiario, ks: seq<string>)
    requires forall i :: 0 <= i < |ids| ==> ids[i] in db.ventas
    requires r == GenerarReportePorRango(db, ids, inicio, fin)
    requires ListaDe(ks, Metodos(r.ventas))
    ensures SumaValores(r.metodoPagos, ks) == r.totalVentas
  {
    MetodosSumanTotal(r.ventas, ks);
  }
}

=== FILE: texto.dfy ===
/** Text helpers the repositories rely on: decimal rendering of numbers (as in
    Kotlin string templates), ASCII upper-casing (`String.uppercase`), substring
    search, and the SQL `LIKE` pattern match that `buscarProductosPorNombre`
    delegates to the store. */
module Texto {

  // ---------------------------------------------------------------------------
  // Decimal notation
  // ---------------------------------------------------------------------------

  predicate EsDigito(c: char) {
    '0' <= c <= '9'
  }

  predicate SoloDigitos(s: string) {
    forall i :: 0 <= i < |s| ==> EsDigito(s[i])
  }

  function Digito(d: nat): (c: char)
    requires d < 10
    ensures EsDigito(c)
  {
    "0123456789"[d]
  }

  function ValorDigito(c: char): nat
    requires EsDigito(c)
  {
    c as int - '0' as int
  }

  /** The decimal rendering of `n`, as `"$n"` produces it for a non-negative Int. */
  function NatATexto(n: nat): (s: string)
    ensures |s| >= 1
    ensures SoloDigitos(s)
  {
    if n < 10 then [Digito(n)] else NatATexto(n / 10) + [Digito(n % 10)]
  }

  /** Reads a string of decimal digits back as a number. */
  function TextoANat(s: string): nat
    requires SoloDigitos(s)
  {
    if |s| == 0 then 0 else TextoANat(s[..|s| - 1]) * 10 + ValorDigito(s[|s| - 1])
  }

  lemma {:induction false} NatATextoInverso(n: nat)
    ensures TextoANat(NatATexto(n)) == n
  {
    if n >= 10 {
      var s := NatATexto(n);
      assert s[..|s| - 1] == NatATexto(n / 10);
      NatATextoInverso(n / 10);
      assert "0123456789"[n % 10] as int - '0' as int == n % 10;
    } else {
      assert "0123456789"[n] as int - '0' as int == n;
    }
  }

  /** Different numbers render differently. */
  lemma NatATextoInyectivo(a: nat, b: nat)
    requires NatATexto(a) == NatATexto(b)
    ensures a == b
  {
    NatATextoInverso(a);
    NatATextoInverso(b);
  }

  /** Index of the first `sep` in `s`, or `|s|` when there is none. */
  function PrimeraPosicion(s: string, sep: char): (k: nat)
    ensures k <= |s|
    ensures k < |s| ==> s[k] == sep
    ensures forall i :: 0 <= i < k ==> s[i] != sep
  {
    if |s| == 0 then 0
    else if s[0] == sep then 0
    else 1 + PrimeraPosicion(s[1..], sep)
  }

  // ---------------------------------------------------------------------------
  // Upper case
  // ---------------------------------------------------------------------------

  function MayusculaChar(c: char): char {
    if 'a' <= c <= 'z' then (c as int - 32) as char else c
  }

  predicate SinMinusculas(s: string) {
    forall i :: 0 <= i < |s| ==> !('a' <= s[i] <= 'z')
  }

  /** `String.uppercase()` restricted to ASCII letters. */
  function Mayusculas(s: string): (r: string)
    ensures |r| == |s|
    ensures SinMinusculas(r)
    ensures forall i :: 0 <= i < |s| && !('a' <= s[i] <= 'z') ==> r[i] == s[i]
    ensures forall i :: 0 <= i < |s| && 'a' <= s[i] <= 'z' ==> r[i] == (s[i] as int - 32) as char
  {
    seq(|s|, i requires 0 <= i < |s| => MayusculaChar(s[i]))
  }

  /** Upper-casing a string that has no lower-case letter leaves it as it is;
      in particular upper-casing twice is upper-casing once. */
  lemma MayusculasIdempotente(s: string)
    ensures SinMinusculas(s) ==> Mayusculas(s) == s
    ensures Mayusculas(Mayusculas(s)) == Mayusculas(s)
  {
  }

  // ---------------------------------------------------------------------------
  // Substrings and LIKE
  // ---------------------------------------------------------------------------

  /** `t` occurs in `s` starting at position `i`. */
  predicate OcurreEn(s: string, t: string, i: int) {
    0 <= i <= |s| - |t| && s[i..i + |t|] == t
  }

  /** `t` occurs in `s` as a contiguous substring. */
  ghost predicate Contiene(s: string, t: string) {
    exists i :: OcurreEn(s, t, i)
  }

  /** `t` holds none of the characters `LIKE` treats specially. */
  predicate SinComodines(t: string) {
    forall i :: 0 <= i < |t| ==> t[i] != '%' && t[i] != '_' && t[i] != '\\'
  }

  /** SQL `s LIKE p` with the default escape character: `%` matches any
      sequence, `_` any one character, `\` makes the next character literal. */
  function Like(s: string, p: string): bool
    decreases |p|, |s|
  {
    if |p| == 0 then |s| == 0
    else if p[0] == '%' then Like(s, p[1..]) || (|s| > 0 && Like(s[1..], p))
    else if p[0] == '_' then |s| > 0 && Like(s[1..], p[1..])
    else if p[0] == '\\' && |p| >= 2 then |s| > 0 && s[0] == p[1] && Like(s[1..], p[2..])
    else |s| > 0 && s[0] == p[0] && Like(s[1..], p[1..])
  }

  /** The pattern `%` matches every string. */
  lemma {:induction false} LikeTodo(s: string)
    ensures Like(s, "%")
  {
    assert "%"[1..] == "";
    if |s| > 0 {
      LikeTodo(s[1..]);
    }
  }

  /** For a pattern with no special character, `t%` matches exactly the strings
      that start with `t`. */
  lemma {:induction false} LikePrefijo(u: string, t: string)
    requires SinComodines(t)
    ensures Like(u, t + "%") <==> (|t| <= |u| && u[..|t|] == t)
  {
    if |t| == 0 {
      assert t + "%" == "%";
      LikeTodo(u);
    } else {
      var p := t + "%";
      assert p[0] == t[0];
      assert p[1..] == t[1..] + "%";
      assert SinComodines(t[1..]) by {
        forall i | 0 <= i < |t[1..]| ensures t[1..][i] != '%' && t[1..][i] != '_' && t[1..][i] != '\\' {
          assert t[1..][i] == t[i + 1];
        }
      }
      if |u| > 0 {
        LikePrefijo(u[1..], t[1..]);
        if |t| <= |u| && u[..|t|] == t {
          assert u[1..][..|t[1..]|] == t[1..];
        }
        if u[0] == t[0] && |t[1..]| <= |u[1..]| && u[1..][..|t[1..]|] == t[1..] {
          assert u[..|t|] == [u[0]] + u[1..][..|t[1..]|];
          assert t == [t[0]] + t[1..];
        }
      }
    }
  }

  /** A leading `%` tries every suffix. */
  lemma {:induction false} LikeComodinInicial(s: string, q: string)
    ensures Like(s, "%" + q) <==> exists k :: 0 <= k <= |s| && Like(s[k..], q)
  {
    var p := "%" + q;
    assert p[0] == '%' && p[1..] == q;
    if |s| == 0 {
      if Like(s, p) {
        assert Like(s[0..], q);
      }
    } else {
      LikeComodinInicial(s[1..], q);
      if Like(s, p) {
        if !Like(s, q) {
          var k :| 0 <= k <= |s[1..]| && Like(s[1..][k..], q);
          assert s[1..][k..] == s[k + 1..];
        } else {
          assert s[0..] == s;
        }
      }
      if exists k :: 0 <= k <= |s| && Like(s[k..], q) {
        var k :| 0 <= k <= |s| && Like(s[k..], q);
        if k == 0 {
          assert s[0..] == s;
        } else {
          assert s[1..][k - 1..] == s[k..];
        }
      }
    }
  }

  /** `name LIKE "%term%"` is substring search whenever `term` holds no special
      character; otherwise the store interprets those characters. */
  lemma BuscarEsContiene(s: string, t: string)
    requires SinComodines(t)
    ensures Like(s, "%" + t + "%") <==> Contiene(s, t)
  {
    assert "%" + t + "%" == "%" + (t + "%");
    LikeComodinInicial(s, t + "%");
    if Contiene(s, t) {
      var i :| OcurreEn(s, t, i);
      LikePrefijo(s[i..], t);
      assert s[i..][..|t|] == s[i..i + |t|];
    }
    if exists k :: 0 <= k <= |s| && Like(s[k..], t + "%") {
      var k :| 0 <= k <= |s| && Like(s[k..], t + "%");
      LikePrefijo(s[k..], t);
      assert s[k..][..|t|] == s[k..k + |t|];
      assert OcurreEn(s, t, k);
    }
  }
}

=== FILE: tokens.dfy ===
/** Session tokens (`TokenRepository.kt`). The clock is the parameter `ahora`,
    in whole seconds. */
module Tokens {
  import opened Esquema
  import opened Wrappers

  /** `validarToken`: the token is stored and has not expired at `ahora`; the
      comparison is `greaterEq`, so a token is still valid at its expiry. */
  function ValidarToken(db: Db, token: string, ahora: int): (r: bool)
    ensures r ==> token in db.tokens
    ensures token in db.tokens ==> (r <==> ahora <= db.tokens[token].expiracion)
  {
    token in db.tokens && db.tokens[token].expiracion >= ahora
  }

  /** A stored token is valid up to and including its expiry and invalid from
      the next second on; validity never comes back as time advances. */
  lemma ValidoHastaExpirar(db: Db, token: string, antes: int, ahora: int)
    requires token in db.tokens && antes <= ahora
    ensures ValidarToken(db, token, db.tokens[token].expiracion)
    ensures !ValidarToken(db, token, db.tokens[token].expiracion + 1)
    ensures ValidarToken(db, token, ahora) ==> ValidarToken(db, token, antes)
  {
  }

  /** `guardarToken`: stores the token with `creadoEn = ahora`. The unique
      index refuses a token already stored and the foreign key an unknown
      employee. */
  function GuardarToken(db: Db, empleadoId: int, token: string, expiracion: int, ahora: int): (r: Salida<()>)
    ensures r.Err? <==> token in db.tokens || empleadoId !in db.empleados
    ensures token in db.tokens ==> r == Err(ClaveDuplicada)
    ensures r.Ok? ==> r.value.db == db.(tokens := db.tokens[token := Token(empleadoId, ahora, expiracion)])
    ensures r.Ok? ==> (ValidarToken(r.value.db, token, ahora) <==> expiracion >= ahora)
    ensures r.Ok? ==> forall t :: t != token ==> (ValidarToken(r.value.db, t, ahora) <==> ValidarToken(db, t, ahora))
    ensures r.Ok? && Valida(db) ==> Valida(r.value.db)
  {
    if token in db.tokens then Err(ClaveDuplicada)
    else if empleadoId !in db.empleados then Err(ClaveForanea)
    else Ok(Paso(db.(tokens := db.tokens[token := Token(empleadoId, ahora, expiracion)]), ()))
  }

  /** `eliminarToken`: deletes the row with that token; the count of deleted
      rows is 1 or 0. */
  function EliminarToken(db: Db, token: string): (r: Paso<nat>)
    ensures r.valor == if token in db.tokens then 1 else 0
    ensures forall ahora :: !ValidarToken(r.db, token, ahora)
    ensures forall t, ahora :: t != token ==> (ValidarToken(r.db, t, ahora) <==> ValidarToken(db, t, ahora))
    ensures r.db == db.(tokens := r.db.tokens)
    ensures Valida(db) ==> Valida(r.db)
  {
    Paso(db.(tokens := db.tokens - {token}), if token in db.tokens then 1 else 0)
  }

  function Expirados(db: Db, ahora: int): set<string> {
    set t | t in db.tokens && db.tokens[t].expiracion < ahora
  }

  /** `limpiarTokensExpirados`: deletes exactly the tokens that expired before
      `ahora` and counts them. */
  function LimpiarTokensExpirados(db: Db, ahora: int): (r: Paso<nat>)
    ensures forall t :: t in r.db.tokens <==> t in db.tokens && db.tokens[t].expiracion >= ahora
    ensures forall t :: t in r.db.tokens ==> r.db.tokens[t] == db.tokens[t]
    ensures r.valor == |Expirados(db, ahora)|
    ensures r.db == db.(tokens := r.db.tokens)
    ensures Valida(db) ==> Valida(r.db)
  {
    Paso(db.(tokens := map t | t in db.tokens && db.tokens[t].expiracion >= ahora :: db.tokens[t]),
         |Expirados(db, ahora)|)
  }

  /** The sweep never changes which tokens are valid at its own time or later. */
  lemma LimpiarConservaValidez(db: Db, ahora: int, despues: int, t: string)
    requires despues >= ahora
    ensures ValidarToken(LimpiarTokensExpirados(db, ahora).db, t, despues) <==> ValidarToken(db, t, despues)
  {
  }

  /** Sweeping twice at the same time is sweeping once, and the second sweep
      deletes nothing. */
  lemma LimpiarIdempotente(db: Db, ahora: int)
    ensures var r := LimpiarTokensExpirados(db, ahora);
            LimpiarTokensExpirados(r.db, ahora) == Paso(r.db, 0)
  {
    var r := LimpiarTokensExpirados(db, ahora);
    assert Expirados(r.db, ahora) == {};
    assert LimpiarTokensExpirados(r.db, ahora).db.tokens == r.db.tokens;
  }
}

=== FILE: ventas.dfy ===
/** Sales (`VentaRepository.kt`): creating a sale with its lines and the stock
    they take, reading sales back, and reversing a sale. Every call is one
    transaction: it either commits the store it returns or fails with nothing
    written.

    The clock is the parameter `ahora` (whole seconds) and `anio` is its
    calendar year, which the ticket number quotes. */
module Ventas {
  import opened Wrappers
  import opened Esquema
  import opened Mensajes
  import opened Texto
  import Productos
  import Clientes
  import Empleados

  // ---------------------------------------------------------------------------
  // Ticket numbers
  // ---------------------------------------------------------------------------

  /** The ticket number `T-<id>-<year>`. */
  function Ticket(id: nat, anio: nat): string {
    "T-" + NatATexto(id) + "-" + NatATexto(anio)
  }

  /** Reads a ticket number back into the sale id and the year. */
  function LeerTicket(t: string): Option<(nat, nat)> {
    if |t| < 2 || t[..2] != "T-" then None
    else
      var resto := t[2..];
      var k := PrimeraPosicion(resto, '-');
      if k == |resto| then None
      else
        var a := resto[..k];
        var b := resto[k + 1..];
        if |a| >= 1 && |b| >= 1 && SoloDigitos(a) && SoloDigitos(b)
        then Some((TextoANat(a), TextoANat(b)))
        else None
  }

  /** A ticket number names its sale and year. */
  lemma TicketInverso(id: nat, anio: nat)
    ensures LeerTicket(Ticket(id, anio)) == Some((id, anio))
  {
    var t := Ticket(id, anio);
    var sa := NatATexto(id);
    var sb := NatATexto(anio);
    var resto := t[2..];
    assert resto == sa + "-" + sb;
    var k := PrimeraPosicion(resto, '-');
    assert resto[|sa|] == '-';
    assert k == |sa|;
    assert resto[..k] == sa;
    assert resto[k + 1..] == sb;
    NatATextoInverso(id);
    NatATextoInverso(anio);
  }

  /** Different sales, or different years, never share a ticket number. */
  lemma TicketInyectivo(a: nat, x: nat, b: nat, y: nat)
    requires Ticket(a, x) == Ticket(b, y)
    ensures a == b && x == y
  {
    TicketInverso(a, x);
    TicketInverso(b, y);
  }

  // ---------------------------------------------------------------------------
  // Pricing (`calcularTotales`)
  // ---------------------------------------------------------------------------

  /** Every line names a product the join finds. */
  predicate TodosVisibles(db: Db, items: seq<ItemVentaRequest>) {
    forall i :: 0 <= i < |items| ==> Productos.Visible(db, items[i].productoId)
  }

  /** The index of the first line whose product is not found. */
  function PrimerFaltante(db: Db, items: seq<ItemVentaRequest>): (k: nat)
    requires !TodosVisibles(db, items)
    ensures k < |items| && !Productos.Visible(db, items[k].productoId)
    ensures forall j :: 0 <= j < k ==> Productos.Visible(db, items[j].productoId)
  {
    if !Productos.Visible(db, items[0].productoId) then 0
    else
      assert !TodosVisibles(db, items[1..]) by {
        var i :| 0 <= i < |items| && !Productos.Visible(db, items[i].productoId);
        assert items[1..][i - 1] == items[i];
      }
      1 + PrimerFaltante(db, items[1..])
  }

  /** The unit price of a line: the special price if given, else the catalogue
      price. */
  function PrecioUnitario(item: ItemVentaRequest, precioCatalogo: real): real {
    item.precioEspecial.GetOr(precioCatalogo)
  }

  function PrecioDe(db: Db, item: ItemVentaRequest): real
    requires item.productoId in db.productos
  {
    PrecioUnitario(item, db.productos[item.productoId].precio)
  }

  /** Line subtotal: unit price times quantity (the line's own discount is not
      applied). */
  function SubtotalItem(db: Db, item: ItemVentaRequest): real
    requires item.productoId in db.productos
  {
    PrecioDe(db, item) * item.cantidad as real
  }

  /** `calcularTotales`: walks the lines in order, failing on the first unknown
      product, and accumulates the subtotal and the tax of every line. The tax
      of the whole sale is the rate applied to its subtotal. */
  function CalcularTotales(db: Db, items: seq<ItemVentaRequest>): (r: Result<(real, real), Falla>)
    ensures r.Err? <==> !TodosVisibles(db, items)
    ensures r.Err? ==> r.error == ProductoNoEncontrado(items[PrimerFaltante(db, items)].productoId)
    ensures r.Ok? ==> r.value.1 == TASA_IVA * r.value.0
  {
    if items == [] then Ok((0.0, 0.0))
    else if !Productos.Visible(db, items[0].productoId) then Err(ProductoNoEncontrado(items[0].productoId))
    else
      assert forall i :: 1 <= i < |items| ==> items[1..][i - 1] == items[i];
      match CalcularTotales(db, items[1..])
      case Err(e) => Err(e)
      case Ok((s, t)) =>
        var sub := SubtotalItem(db, items[0]);
        Ok((sub + s, sub * TASA_IVA + t))
  }

  // ---------------------------------------------------------------------------
  // Sale lines (`procesarItemVenta`)
  // ---------------------------------------------------------------------------

  /** The `DetalleVenta` row a line of sale `v` inserts. */
  function Linea(db: Db, v: int, item: ItemVentaRequest): Detalle
    requires item.productoId in db.productos
  {
    var sub := SubtotalItem(db, item);
    Detalle(v, item.productoId, item.cantidad, PrecioDe(db, item), sub, sub * TASA_IVA, item.descuento, item.promocionId)
  }

  /** The response item `procesarItemVenta` returns for a line. */
  function ItemRespuesta(db: Db, item: ItemVentaRequest): ItemVentaResponse
    requires item.productoId in db.productos
  {
    var p := db.productos[item.productoId];
    ItemVentaResponse(item.productoId, p.codigoBarras.GetOr(""), p.nombre, item.cantidad,
                      PrecioDe(db, item), item.descuento, SubtotalItem(db, item), item.promocionId)
  }

  /** Sale `v` already has a line for product `p`. */
  predicate LineaDe(ds: seq<Detalle>, v: int, p: int) {
    exists j :: 0 <= j < |ds| && ds[j].ventaId == v && ds[j].productoId == p
  }

  /** `procesarItemVenta`: looks the product up, inserts the line (the store
      refuses a second line for the same product and sale, or an unknown sale),
      takes the quantity off the stock and answers with the line's response. */
  function ProcesarItem(db: Db, v: int, item: ItemVentaRequest): (r: Salida<ItemVentaResponse>)
    ensures r.Ok? <==> Productos.Visible(db, item.productoId) && !LineaDe(db.detalles, v, item.productoId)
                       && v in db.ventas
    ensures !Productos.Visible(db, item.productoId) ==> r == Err(ProductoNoEncontrado(item.productoId))
    ensures r.Ok? ==>
              var p := item.productoId;
              && r.value.db == db.(detalles := db.detalles + [Linea(db, v, item)],
                                   productos := db.productos[p := db.productos[p].(stock := db.productos[p].stock - item.cantidad)])
              && r.value.valor == ItemRespuesta(db, item)
    ensures r.Ok? && Valida(db) ==> Valida(r.value.db)
  {
    var p := item.productoId;
    if !Productos.Visible(db, p) then Err(ProductoNoEncontrado(p))
    else if LineaDe(db.detalles, v, p) then Err(ClaveDuplicada)
    else if v !in db.ventas then Err(ClaveForanea)
    else
      var db1 := db.(detalles := db.detalles + [Linea(db, v, item)]);
      assert Valida(db) ==> Valida(db1) by {
        if Valida(db) {
          assert ClavePrimariaDetalles(db1.detalles);
          assert ForaneasDetalles(db1);
        }
      }
      var db2 := Productos.RestarStock(db1, p, item.cantidad).db;
      Ok(Paso(db2, ItemRespuesta(db, item)))
  }

  /** The lines name pairwise different products. */
  predicate ProductosDistintos(items: seq<ItemVentaRequest>) {
    forall i, j :: 0 <= i < j < |items| ==> items[i].productoId != items[j].productoId
  }

  /** No line of the request clashes with a stored line of sale `v`. */
  predicate SinLineas(ds: seq<Detalle>, v: int, items: seq<ItemVentaRequest>) {
    forall i :: 0 <= i < |items| ==> !LineaDe(ds, v, items[i].productoId)
  }

  /** The rows the lines of sale `v` insert, in request order. */
  function Lineas(db: Db, v: int, items: seq<ItemVentaRequest>): (r: seq<Detalle>)
    requires forall i :: 0 <= i < |items| ==> items[i].productoId in db.productos
    ensures |r| == |items|
  {
    if items == [] then []
    else
      assert forall i :: 1 <= i < |items| ==> items[1..][i - 1] == items[i];
      [Linea(db, v, items[0])] + Lineas(db, v, items[1..])
  }

  /** The response items of the lines, in request order. */
  function Respuestas(db: Db, items: seq<ItemVentaRequest>): (r: seq<ItemVentaResponse>)
    requires forall i :: 0 <= i < |items| ==> items[i].productoId in db.productos
    ensures |r| == |items|
  {
    if items == [] then []
    else
      assert forall i :: 1 <= i < |items| ==> items[1..][i - 1] == items[i];
      [ItemRespuesta(db, items[0])] + Respuestas(db, items[1..])
  }

  /** Row `i` of the lines is the row of request line `i`, and likewise for the
      response items. */
  lemma {:induction false} LineasIndice(db: Db, v: int, items: seq<ItemVentaRequest>)
    requires forall i :: 0 <= i < |items| ==> items[i].productoId in db.productos
    ensures forall i :: 0 <= i < |items| ==> Lineas(db, v, items)[i] == Linea(db, v, items[i])
    ensures forall i :: 0 <= i < |items| ==> Respuestas(db, items)[i] == ItemRespuesta(db, items[i])
  {
    if items != [] {
      assert forall i :: 1 <= i < |items| ==> items[1..][i - 1] == items[i];
      LineasIndice(db, v, items[1..]);
    }
  }

  /** Total quantity the lines ask of product `p`. */
  function CantidadDe(items: seq<ItemVentaRequest>, p: int): int {
    if items == [] then 0
    else (if items[0].productoId == p then items[0].cantidad else 0) + CantidadDe(items[1..], p)
  }

  /** The product table after the lines took their quantities off the stock. */
  function Descontar(productos: map<int, Producto>, items: seq<ItemVentaRequest>): map<int, Producto> {
    map p | p in productos :: productos[p].(stock := productos[p].stock - CantidadDe(items, p))
  }

  /** Two stores with the same catalogue: the same categories, suppliers and
      products, up to the stock of each product. */
  ghost predicate MismoCatalogo(a: Db, b: Db) {
    && a.categorias == b.categorias
    && a.proveedores == b.proveedores
    && a.productos.Keys == b.productos.Keys
    && forall p :: p in a.productos ==> a.productos[p].(stock := 0) == b.productos[p].(stock := 0)
  }

  /** Lines, prices and response items only read the catalogue. */
  lemma CatalogoBasta(a: Db, b: Db, v: int, items: seq<ItemVentaRequest>)
    requires MismoCatalogo(a, b)
    ensures TodosVisibles(a, items) <==> TodosVisibles(b, items)
    ensures TodosVisibles(a, items) ==> Lineas(a, v, items) == Lineas(b, v, items)
    ensures TodosVisibles(a, items) ==> Respuestas(a, items) == Respuestas(b, items)
  {
    if TodosVisibles(a, items) {
      LineasIndice(a, v, items);
      LineasIndice(b, v, items);
      forall i | 0 <= i < |items|
        ensures Linea(a, v, items[i]) == Linea(b, v, items[i])
        ensures ItemRespuesta(a, items[i]) == ItemRespuesta(b, items[i])
      {
        var p := items[i].productoId;
        assert a.productos[p].(stock := 0).precio == a.productos[p].precio;
        assert b.productos[p].(stock := 0).precio == b.productos[p].precio;
        assert a.productos[p].(stock := 0).nombre == a.productos[p].nombre;
        assert b.productos[p].(stock := 0).nombre == b.productos[p].nombre;
        assert a.productos[p].(stock := 0).codigoBarras == a.productos[p].codigoBarras;
        assert b.productos[p].(stock := 0).codigoBarras == b.productos[p].codigoBarras;
      }
    }
  }

  /** Appending a row of sale `v` for product `q0` adds exactly that pair. */
  lemma LineaDeAnadir(ds: seq<Detalle>, d: Detalle, v: int, q: int)
    ensures LineaDe(ds + [d], v, q) <==> LineaDe(ds, v, q) || (d.ventaId == v && d.productoId == q)
  {
    if LineaDe(ds + [d], v, q) && !(d.ventaId == v && d.productoId == q) {
      var j :| 0 <= j < |ds + [d]| && (ds + [d])[j].ventaId == v && (ds + [d])[j].productoId == q;
      assert j < |ds| && ds[j] == (ds + [d])[j];
    }
    if LineaDe(ds, v, q) {
      var j :| 0 <= j < |ds| && ds[j].ventaId == v && ds[j].productoId == q;
      assert (ds + [d])[j] == ds[j];
    }
    if d.ventaId == v && d.productoId == q {
      assert (ds + [d])[|ds|] == d;
    }
  }

  /** After the first line went through, the conditions on the remaining lines
      in the new store are the conditions on all the lines in the old one. */
  lemma CondicionesResto(db: Db, v: int, items: seq<ItemVentaRequest>)
    requires items != [] && ProcesarItem(db, v, items[0]).Ok?
    ensures var db1 := ProcesarItem(db, v, items[0]).value.db;
            && MismoCatalogo(db, db1)
            && v in db1.ventas
            && (TodosVisibles(db1, items[1..]) && ProductosDistintos(items[1..]) && SinLineas(db1.detalles, v, items[1..])
                <==> TodosVisibles(db, items) && ProductosDistintos(items) && SinLineas(db.detalles, v, items))
  {
    var db1 := ProcesarItem(db, v, items[0]).value.db;
    var resto := items[1..];
    var d := Linea(db, v, items[0]);
    assert db1.detalles == db.detalles + [d];
    assert MismoCatalogo(db, db1);
    CatalogoBasta(db, db1, v, resto);
    assert forall i :: 1 <= i < |items| ==> resto[i - 1] == items[i];
    forall i | 0 <= i < |resto|
      ensures LineaDe(db1.detalles, v, resto[i].productoId)
              <==> LineaDe(db.detalles, v, resto[i].productoId) || resto[i].productoId == items[0].productoId
    {
      LineaDeAnadir(db.detalles, d, v, resto[i].productoId);
    }
    if TodosVisibles(db, items) && ProductosDistintos(items) && SinLineas(db.detalles, v, items) {
      assert ProductosDistintos(resto) by {
        forall i, j | 0 <= i < j < |resto| ensures resto[i].productoId != resto[j].productoId {
          assert resto[i] == items[i + 1] && resto[j] == items[j + 1];
        }
      }
      assert SinLineas(db1.detalles, v, resto) by {
        forall i | 0 <= i < |resto| ensures !LineaDe(db1.detalles, v, resto[i].productoId) {
          assert resto[i] == items[i + 1];
        }
      }
    }
    if TodosVisibles(db1, resto) && ProductosDistintos(resto) && SinLineas(db1.detalles, v, resto) {
      assert TodosVisibles(db, items) by {
        forall i | 0 <= i < |items| ensures Productos.Visible(db, items[i].productoId) {
          if i > 0 { assert items[i] == resto[i - 1]; }
        }
      }
      assert ProductosDistintos(items) by {
        forall i, j | 0 <= i < j < |items| ensures items[i].productoId != items[j].productoId {
          assert items[j] == resto[j - 1];
          if i > 0 { assert items[i] == resto[i - 1]; }
        }
      }
      assert SinLineas(db.detalles, v, items) by {
        forall i | 0 <= i < |items| ensures !LineaDe(db.detalles, v, items[i].productoId) {
          if i > 0 { assert items[i] == resto[i - 1]; }
        }
      }
    }
  }

  /** The store after the first line of `items` went through. */
  function TrasPrimera(db: Db, v: int, items: seq<ItemVentaRequest>): Db
    requires items != [] && items[0].productoId in db.productos
  {
    var p := items[0].productoId;
    db.(detalles := db.detalles + [Linea(db, v, items[0])],
        productos := db.productos[p := db.productos[p].(stock := db.productos[p].stock - items[0].cantidad)])
  }

  /** One line then the rest is all the lines: rows and stock. */
  lemma ComponerPaso(db: Db, v: int, items: seq<ItemVentaRequest>)
    requires items != [] && Productos.Visible(db, items[0].productoId)
    requires TodosVisibles(TrasPrimera(db, v, items), items[1..])
    ensures TodosVisibles(db, items)
    ensures var db1 := TrasPrimera(db, v, items);
            db1.detalles + Lineas(db1, v, items[1..]) == db.detalles + Lineas(db, v, items)
    ensures var db1 := TrasPrimera(db, v, items);
            Descontar(db1.productos, items[1..]) == Descontar(db.productos, items)
    ensures [ItemRespuesta(db, items[0])] + Respuestas(TrasPrimera(db, v, items), items[1..]) == Respuestas(db, items)
  {
    var db1 := TrasPrimera(db, v, items);
    TrasPrimeraCatalogo(db, v, items);
    VisiblesPaso(db, items);
    LineasPaso(db, v, items);
    assert db1.detalles + Lineas(db1, v, items[1..])
        == db.detalles + ([Linea(db, v, items[0])] + Lineas(db, v, items[1..]));
    DescontarPaso(db.productos, items);
  }

  /** The first line only moved stock, so the rest prices as before. */
  lemma TrasPrimeraCatalogo(db: Db, v: int, items: seq<ItemVentaRequest>)
    requires items != [] && items[0].productoId in db.productos
    ensures var db1 := TrasPrimera(db, v, items);
            && (TodosVisibles(db1, items[1..]) <==> TodosVisibles(db, items[1..]))
            && (TodosVisibles(db, items[1..]) ==>
                  && Lineas(db1, v, items[1..]) == Lineas(db, v, items[1..])
                  && Respuestas(db1, items[1..]) == Respuestas(db, items[1..]))
  {
    var db1 := TrasPrimera(db, v, items);
    assert MismoCatalogo(db, db1);
    CatalogoBasta(db, db1, v, items[1..]);
  }

  lemma VisiblesPaso(db: Db, items: seq<ItemVentaRequest>)
    requires items != [] && Productos.Visible(db, items[0].productoId) && TodosVisibles(db, items[1..])
    ensures TodosVisibles(db, items)
  {
    forall i | 0 <= i < |items| ensures Productos.Visible(db, items[i].productoId) {
      if i > 0 { assert items[i] == items[1..][i - 1]; }
    }
  }

  lemma LineasPaso(db: Db, v: int, items: seq<ItemVentaRequest>)
    requires items != [] && TodosVisibles(db, items)
    ensures Lineas(db, v, items) == [Linea(db, v, items[0])] + Lineas(db, v, items[1..])
    ensures Respuestas(db, items) == [ItemRespuesta(db, items[0])] + Respuestas(db, items[1..])
  {
  }

  /** Taking the first line's quantity off, then the rest, is taking all. */
  lemma DescontarPaso(productos: map<int, Producto>, items: seq<ItemVentaRequest>)
    requires items != [] && items[0].productoId in productos
    ensures var p := items[0].productoId;
            Descontar(productos[p := productos[p].(stock := productos[p].stock - items[0].cantidad)], items[1..])
            == Descontar(productos, items)
  {
  }

  /** The lines of a sale, processed in order. The call succeeds exactly when
      every product exists, no two lines name the same product and none clashes
      with a stored line; it then appends the rows in request order, takes each
      product's total quantity off its stock and answers with the response
      items in request order. */
  function ProcesarItems(db: Db, v: int, items: seq<ItemVentaRequest>): (r: Salida<seq<ItemVentaResponse>>)
    requires v in db.ventas
    decreases |items|
    ensures r.Ok? <==> TodosVisibles(db, items) && ProductosDistintos(items) && SinLineas(db.detalles, v, items)
    ensures TodosVisibles(db, items) && r.Err? ==> r.error == ClaveDuplicada
    ensures r.Ok? ==> r.value.db == db.(detalles := db.detalles + Lineas(db, v, items),
                                        productos := Descontar(db.productos, items))
    ensures r.Ok? ==> r.value.valor == Respuestas(db, items)
    ensures r.Ok? && Valida(db) ==> Valida(r.value.db)
  {
    if items == [] then
      assert db.(detalles := db.detalles + [], productos := Descontar(db.productos, [])) == db;
      Ok(Paso(db, []))
    else
      var r0 := ProcesarItem(db, v, items[0]);
      if r0.Err? then
        Err(r0.error)
      else
        CondicionesResto(db, v, items);
        var r1 := ProcesarItems(r0.value.db, v, items[1..]);
        if r1.Err? then
          Err(r1.error)
        else
          assert r0.value.db == TrasPrimera(db, v, items);
          ComponerPaso(db, v, items);
          Ok(Paso(r1.value.db, [r0.value.valor] + r1.value.valor))
  }

  // ---------------------------------------------------------------------------
  // crearVenta
  // ---------------------------------------------------------------------------

  /** The customer part of a response: the repository looks the customer up and
      answers null when it is not found, without failing. */
  function ClienteDeVenta(db: Db, clienteId: Option<int>): (r: Option<ClienteSimple>)
    ensures r.Some? <==> clienteId.Some? && clienteId.value in db.clientes
    ensures r.Some? ==> r.value == ClienteSimple(clienteId.value, db.clientes[clienteId.value].nombre)
  {
    if clienteId.None? then None
    else
      match Clientes.GetById(db, clienteId.value)
      case None => None
      case Some(c) => Some(ClienteSimple(c.id, c.nombre))
  }

  /** The foreign key on `Ventas.clienteId` accepts the value: null, or a
      stored customer. */
  predicate ClienteValido(db: Db, clienteId: Option<int>) {
    clienteId.None? || clienteId.value in db.clientes
  }

  /** The header row `crearVenta` inserts, before the ticket is stamped. */
  function Cabecera(req: VentaRequest, ahora: int, subtotal: real, iva: real): Venta {
    Venta(req.clienteId, req.empleadoId, ahora, subtotal, iva, subtotal + iva - req.descuento,
          ESTADO_COMPLETADA, req.metodoPago, req.descuento, None)
  }

  /** No stored line belongs to a sale id the store has not handed out. */
  lemma SinLineasDeVentaNueva(db: Db, items: seq<ItemVentaRequest>)
    requires Valida(db)
    ensures SinLineas(db.detalles, db.secuencias.venta, items)
  {
    var id := db.secuencias.venta;
    forall j | 0 <= j < |db.detalles| ensures db.detalles[j].ventaId != id {
      assert db.detalles[j].ventaId in db.ventas;
    }
  }

  /** `crearVenta`. In order: the employee must exist; every line is priced,
      failing on the first unknown product; the header is inserted with status
      `COMPLETADA` under the next sale id (the store refuses a customer id that
      is not stored); the lines are inserted and take their stock (the store
      refuses a second line for the same product); the ticket number is
      stamped. The total is subtotal plus tax minus the sale discount, with no
      floor, and an empty list of lines is accepted. */
  function CrearVenta(db: Db, req: VentaRequest, ahora: int, anio: nat): (r: Salida<VentaResponse>)
    requires Valida(db)
    ensures req.empleadoId !in db.empleados ==> r == Err(EmpleadoNoEncontrado)
    ensures req.empleadoId in db.empleados && !TodosVisibles(db, req.items) ==>
              r == Err(ProductoNoEncontrado(req.items[PrimerFaltante(db, req.items)].productoId))
    ensures req.empleadoId in db.empleados && TodosVisibles(db, req.items) && !ClienteValido(db, req.clienteId) ==>
              r == Err(ClaveForanea)
    ensures (req.empleadoId in db.empleados && TodosVisibles(db, req.items) && ClienteValido(db, req.clienteId)
             && !ProductosDistintos(req.items)) ==> r == Err(ClaveDuplicada)
    ensures r.Ok? <==> req.empleadoId in db.empleados && TodosVisibles(db, req.items)
                       && ClienteValido(db, req.clienteId) && ProductosDistintos(req.items)
    ensures r.Ok? ==> Valida(r.value.db)
    ensures r.Ok? ==>
              var id := r.value.valor.id;
              && id !in db.ventas && id in r.value.db.ventas
              && r.value.db.ventas[id].estado == ESTADO_COMPLETADA
              && r.value.db.ventas[id].numeroTicket == Some(Ticket(db.secuencias.venta, anio))
              && r.value.db.ventas[id].iva == TASA_IVA * r.value.db.ventas[id].subtotal
              && r.value.db.ventas[id].total
                 == r.value.db.ventas[id].subtotal + r.value.db.ventas[id].iva - req.descuento
    ensures r.Ok? ==>
              var id := db.secuencias.venta;
              var t := CalcularTotales(db, req.items).value;
              && r.value.valor.id == id
              && r.value.db == db.(ventas := db.ventas[id := Cabecera(req, ahora, t.0, t.1).(numeroTicket := Some(Ticket(id, anio)))],
                                   detalles := db.detalles + Lineas(db, id, req.items),
                                   productos := Descontar(db.productos, req.items),
                                   secuencias := db.secuencias.(venta := id + 1))
              && r.value.valor.items == Respuestas(db, req.items)
  {
    if req.empleadoId !in db.empleados then Err(EmpleadoNoEncontrado)
    else
      var totales := CalcularTotales(db, req.items);
      if totales.Err? then Err(totales.error)
      else if !ClienteValido(db, req.clienteId) then Err(ClaveForanea)
      else
        var id := db.secuencias.venta;
        var cabecera := Cabecera(req, ahora, totales.value.0, totales.value.1);
        var db1 := db.(ventas := db.ventas[id := cabecera], secuencias := db.secuencias.(venta := id + 1));
        assert Valida(db1) by {
          assert ClavesBajo(db1.ventas.Keys, db1.secuencias.venta);
          assert ForaneasVentas(db1);
          assert ForaneasDetalles(db1);
        }
        SinLineasDeVentaNueva(db, req.items);
        var r1 := ProcesarItems(db1, id, req.items);
        if r1.Err? then Err(r1.error)
        else
          var db2 := r1.value.db;
          var ticket := Ticket(id, anio);
          var db3 := db2.(ventas := db2.ventas[id := db2.ventas[id].(numeroTicket := Some(ticket))]);
          assert Valida(db3) by {
            assert ForaneasVentas(db3);
            assert ForaneasDetalles(db3);
          }
          assert MismoCatalogo(db1, db);
          CatalogoBasta(db1, db, id, req.items);
          Ok(Paso(db3, VentaResponse(id, ClienteDeVenta(db, req.clienteId),
                                     EmpleadoSimple(req.empleadoId, db.empleados[req.empleadoId].nombre),
                                     ahora, cabecera.subtotal, cabecera.iva, cabecera.total,
                                     ESTADO_COMPLETADA, req.metodoPago, r1.value.valor, Some(ticket))))
  }

  // ---------------------------------------------------------------------------
  // Reading sales (`construirVentaResponse`, `obtenerVentaPorId`,
  // `obtenerVentasPorFecha`)
  // ---------------------------------------------------------------------------

  /** A stored line joined with its product. */
  function ItemDeDetalle(db: Db, d: Detalle): ItemVentaResponse
    requires d.productoId in db.productos
  {
    var p := db.productos[d.productoId];
    ItemVentaResponse(d.productoId, p.codigoBarras.GetOr(""), p.nombre, d.cantidad,
                      d.precioUnitario, d.descuento, d.subtotal, d.promocionId)
  }

  /** The lines of sale `v` among `ds`, joined with their products (a line
      whose product is gone drops out of the inner join). The query sets no
      order; the model reads them in insertion order, which is one of the
      orders the store may use. */
  function ItemsDe(db: Db, ds: seq<Detalle>, v: int): seq<ItemVentaResponse> {
    if ds == [] then []
    else if ds[0].ventaId == v && ds[0].productoId in db.productos then [ItemDeDetalle(db, ds[0])] + ItemsDe(db, ds[1..], v)
    else ItemsDe(db, ds[1..], v)
  }

  /** `construirVentaResponse`: the stored row, its customer (null if not
      found), its employee (the call throws if the employee is gone) and its
      lines. */
  function ConstruirVentaResponse(db: Db, id: int): (r: Result<VentaResponse, Falla>)
    requires id in db.ventas
    ensures r.Err? <==> db.ventas[id].empleadoId !in db.empleados
    ensures r.Err? ==> r.error == EmpleadoNoEncontrado
    ensures r.Ok? ==>
              var v := db.ventas[id];
              && r.value.id == id && r.value.empleado.id == v.empleadoId
              && r.value.fecha == v.fecha && r.value.estado == v.estado
              && r.value.subtotal == v.subtotal && r.value.iva == v.iva && r.value.total == v.total
              && r.value.numeroTicket == v.numeroTicket
              && r.value.metodoPago == v.metodoPago
              && r.value.cliente == ClienteDeVenta(db, v.clienteId)
              && r.value.empleado.nombre == db.empleados[v.empleadoId].nombre
  {
    var v := db.ventas[id];
    match Empleados.GetById(db, v.empleadoId)
    case None => Err(EmpleadoNoEncontrado)
    case Some(e) =>
      Ok(VentaResponse(id, ClienteDeVenta(db, v.clienteId), EmpleadoSimple(e.id, e.nombre), v.fecha,
                       v.subtotal, v.iva, v.total, v.estado, v.metodoPago, ItemsDe(db, db.detalles, id),
                       v.numeroTicket))
  }

  /** `obtenerVentaPorId`: null for an unknown id, else the assembled sale. In
      a valid store assembling never fails. */
  function ObtenerVentaPorId(db: Db, id: int): (r: Result<Option<VentaResponse>, Falla>)
    ensures r.Ok? && r.value.None? <==> id !in db.ventas
    ensures Valida(db) ==> r.Ok?
    ensures r.Ok? && r.value.Some? ==> r.value.value.id == id && r.value.value.estado == db.ventas[id].estado
    ensures r.Ok? && r.value.Some? ==> id in db.ventas && ConstruirVentaResponse(db, id) == Ok(r.value.value)
    ensures id in db.ventas ==> (r.Err? <==> ConstruirVentaResponse(db, id).Err?)
  {
    if id !in db.ventas then Ok(None)
    else
      match ConstruirVentaResponse(db, id)
      case Err(e) => Err(e)
      case Ok(v) => Ok(Some(v))
  }

  /** The filter of `obtenerVentasPorFecha`: the date lies in the closed range
      and, when a status is asked for, the stored status equals it upper-cased. */
  predicate EnFiltro(v: Venta, desde: int, hasta: int, estado: Option<string>) {
    desde <= v.fecha <= hasta && (estado.None? || v.estado == Mayusculas(estado.value))
  }

  /** The ids among `ids` (in that order) whose sale passes the filter. */
  function Seleccion(db: Db, ids: seq<int>, desde: int, hasta: int, estado: Option<string>): (r: seq<int>)
    requires forall i :: 0 <= i < |ids| ==> ids[i] in db.ventas
    ensures forall i :: 0 <= i < |r| ==> r[i] in db.ventas
    ensures forall x :: x in r <==> x in ids && EnFiltro(db.ventas[x], desde, hasta, estado)
    ensures |r| <= |ids|
  {
    if ids == [] then []
    else
      assert forall i :: 1 <= i < |ids| ==> ids[1..][i - 1] == ids[i];
      var resto := Seleccion(db, ids[1..], desde, hasta, estado);
      if EnFiltro(db.ventas[ids[0]], desde, hasta, estado) then [ids[0]] + resto else resto
  }

  /** `obtenerVentasPorFecha`: the selected sales, assembled, in the order the
      store lists `ids`. */
  function ObtenerVentasPorFecha(db: Db, ids: seq<int>, desde: int, hasta: int, estado: Option<string>): (r: Result<seq<VentaResponse>, Falla>)
    requires forall i :: 0 <= i < |ids| ==> ids[i] in db.ventas
    ensures Valida(db) ==> r.Ok?
    ensures r.Ok? ==>
              var sel := Seleccion(db, ids, desde, hasta, estado);
              && |r.value| == |sel|
              && forall i :: 0 <= i < |sel| ==> ConstruirVentaResponse(db, sel[i]) == Ok(r.value[i])
  {
    Construir(db, Seleccion(db, ids, desde, hasta, estado))
  }

  /** Assembles each sale of `ids`, failing if any assembly fails. */
  function Construir(db: Db, ids: seq<int>): (r: Result<seq<VentaResponse>, Falla>)
    requires forall i :: 0 <= i < |ids| ==> ids[i] in db.ventas
    ensures r.Ok? <==> forall i :: 0 <= i < |ids| ==> ConstruirVentaResponse(db, ids[i]).Ok?
    ensures r.Ok? ==> |r.value| == |ids|
                      && forall i :: 0 <= i < |ids| ==> ConstruirVentaResponse(db, ids[i]) == Ok(r.value[i])
  {
    if ids == [] then Ok([])
    else
      assert forall i :: 1 <= i < |ids| ==> ids[1..][i - 1] == ids[i];
      match ConstruirVentaResponse(db, ids[0])
      case Err(e) => Err(e)
      case Ok(v) =>
        match Construir(db, ids[1..])
        case Err(e) => Err(e)
        case Ok(resto) => Ok([v] + resto)
  }

  /** The status filter does not care how the caller cased it. */
  lemma FiltroEstadoMayusculas(db: Db, ids: seq<int>, desde: int, hasta: int, e: string)
    requires forall i :: 0 <= i < |ids| ==> ids[i] in db.ventas
    ensures ObtenerVentasPorFecha(db, ids, desde, hasta, Some(e))
            == ObtenerVentasPorFecha(db, ids, desde, hasta, Some(Mayusculas(e)))
  {
    MayusculasIdempotente(e);
    SeleccionMayusculas(db, ids, desde, hasta, e);
  }

  lemma {:induction false} SeleccionMayusculas(db: Db, ids: seq<int>, desde: int, hasta: int, e: string)
    requires forall i :: 0 <= i < |ids| ==> ids[i] in db.ventas
    requires Mayusculas(Mayusculas(e)) == Mayusculas(e)
    ensures Seleccion(db, ids, desde, hasta, Some(e)) == Seleccion(db, ids, desde, hasta, Some(Mayusculas(e)))
  {
    if ids != [] {
      assert forall i :: 1 <= i < |ids| ==> ids[1..][i - 1] == ids[i];
      SeleccionMayusculas(db, ids[1..], desde, hasta, e);
    }
  }

  // ---------------------------------------------------------------------------
  // Sums over the stored lines of a sale
  // ---------------------------------------------------------------------------

  function SubtotalVenta(ds: seq<Detalle>, v: int): real {
    if ds == [] then 0.0 else (if ds[0].ventaId == v then ds[0].subtotal else 0.0) + SubtotalVenta(ds[1..], v)
  }

  function IvaVenta(ds: seq<Detalle>, v: int): real {
    if ds == [] then 0.0 else (if ds[0].ventaId == v then ds[0].iva else 0.0) + IvaVenta(ds[1..], v)
  }

  /** Quantity of product `p` on the lines of sale `v`. */
  function CantidadVendida(ds: seq<Detalle>, v: int, p: int): int {
    if ds == [] then 0
    else (if ds[0].ventaId == v && ds[0].productoId == p then ds[0].cantidad else 0) + CantidadVendida(ds[1..], v, p)
  }

  // ---------------------------------------------------------------------------
  // anularVenta
  // ---------------------------------------------------------------------------

  /** The product table after each line of sale `v` among `ds` gave its
      quantity back. */
  function Reponer(productos: map<int, Producto>, ds: seq<Detalle>, v: int): map<int, Producto> {
    map p | p in productos :: productos[p].(stock := productos[p].stock + CantidadVendida(ds, v, p))
  }

  /** Giving the first line back, then the rest, is giving all back. */
  lemma ReponerPaso(productos: map<int, Producto>, ds: seq<Detalle>, v: int)
    requires ds != []
    ensures var d := ds[0];
            var tras := if d.ventaId == v && d.productoId in productos
                        then productos[d.productoId := productos[d.productoId].(stock := productos[d.productoId].stock + d.cantidad)]
                        else productos;
            Reponer(tras, ds[1..], v) == Reponer(productos, ds, v)
  {
  }

  /** The loop of `anularVenta` over the lines `ds`: `sumarStock` for each
      line of sale `v`. */
  function ReponerStock(db: Db, ds: seq<Detalle>, v: int): (r: Db)
    decreases |ds|
    ensures r == db.(productos := Reponer(db.productos, ds, v))
  {
    if ds == [] then
      assert Reponer(db.productos, ds, v) == db.productos;
      db
    else
      var db1 := if ds[0].ventaId == v then Productos.SumarStock(db, ds[0].productoId, ds[0].cantidad).db else db;
      ReponerPaso(db.productos, ds, v);
      ReponerStock(db1, ds[1..], v)
  }

  /** `anularVenta`: null for an unknown id; an already reversed sale comes
      back as stored, with nothing changed; otherwise the status becomes
      `ANULADA`, every line of the sale gives its quantity back to stock, and
      the sale comes back as stored afterwards. */
  function AnularVenta(db: Db, id: int): (r: Salida<Option<VentaResponse>>)
    ensures id !in db.ventas ==> r == Ok(Paso(db, None))
    ensures id in db.ventas ==> (r.Err? <==> db.ventas[id].empleadoId !in db.empleados)
    ensures r.Ok? ==> Ok(r.value.valor) == ObtenerVentaPorId(r.value.db, id)
    ensures r.Ok? && id in db.ventas && db.ventas[id].estado == ESTADO_ANULADA ==> r.value.db == db
    ensures r.Ok? && id in db.ventas && db.ventas[id].estado != ESTADO_ANULADA ==>
              r.value.db == db.(ventas := db.ventas[id := db.ventas[id].(estado := ESTADO_ANULADA)],
                                productos := Reponer(db.productos, db.detalles, id))
    ensures r.Ok? && id in db.ventas ==> r.value.valor.Some? && r.value.valor.value.estado == ESTADO_ANULADA
    ensures r.Ok? && Valida(db) ==> Valida(r.value.db)
  {
    if id !in db.ventas then Ok(Paso(db, None))
    else if db.ventas[id].estado == ESTADO_ANULADA then
      match ConstruirVentaResponse(db, id)
      case Err(e) => Err(e)
      case Ok(v) => Ok(Paso(db, Some(v)))
    else
      var db1 := db.(ventas := db.ventas[id := db.ventas[id].(estado := ESTADO_ANULADA)]);
      var db2 := ReponerStock(db1, db1.detalles, id);
      assert Valida(db) ==> Valida(db2) by {
        if Valida(db) {
          assert ForaneasVentas(db2);
          assert CodigosBarrasUnicos(db2.productos) by {
            forall a, b | a in db2.productos && b in db2.productos && db2.productos[a].codigoBarras.Some?
                          && db2.productos[a].codigoBarras == db2.productos[b].codigoBarras
              ensures a == b
            {
              assert db2.productos[a].codigoBarras == db.productos[a].codigoBarras;
              assert db2.productos[b].codigoBarras == db.productos[b].codigoBarras;
            }
          }
        }
      }
      match ConstruirVentaResponse(db2, id)
      case Err(e) => Err(e)
      case Ok(v) => Ok(Paso(db2, Some(v)))
  }
}

=== FILE: wrappers.dfy ===
/** Optional values and results with an error, the two shapes every repository
    operation of SellPoint returns: a nullable row, or a value that may instead
    have thrown. */
module Wrappers {

  /** A nullable value (`T?` in the Kotlin source). */
  datatype Option<+T> = None | Some(value: T) {

    /** The Elvis operator `x ?: default`. */
    function GetOr(default: T): T {
      match this
      case Some(v) => v
      case None => default
    }
  }

  /** Either a value or the error the call would have thrown. */
  datatype Result<+T, +E> = Ok(value: T) | Err(error: E)
}
